=== FILE: README.md ===
# static-admin core, modelled in Dafny

static-admin is a small admin UI for static sites whose content lives in GitHub
repositories. It has a Go back end and a React front end. This project models
the parts of it that are plain data transformations:

- **Blocks to Markdown.** `blocks/parser.go` and the older `markdown.go` turn
  editor blocks into Markdown text. The blocks are header, paragraph, list,
  code, quote, table, delimiter, image and alert.
- **Frontmatter.** `markdown/frontmatter.go` and `handlers.go` split a
  document into its `---`-delimited YAML header and its body, type the header's
  fields, put them in a fixed order and write them back as YAML.
- **Markdown to blocks.** These are the goldmark-independent parts of
  `markdown/parser.go`: option defaults, node routing, checklist detection,
  list depth, counter types, admonitions, citations and `<p>` stripping.
- **GitHub helpers.** Repository URL parsing, the `Link` header's `rel="next"`
  target (section 3 of RFC 8288), the five-minute repository cache with its
  keys and cleaner, and the sorted organization and repository listings.
- **Front-end state.** The template editor's field list, the post form's
  submission, the repository picker of the sites page, and `formatPostId`.

One Dafny module models each source file. Every operation is a pure function
over immutable datatypes, and page state is a value passed in and returned.

- **Third-party code is a function parameter.** This covers the YAML library,
  goldmark, goquery, html-to-markdown, `time.Parse`/`Format` and the elem-go
  figure renderer.
- **HTTP requests are function parameters.** A request's outcome, and a UI
  promise's, is a parameter too.
- **Go failures are `Result`s.** A Go error is `Result.Err`. A failed type
  assertion or any other runtime panic is `Result.Panic`.

Shared modules:

- `Wrappers`: `Option` and `Result`.
- `Strs`: Go and JavaScript whitespace, `Split`/`Join`/`TrimSpace`/`Trim`, and decimal rendering.
- `Ordering`: byte-wise string order and a stable sort.
- `Json`: decoded `interface{}` values.
- `Fields`: `FrontmatterField` and the form values.

## Model

| member | source | states |
|---|---|---|
| BlocksMarkdown.ApplyOptions | blocks/parser.go:31-56 | Options are applied in order over the defaults. Without a border option the default border is kept, and a final border option sets the border. |
| BlocksMarkdown.UnsetFlagKept | blocks/parser.go:31-56 | Each of the three image flags that no option names keeps its starting value. |
| BlocksMarkdown.LastOptionWins | blocks/parser.go:31-56 | For each of border, background and stretched, the last option for that flag decides it, whatever options for other flags follow. |
| BlocksMarkdown.HandleBlock | blocks/parser.go:66-75 | A block type with no handler is the error "no handler found for block type T". |
| BlocksMarkdown.BlockDispatchPlain | blocks/parser.go:82-92 | A paragraph, code, quote, table or delimiter block is exactly its own handler's output, which cannot fail. |
| BlocksMarkdown.BlockDispatchWrapped | blocks/parser.go:72-75 | An image, header, list or alert block is its own handler's result, passed through the per-block error wrapping. |
| BlocksMarkdown.Wrapped | blocks/parser.go:72-75 | A handler's output is kept on success. A handler error E becomes "error handling block type T: E". A panic propagates unchanged. |
| BlocksMarkdown.HandleParagraph | blocks/parser.go:95-101 | A paragraph without a string `text` writes nothing. Otherwise it writes the converted, trimmed text and a blank line. |
| BlocksMarkdown.HandleDelimiter | blocks/parser.go:311-314 | A delimiter is a thematic break followed by a blank line, whatever its data. |
| BlocksMarkdown.Render | blocks/parser.go:62-76 | Rendering succeeds iff every block's handler succeeds. No blocks give the empty text. One block gives exactly that block's handler result. |
| BlocksMarkdown.RenderAppend | blocks/parser.go:66-76 | The buffer of a concatenated block list is the first list's text followed by the second's. |
| BlocksMarkdown.RenderFails | blocks/parser.go:62-76 | When a block fails and every block before it succeeded, rendering returns that block's failure. |
| BlocksMarkdown.ParseBlocksToMarkdown | blocks/parser.go:59-79 | Conversion succeeds iff every block converts, under the default options with the given ones applied. A failure is the first failing block's error, with no partial output. A success is the blocks' concatenated text with surrounding whitespace trimmed, so it has none at either end. |
| BlocksMarkdown.UnhandledTypeFails | blocks/parser.go:66-70 | A block type without a handler makes the whole conversion fail, with "no handler found for block type" and that type when no earlier block failed. |
| BlocksMarkdown.HandleHeader | blocks/parser.go:103-116 | A missing or non-string `text` and a missing or non-numeric `level` are the two distinct errors. A negative level panics. Otherwise the output is `level` `#` characters, then a space, the converted text and a blank line. |
| BlocksMarkdown.HeaderLevelReadBack | blocks/parser.go:114 | Counting a rendered header's leading `#` characters gives back the block's level. |
| BlocksMarkdown.HandleList | blocks/parser.go:118-140 | A missing `items` array is an error. The list converts iff every item, at every depth, is an object. Its text is then the pre-order listing of item lines, with `style` defaulting to unordered, followed by one newline. Any other failure is prefixed "error processing list: ". |
| BlocksMarkdown.ProcessList | blocks/parser.go:142-156 | A list succeeds iff each of its remaining items is well formed, and a failure is always a returned error. A non-object item is "unexpected item type in list: " with its Go type name. |
| BlocksMarkdown.ProcessListFirstBad | blocks/parser.go:143-152 | When every item before it is well formed, the first non-object item's type error is the list's result. |
| BlocksMarkdown.ProcessListText | blocks/parser.go:142-155 | A well-formed list's text is the item lines of its pre-order outline: each object item, then its nested items one level deeper. |
| BlocksMarkdown.ProcessListItemText | blocks/parser.go:158-207 | A well-formed item's text is its own line followed by the lines of its nested subtree. |
| BlocksMarkdown.ProcessListItem | blocks/parser.go:158-207 | An item renders iff its nested items are well formed. Its line is indented by four spaces per depth level. A nested failure is prefixed "error processing nested list: ". |
| BlocksMarkdown.ItemLine | blocks/parser.go:159-196 | An item line is four spaces per depth level, then the marker, the converted content and a newline. A checklist marker is "[x] " iff `meta.checked` is true and "[ ] " otherwise. An ordered marker is the ordered prefix of the list's `start` (default 1) and `counterType` (default numeric). Any other style uses "- ". |
| BlocksMarkdown.OrderedPrefix | blocks/parser.go:209-227 | Every ordered-list marker ends in ". ". |
| BlocksMarkdown.OrderedPrefixNumeric | blocks/parser.go:210-213 | With the numeric counter and an index of at least 1 (or 0 at depth 0), the marker is all digits and reads back as the adjusted index `index + depth*(index-1)`. |
| BlocksMarkdown.OrderedPrefixAlpha | blocks/parser.go:219-222 | With an alpha counter and an adjusted index k in 1..26, the marker is the single letter `'a'+k-1` or `'A'+k-1`. |
| BlocksMarkdown.OrderedPrefixRoman | blocks/parser.go:215-218 | With a Roman counter and an index of at least 1 (or 0 at depth 0), the marker's numeral value is the adjusted index. |
| BlocksMarkdown.ToRoman | blocks/parser.go:229-251 | A non-positive number gives "". Every character is one of `MDCLXVI`, or one of `mdclxvi` in lower case. |
| BlocksMarkdown.ToRomanValue | blocks/parser.go:229-251 | The numeral written for n reads back as n, in either case. |
| BlocksMarkdown.RomanFromValue | blocks/parser.go:238-249 | Writing n from any symbol position reads back as n. This is the induction behind ToRomanValue. |
| BlocksMarkdown.HandleCode | blocks/parser.go:252-267 | A missing `code` writes nothing. A non-empty language gives the fenced form exactly. Otherwise every line is indented by four spaces, and removing the indent gives the code back. |
| BlocksMarkdown.HandleQuote | blocks/parser.go:269-280 | A missing `text` writes nothing. Otherwise the output is exactly the quoted text line, then for a non-empty caption the empty quoted line and `> -- <caption>…</caption>`, then a blank line. |
| BlocksMarkdown.QuoteReadBack | blocks/parser.go:270-277 | When the converter never yields a newline, splitting a quote on newlines reads back the converted text, and the converted caption exactly when the caption is non-empty. |
| BlocksMarkdown.SeparatorLine | blocks/parser.go:292-296 | The separator after the heading row has exactly one ` --- ` cell per heading cell. |
| BlocksMarkdown.HandleTable | blocks/parser.go:282-309 | A missing `rows` writes nothing. Otherwise the output is the table's lines, each newline-terminated, and a final newline. Those lines are one per array row in order, with the separator after the first row only when it is an array and `withHeadings` is true. |
| BlocksMarkdown.TableRowsLines | blocks/parser.go:289-304 | The row loop, which skips non-array rows but still counts them as indices, writes exactly the reference listing of array rows, with the separator inserted after row 0 under headings. |
| BlocksMarkdown.TableSplit | blocks/parser.go:282-309 | When the converter never yields a newline, splitting a table on newlines gives one line per array row in order, the separator right after the first when headings are on, then two empty pieces. |
| BlocksMarkdown.ExtractImageData | blocks/parser.go:347-361 | The data succeeds iff `file` is an object with a string `url`. The two failures have distinct messages. The caption defaults to "". |
| BlocksMarkdown.ClassList | blocks/parser.go:363-376 | Each class is present iff its option is set, and the classes come in the fixed order border, background, stretched. |
| BlocksMarkdown.ImageClasses | blocks/parser.go:363-376 | The class string is empty iff no option is set. Otherwise splitting it on spaces gives the class list. |
| BlocksMarkdown.HandleImage | blocks/parser.go:326-345 | An image converts iff its data extracts, and never panics. A captioned image becomes the figure with the option classes. An image without a caption becomes `![alt](url)` and an options comment whose words read back as the options. |
| BlocksMarkdown.ImageMarkdown | blocks/parser.go:391-406 | The output starts with `![alt](url)`, a newline and `<!-- Options: `, and ends with `-->` and a blank line. The words in between read back as exactly the set options. |
| BlocksMarkdown.OptionWordsReadBack | blocks/parser.go:395-405 | Reading the comment words in the fixed order border, background, stretched gives back the options they were written from, so each word is present iff its flag is set. |
| BlocksMarkdown.HandleAlert | blocks/parser.go:408-457 | A missing `text` and an unsupported type are the two errors. Otherwise the first line is the type's header from the fixed map, and every line starts with "> ". With `align` "center" the text lines are wrapped in the `<div align='center'>` lines. Removing the wrapper and the "> " prefixes reads back the raw text when centred and the converted text otherwise. |
| BlocksMarkdown.AlertText | blocks/parser.go:438-455 | For any processed text, the alert block starts with the header line, is centre-wrapped iff `center`, and its quoted lines read back as exactly the processed text. |
| BlocksMarkdown.SplitTerminatedNewline | blocks/parser.go:443-458 | Newline-free lines, each newline-terminated and followed by a blank line, split back into exactly those lines and two empty pieces; the alert and the indented code are read back this way. |
| FrontmatterScan.ScanLines | markdown/frontmatter.go:27-67 | The scanner yields no lines iff the input is empty, and no line contains a newline. |
| FrontmatterScan.ScanTerminated | markdown/frontmatter.go:44-67 | Newline-terminated lines scan back to themselves. |
| FrontmatterScan.CloserIndex | markdown/frontmatter.go:44-50 | This is the first line after the opener whose trimmed text is `---`, or the end. |
| FrontmatterScan.SplitDocument | markdown/frontmatter.go:33-67 | The document is Empty iff the input is empty. It has NoFrontmatter iff the first line is not `---` or `---yaml`. It is Unterminated iff no later line closes it. A delimited split is the lines between the opener and the first closer, plus the lines after it, each newline-terminated. |
| FrontmatterScan.SplitComposed | markdown/frontmatter.go:33-67 | Opener, YAML lines, closer and body lines, written out, split back into that YAML and that body. |
| Frontmatter.ParseField | markdown/frontmatter.go:79-120 | This is the corrected half of the finding below: every number is tagged "number" and keeps its value, where the code as written uses Go's type name. Otherwise it follows the source. A `date` key must be a string that parses, or its error is returned. A slice becomes `stringSlice` holding its string items in order, and a slice with none is an error. Scalars always succeed. A nil value panics. The field keeps its key, and only an object value gets an unknown type tag. |
| Frontmatter.ParseFieldAsWritten | markdown/frontmatter.go:86-103 | As written, a float is tagged "float64" and a YAML integer is tagged "int" with a zero number. |
| Frontmatter.PriorityOrder | markdown/frontmatter.go:127-136 | The priority part lists the fields in the order title, date, description, category, categories, tags. |
| Frontmatter.OtherFields | markdown/frontmatter.go:138-149 | The remaining non-bool fields are sorted by name, and they are exactly the non-priority, non-bool fields. |
| Frontmatter.BoolFields | markdown/frontmatter.go:151-159 | The remaining bool fields are sorted by name, and they are exactly the non-priority bool fields. |
| Frontmatter.OrderFieldsShape | markdown/frontmatter.go:123-161 | The order is priority fields in key order, then the other fields sorted, then the bool fields sorted. |
| Frontmatter.OrderFieldsPermutation | markdown/frontmatter.go:127-161 | The ordered list is a permutation of the parsed fields. |
| Frontmatter.ParseFrontmatterFields | markdown/frontmatter.go:77-162 | Parsing succeeds iff every entry parses. On success there is one field per key and the names are distinct. The result is the parsed fields put in the display order. A flag selects the number tagging: false is the code as written, true the corrected tagging. |
| Frontmatter.ParseFrontmatterFieldsOrdered | markdown/frontmatter.go:123-161 | A successful result rearranges the parsed fields into three runs. First come the priority fields in key order, then the other non-bool fields sorted by name, then the bool fields sorted by name. |
| Frontmatter.ParseFrontmatterFieldsFails | markdown/frontmatter.go:77-162 | A failing key makes the whole parse fail with that key's error when every key before it parsed. |
| Frontmatter.ParseFrontmatterFieldsKeepsAll | markdown/frontmatter.go:77-162 | Every key's parsed field is in a successful result. |
| Frontmatter.AsWrittenIntField | markdown/frontmatter.go:86-103 | As written, a whole-number entry comes out of the parse as one field tagged "int" with number 0. |
| Frontmatter.ExtractFrontMatter | markdown/frontmatter.go:26-75 | Empty input is "empty content". Without an opener the result is no fields and the whole input as body. Without a closer the result is "unterminated frontmatter". A YAML error is wrapped. Otherwise the result is the parsed fields, tagged as the flag selects (false is the code as written), and the body. |
| Frontmatter.FieldValue | markdown/frontmatter.go:169-183 | A field has a YAML value iff its type is one of the five known types. Otherwise the result is "unknown field type: T". |
| Frontmatter.YamlMap | markdown/frontmatter.go:166-185 | The map has exactly the fields' names and is built iff every type is known. |
| Frontmatter.YamlMapFails | markdown/frontmatter.go:166-185 | The first field with an unknown type tag is the one reported. |
| Frontmatter.YamlMapValues | markdown/frontmatter.go:166-185 | A repeated name keeps the value of its last field. |
| Frontmatter.FrontmatterFieldToYaml | markdown/frontmatter.go:165-195 | Type errors and marshal errors are reported distinctly. Success is the marshalled map between `---\n` delimiters. |
| Frontmatter.FieldRoundTrip | markdown/frontmatter.go:97-118 | A parsed string, bool, number or all-string list field writes back its value. |
| Frontmatter.DateRoundTrip | markdown/frontmatter.go:89-95 | A parsed date writes back the original text when formatting inverts parsing. |
| Frontmatter.NumberNotWritable | markdown/frontmatter.go:102-103 | A numeric field parsed as written cannot be written back: the result is "unknown field type: float64". |
| FrontmatterHandler.ExtractFrontMatter | handlers.go:18-62 | The map-returning variant has the same errors and body. Without an opener it returns no map and the whole input. |
| FrontmatterHandler.ExtractorsAgree | handlers.go:18-62 | Both extractors give the same errors on empty and unterminated input, and the same body whenever both succeed. |
| LegacyMarkdown.AppendList | markdown.go:180-206 | At depth >= maxDepth nothing is written. It succeeds iff every item is an object with a string `text`. The text is then the reference listing: one line per item in pre-order, two spaces of indentation per level, and an empty line closing each list. |
| LegacyMarkdown.ListItem | markdown.go:185-203 | An ordered item always starts "1. " and any other item starts "- ", after the indentation. The item writes its line, then its non-empty `children` list one level deeper, then its non-empty `checklist`. |
| LegacyMarkdown.AppendChecklist | markdown.go:208-235 | This is the checklist counterpart of AppendList, with the same depth cut-off and indentation. An item also needs a boolean `checked` to succeed. The text is the checklist's reference listing. |
| LegacyMarkdown.ChecklistItem | markdown.go:213-232 | A checklist item starts "- [x] " iff it is checked, and "- [ ] " otherwise. The item writes its line, then its non-empty `list` as an unordered list one level deeper, then its non-empty `checklist`. |
| LegacyMarkdown.ConvertBlock | markdown.go:110-160 | An unsupported type is "unsupported block type: T". A missing type or data panics. A paragraph's converter error is returned. |
| LegacyMarkdown.ConvertDispatchText | markdown.go:115-157 | A header, paragraph, quote, code or image block with its fields present writes exactly its heading, rendered paragraph plus blank line, quote, fenced code or image line. |
| LegacyMarkdown.ConvertDispatchLists | markdown.go:126-132 | A list block is its items written as a list of its `type` from depth 0. A checklist block is its items written as a checklist from depth 0. |
| LegacyMarkdown.Header | markdown.go:115-118 | A header is `level` `#` characters, a space, the text and a blank line. |
| LegacyMarkdown.Quote | markdown.go:133-140 | The caption line "> — caption" is written iff the caption is non-empty. |
| LegacyMarkdown.Code | markdown.go:141-149 | The code sits verbatim between an opening fence carrying the language and a closing fence. |
| LegacyMarkdown.ConvertBlocksToMarkdown | markdown.go:107-164 | Conversion succeeds iff every block converts. Otherwise the result is the first failure. No blocks give the empty text, and one block gives exactly that block's result. |
| LegacyMarkdown.ConvertConcat | markdown.go:107-164 | Converting two block lists together gives the concatenation of their outputs. |
| LegacyMarkdown.ConvertFrontmatterToYaml | markdown.go:98-104 | The marshalled map is wrapped in `---\n` delimiters. A marshal error is wrapped in its message. |
| MarkdownParser.Configure | markdown/parser.go:73-85 | A setting no option touches keeps its default: depth 5, "left", and all flags false. |
| MarkdownParser.LastDepthWins | markdown/parser.go:30-34 | The last max-depth option decides the depth. |
| MarkdownParser.ProcessNode | markdown/parser.go:114-137 | A node becomes a block iff it is one of the nine handled kinds. Exactly lists and blockquotes skip their children. |
| MarkdownParser.Walk | markdown/parser.go:93-104 | The walk emits only handled nodes. |
| MarkdownParser.SkippedSubtree | markdown/parser.go:121-127 | A list or blockquote contributes one block, whatever it contains. |
| MarkdownParser.CheckboxPrefix | markdown/parser.go:200-213 | A checkbox prefix is found iff the trimmed text starts with "[ ] ", "[x] " or "[X] ". |
| MarkdownParser.CheckboxOfMarkers | markdown/parser.go:205-213 | An item is a checkbox iff it has one of the markers, and it is checked iff the marker is x or X. |
| MarkdownParser.ChecklistItems | markdown/parser.go:199-238 | The list is a checklist iff some item has a marker. Items from the first marker on carry `checked`, which holds iff that item's marker is x or X. |
| MarkdownParser.ExtractListItems | markdown/parser.go:192-243 | At depth >= maxDepth there are no items. Otherwise there is one item per list item, flagged by the checkbox rule. |
| MarkdownParser.ExtractDepth | markdown/parser.go:193-221 | Extracted items nest at most maxDepth - depth levels. |
| MarkdownParser.DetectCounterType | markdown/parser.go:245-254 | `)` gives "upper-roman", `.` gives "decimal", and anything else gives "unknown". |
| MarkdownParser.CounterTypeRoman | markdown/parser.go:245-248 | Rendered back by the block serialiser, a `)` list's marker reads as its index. |
| MarkdownParser.HandleList | markdown/parser.go:163-190 | A checklist has no meta. A non-checklist ordered list has exactly `start` and `counterType`. An unordered list has none. |
| MarkdownParser.ListDepthBounded | markdown/parser.go:169-195 | Every item of a list block nests at most MaxDepth deep, and with MaxDepth <= 0 there are no items. |
| MarkdownParser.AdmonitionHeader | markdown/parser.go:284-295 | Each of the five admonition names maps to the alert type whose header in the serialiser is `[!NAME]`. Any other name maps to "info", which has no header there. |
| MarkdownParser.HeaderAdmonition | markdown/parser.go:284-295 | Reading a serialiser header back as an admonition name gives the alert type. |
| MarkdownParser.MatchAdmonition | markdown/parser.go:280-281 | A match is exactly `[!NAME]\n` with NAME upper-case, followed by the body. |
| MarkdownParser.MatchAdmonitionComposed | markdown/parser.go:280-281 | An admonition written out is matched back into its name and body. |
| MarkdownParser.SplitCitation | markdown/parser.go:311-324 | The last line is a citation iff there is more than one line and its trimmed text starts with "--". In that case the text is the earlier lines and the caption is the trimmed remainder. Otherwise the text is the whole content. |
| MarkdownParser.CitationComposed | markdown/parser.go:311-324 | A quote followed by a "-- citation" line splits back into that quote and citation. |
| MarkdownParser.HandleBlockquote | markdown/parser.go:278-347 | An admonition becomes an alert with its type, the alignment and the converted body. Any other blockquote becomes a quote with the converted text. Its caption is empty when there is no citation, and otherwise the rendered citation. |
| MarkdownParser.StripParagraph | markdown/parser.go:515-518 | One surrounding `<p>`…`</p>` pair is removed. Anything else is left as it is. |
| MarkdownParser.StripParagraphWrapped | markdown/parser.go:515-518 | Wrapping in `<p>`…`</p>` and stripping gives the content back. |
| MarkdownParser.MarkdownToHTML | markdown/parser.go:507-532 | The result succeeds iff the conversion does. Without inline code, it is the trimmed output with the paragraph stripped. |
| GithubRepository.ParseOwnerAndRepo | github/repository.go:89-110 | Success is two non-empty parts without `/` that make up the path, minus one `.git` suffix. Failures are one of the two messages and never a panic. |
| GithubRepository.ParseGitHubURL | github/repository.go:72-86 | Only URLs strictly longer than the SSH or HTTPS prefix are parsed, after the prefix. Everything else is "invalid GitHub repository URL format". |
| GithubRepository.ParsedShape | github/repository.go:72-110 | A parsed URL is exactly prefix + owner + "/" + name, with an optional ".git". |
| GithubRepository.OwnerAndRepoRoundTrip | github/repository.go:89-110 | "owner/name", with or without ".git", parses back to (owner, name). |
| GithubRepository.HttpsURLRoundTrip | github/repository.go:80-83 | `https://github.com/o/r` parses back to (o, r). |
| GithubRepository.SshURLRoundTrip | github/repository.go:74-77 | `git@github.com:o/r.git` parses back to (o, r). |
| GithubRepository.FetchRepository | github/repository.go:16-29 | An empty URL or token is refused before any request. A URL parse failure is wrapped. Otherwise the one request goes to the parsed owner and name with a Bearer token. |
| GithubOrganizations.ExtractNextPageURL | github/organizations.go:94-107 | The result is the target of the first entry that splits into exactly two parts on `;` with the trimmed second part `rel="next"`. It is "" when there is none. |
| GithubOrganizations.TargetUnbracketed | github/organizations.go:102 | A returned target neither starts with `<` or `>` nor ends with one. |
| GithubOrganizations.ExtractRendered | github/organizations.go:94-107 | For a header rendered from `<url>; rel="…"` links, the result is the first next link's URL, or "" without one. |
| GithubOrganizations.FetchOrganizations | github/organizations.go:34-91 | Checks happen in the source order: an empty username is refused, then a URL the request cannot be created for fails with "failed to create request: ", then an empty token is refused. A fetch failure is passed on. Success is the fetched organizations, permuted and sorted by login. |
| GithubRepositories.GetCached | github/repositories.go:28-43 | An absent key misses. An expired entry misses and is deleted. A live entry hits and leaves the cache unchanged. No other key changes. |
| GithubRepositories.SetCache | github/repositories.go:46-54 | The key holds the data until five minutes later, and no other key changes. |
| GithubRepositories.SetThenGet | github/repositories.go:42-54 | What was stored at t is read back at any time up to t + 5 minutes, and missed after. |
| GithubRepositories.SetOtherKey | github/repositories.go:46-54 | Storing one key does not change what another key reads. |
| GithubRepositories.Sweep | github/repositories.go:237-243 | The sweep keeps exactly the unexpired entries, unchanged. |
| GithubRepositories.SweepKeepsLookups | github/repositories.go:237-243 | A sweep changes no later lookup. |
| GithubRepositories.CacheKeyInjective | github/repositories.go:79-81 | Different user ids or URLs give different `user:<id>:<url>` keys. |
| GithubRepositories.CachedListing | github/repositories.go:89-150 | A live entry answers without a request. Otherwise a URL the request cannot be created for fails with "failed to create request: ", then the token is required, and a fetch failure is passed on. Success is the fetched repositories sorted by name, which are then cached. |
| GithubRepositories.FetchOrgRepositories | github/repositories.go:84-153 | An empty organization is refused before the cache is read. The listing and the cache stay sorted by name. |
| GithubRepositories.FetchUserRepositories | github/repositories.go:162-228 | The user listing and the cache stay sorted by name. |
| GithubRepositories.ListingCached | github/repositories.go:93-150 | A second call within five minutes returns the same result and cache. |
| TemplateForm.DefaultFields | frontend/src/components/templates/template-form.tsx:46-101 | The defaults are title, date, category, tags, permalink and published. Their types are string, dateTime, string, stringSlice, string and bool. Only `date` holds the current date, the other date slots are unset, and every other value is empty. |
| TemplateForm.NewField | frontend/src/components/templates/template-form.tsx:503-538 | The slot of the field's type takes the value only if the value has the matching type. Every other slot keeps its empty default. |
| TemplateForm.AddField | frontend/src/components/templates/template-form.tsx:493-546 | A duplicate name returns false and sets the error, leaving the fields unchanged. An unknown type throws. Otherwise exactly one field is appended and the error is cleared. |
| TemplateForm.AddKeepsNamesDistinct | frontend/src/components/templates/template-form.tsx:498-545 | Adding keeps field names distinct. |
| TemplateForm.SaveNewRow | frontend/src/components/templates/template-form.tsx:190-198 | An empty name or type does nothing, and a taken name only sets the duplicate error. A fresh name with an unknown type throws. A fresh name with a known type appends the new field, clears the error and resets the row. |
| TemplateForm.RemoveNamed | frontend/src/components/templates/template-form.tsx:553-555 | Exactly the fields with another name remain. |
| TemplateForm.RemoveNamedAppend | frontend/src/components/templates/template-form.tsx:553-555 | Removal distributes over concatenation, so order is preserved. |
| TemplateForm.DeleteField | frontend/src/components/templates/template-form.tsx:548-556 | Deleting a default name does nothing. Deleting any other name removes every field with that name. |
| TemplateForm.DeleteKeepsDefaults | frontend/src/components/templates/template-form.tsx:549-551 | A default field survives any delete. |
| TemplateForm.UpdateField | frontend/src/components/templates/template-form.tsx:558-564 | Every field named oldName is replaced in place. Length and all other fields are kept. |
| TemplateForm.UpdateMayDuplicate | frontend/src/components/templates/template-form.tsx:558-564 | Renaming onto an existing name produces duplicate names, because nothing checks uniqueness. |
| TemplateForm.Move | frontend/src/components/templates/template-form.tsx:578 | A move puts the moved element at the target. The other elements keep their order, and the length and multiset are kept. |
| TemplateForm.MoveBack | frontend/src/components/templates/template-form.tsx:578 | Moving back undoes a move. |
| TemplateForm.FindIndex | frontend/src/components/templates/template-form.tsx:572-577 | This is the first index with the name, or -1 iff there is none. |
| TemplateForm.DragEnd | frontend/src/components/templates/template-form.tsx:566-581 | No target, or a drop onto itself, changes nothing. Otherwise the dragged field lands at the target's index, the other fields keep their order, and the result is a permutation. |
| TemplateForm.RowField | frontend/src/components/templates/template-form.tsx:312-321 | Every slot other than the chosen type's is reset, with dateTime reset to "". A string value lands in its string slot. |
| TemplateForm.RowSaveUnchanged | frontend/src/components/templates/template-form.tsx:293-321 | Saving a row with its initial value gives the normalised field back. |
| TemplateForm.SaveRow | frontend/src/components/templates/template-form.tsx:558-564 | Only the fields named like the edited one change, to the saved row. |
| PostForm.TitleBlocked | frontend/src/components/posts/post-form.tsx:59-65 | Without a title field nothing blocks. With one, a missing or falsy value or a blank string blocks. A truthy non-string title value always throws. |
| PostForm.SubmittedField | frontend/src/components/posts/post-form.tsx:79-95 | A non-date field's date slot becomes the unset sentinel. For each of the five types the type's own slot takes the form value under the field's name, read as that type. Name, type and the other slots are copied. |
| PostForm.SubmittedValueReadsBack | frontend/src/components/posts/post-form.tsx:84-94 | A form value of the field's own type is what the submitted field then holds as its value. |
| PostForm.SubmittedPost | frontend/src/components/posts/post-form.tsx:74-97 | The id and path are kept and the blocks come from the form. The fields keep their length, names and order. |
| PostForm.UneditedFieldUnchanged | frontend/src/components/posts/post-form.tsx:78-96 | Submitting a field's own value gives the delivered field back. |
| PostForm.HandleSubmit | frontend/src/components/posts/post-form.tsx:51-110 | A blocked title sets "Title cannot be empty" and sends nothing. Otherwise the post is sent with the errors cleared. A rejection becomes a toast and is not rethrown, and the saving flag ends false. |
| PostForm.NoTitleAlwaysSent | frontend/src/components/posts/post-form.tsx:59-67 | Without a title field, submission always sends the post. |
| PostForm.BlankTitleNeverSent | frontend/src/components/posts/post-form.tsx:60-70 | A whitespace-only title is never sent. |
| SitesPage.Toggle | frontend/src/pages/configuration/sites.tsx:155-163 | Only the toggled URL's membership flips. |
| SitesPage.ToggleTwice | frontend/src/pages/configuration/sites.tsx:155-163 | Toggling twice restores the selection. |
| SitesPage.ToggleAll | frontend/src/pages/configuration/sites.tsx:147-153 | Checked gives exactly the listed repositories' URLs, and unchecked gives none. |
| SitesPage.Filtered | frontend/src/pages/configuration/sites.tsx:165-167 | A repository is kept iff its name, with ASCII letters lower-cased, contains the filter lower-cased the same way. |
| SitesPage.FilteredAppend | frontend/src/pages/configuration/sites.tsx:165-167 | Filtering distributes over concatenation, so order is preserved. |
| SitesPage.EmptyFilterKeepsAll | frontend/src/pages/configuration/sites.tsx:165-167 | The empty filter keeps every repository. |
| SitesPage.OrgChanged | frontend/src/pages/configuration/sites.tsx:99-121 | No organization clears the list and the selection. A loaded list replaces it with nothing selected. A failure only sets the error. |
| SitesPage.Save | frontend/src/pages/configuration/sites.tsx:123-145 | An empty selection does nothing. Success shows the new sites and clears the organization, selection and error. A failure only sets the error. Saving ends either way. |
| SitesPage.SaveThenSaveIsNoop | frontend/src/pages/configuration/sites.tsx:124-134 | After a successful save, saving again does nothing. |
| SitesPage.SaveLabel | frontend/src/pages/configuration/sites.tsx:287-291 | The label reads "Saving..." while saving. Otherwise it is exactly "Save n Selected " followed by "Site" when n is 1 and "Sites" otherwise. |
| SitesPage.SaveLabelCount | frontend/src/pages/configuration/sites.tsx:289 | The label's digits read back as the selection size. |
| Format.FormatPostId | frontend/src/lib/format.ts:1-6 | Ids shorter than 8 are unchanged. Longer ids become 11 characters: their first 4, "...", and their last 4. |
| Format.FormatIdempotent | frontend/src/lib/format.ts:1-6 | Formatting twice equals formatting once. |

## Left out

- HTTP: every request to the GitHub API, including the pagination loops around `extractNextPageURL` and the `per_page=100` query, is one function parameter (`fetchAll`) whose result is a list or an error. Status codes and JSON decoding are inside it.
- Concurrency: the cache's RWMutex, the cleaner goroutine's ticker and the delete made under a read lock. The cache is a map threaded through the calls with an explicit clock in nanoseconds, and the store time is a parameter of its own because the fetch takes time. `Promise.all` in the sites page is one outcome.
- The cache's `interface{}` type assertion on a hit is not modelled: the cache holds repository lists only.
- Third-party libraries are function parameters: goldmark, goquery, html-to-markdown (`convertToMarkdown`), YAML marshal and unmarshal, `time.Parse`/`Format`, elem-go's figure renderer, and react-hook-form. dnd-kit's `arrayMove` is stated as a list move.
- `bufio.Scanner`'s 64 KiB token limit is not modelled. Lines of any length scan.
- Floats: `NumberValue`, header `level` and list `start` are integers.
- Go map iteration order: a decoded YAML map is a list of distinct keys, so the "first error" is the first in that list.
- Go's `nil` and empty slices are both the empty sequence.
- Frontmatter.ExtractFrontMatter: with the flag set to true, the fields are tagged by the corrected ParseField of the finding below, not as the code as written tags numbers. With false they follow the code as written.
- SitesPage.Filtered: lower-casing is ASCII-only. JavaScript's `toLowerCase` also lowers other letters, such as the Kelvin sign to `k`, and the model does not.
- `http.NewRequest`'s URL check is a parameter (`newRequest`) giving the error for a URL, if any. Request creation for later pages is inside `fetchAll`.
- BlocksMarkdown.OrderedPrefixNumeric: stated only where the adjusted index is not negative, which is exactly an index of at least 1 or 0 at depth 0 (AdjustedNonNegative). A negative one prints with a minus sign.
- BlocksMarkdown.OrderedPrefixRoman: stated for the same indexes. A negative adjusted index gives an empty marker.
- BlocksMarkdown.OrderedPrefixAlpha: stated only for adjusted indexes 1 to 26. Outside that range the source emits a non-letter rune, and the model only states that the marker ends in ". ".
- Sorting: `sort.Strings` keys are distinct, so the stable sort agrees with it. `sort.Slice` in the organization and repository listings is not stable, and the model uses a stable sort.
- The parts of `markdown/parser.go` that walk goldmark's AST are not modelled: heading text, code, HTML, figure, table and paragraph extraction, and `extractNodeText`. The walk is stated over an abstract tree of node kinds.
- MarkdownParser.MarkdownToHTML: the inline-code rewrite through goquery is a parameter, so the result is stated only for output without `<code>`.
- Format.FormatPostId: JavaScript lengths count UTF-16 code units. The model counts characters.
- TemplateForm.RowField: JavaScript's `Number()` is a parameter. A non-array value under `stringSlice` is stored as the empty list, where the source stores it unchecked.
- TemplateForm.DragEnd: for an empty field list the result is the empty list, where `arrayMove` would insert `undefined`.
- PostForm.SubmittedField: a missing or mistyped form value reads as the slot's empty default, where the source stores the raw value.
- The template editor's cancel buttons, the dialogs and all rendering are UI only.
- HTTP handlers, middleware, JWT, sessions, the database and the binary-content checks of `github.go` are not part of this model.

## Findings

| source | as written | input that shows it | evidently intended | confidence | as-written member | corrected member |
|---|---|---|---|---|---|---|
| markdown/frontmatter.go:86, 102-103, 175-176 | A numeric YAML value keeps the type tag `reflect.TypeOf(value).String()`, which is "float64", or "int" for a YAML integer with its number left at 0. `FrontmatterFieldToYaml` only accepts "number". | frontmatter `weight: 3` parses to a field of type "int", and writing it back fails with "unknown field type: int" | numeric fields are tagged "number" and carry their value, so they write back | not executed | Frontmatter.ParseFieldAsWritten (Frontmatter.NumberNotWritable, Frontmatter.IntegerNotWritable) | Frontmatter.ParseField (Frontmatter.FieldRoundTrip) |

=== FILE: blocks_markdown.dfy ===
/** The block serialiser of `blocks/parser.go`: editor blocks (paragraph, header,
    list, code, quote, table, alert, delimiter, image) to Markdown text.

    The HTML-to-Markdown converter and the `<figure>` renderer are third-party
    code and are passed in as `Renderers`. */
module BlocksMarkdown {
  import opened Wrappers
  import opened Strs
  import opened Json

  /** One editor block: its type tag and its `map[string]interface{}` data. */
  datatype Block = Block(blockType: string, data: map<string, Value>)

  datatype MarkdownOptions = MarkdownOptions(
    withImageBorder: bool,
    withImageBackground: bool,
    withImageStretched: bool)

  const DefaultOptions: MarkdownOptions := MarkdownOptions(false, false, false)

  /** The functional options of the Go API. */
  datatype MarkdownOption =
    | WithImageBorder(border: bool)
    | WithImageBackground(background: bool)
    | WithImageStretched(stretched: bool)

  /** `toMarkdown` is html-to-markdown's `ConvertString` (its error is ignored by
      the source); `figure(url, caption, classes)` renders elem-go's `<figure>`. */
  datatype Renderers = Renderers(
    toMarkdown: string -> string,
    figure: (string, string, string) -> string)

  /** Applies the options in order over `opts`: the last option for a flag wins. */
  function ApplyOptions(opts: MarkdownOptions, options: seq<MarkdownOption>): (r: MarkdownOptions)
    ensures (forall i :: 0 <= i < |options| ==> !options[i].WithImageBorder?)
      ==> r.withImageBorder == opts.withImageBorder
    ensures |options| > 0 && options[|options| - 1].WithImageBorder?
      ==> r.withImageBorder == options[|options| - 1].border
    decreases |options|
  {
    if |options| == 0 then opts
    else ApplyOptions(ApplyOption(opts, options[0]), options[1..])
  }

  /** One functional option: it sets its own flag. */
  function ApplyOption(opts: MarkdownOptions, o: MarkdownOption): MarkdownOptions
  {
    match o
    case WithImageBorder(b) => opts.(withImageBorder := b)
    case WithImageBackground(b) => opts.(withImageBackground := b)
    case WithImageStretched(b) => opts.(withImageStretched := b)
  }

  /** The three image flags an option can set. */
  datatype ImageFlag = Border | Background | Stretched

  function FlagValue(opts: MarkdownOptions, f: ImageFlag): bool
  {
    match f
    case Border => opts.withImageBorder
    case Background => opts.withImageBackground
    case Stretched => opts.withImageStretched
  }

  /** Whether an option is one for the flag. */
  predicate Sets(o: MarkdownOption, f: ImageFlag)
  {
    match f
    case Border => o.WithImageBorder?
    case Background => o.WithImageBackground?
    case Stretched => o.WithImageStretched?
  }

  /** The value an option gives its flag. */
  function SetTo(o: MarkdownOption): bool
  {
    match o
    case WithImageBorder(b) => b
    case WithImageBackground(b) => b
    case WithImageStretched(b) => b
  }

  /** A flag no option names keeps its starting value. */
  lemma {:induction false} UnsetFlagKept(opts: MarkdownOptions, options: seq<MarkdownOption>, f: ImageFlag)
    requires forall i :: 0 <= i < |options| ==> !Sets(options[i], f)
    ensures FlagValue(ApplyOptions(opts, options), f) == FlagValue(opts, f)
    decreases |options|
  {
    if |options| > 0 {
      assert forall i :: 0 <= i < |options[1..]| ==> options[1..][i] == options[i + 1];
      assert !Sets(options[0], f);
      UnsetFlagKept(ApplyOption(opts, options[0]), options[1..], f);
    }
  }

  /** The last option for a flag decides it, whatever options for the other
      flags follow. */
  lemma {:induction false} LastOptionWins(opts: MarkdownOptions, options: seq<MarkdownOption>, f: ImageFlag, k: int)
    requires 0 <= k < |options| && Sets(options[k], f)
    requires forall i :: k < i < |options| ==> !Sets(options[i], f)
    ensures FlagValue(ApplyOptions(opts, options), f) == SetTo(options[k])
    decreases |options|
  {
    if k > 0 {
      assert forall i :: k - 1 < i < |options[1..]| ==> options[1..][i] == options[i + 1];
      LastOptionWins(ApplyOption(opts, options[0]), options[1..], f, k - 1);
    } else {
      assert forall i :: 0 <= i < |options[1..]| ==> options[1..][i] == options[i + 1];
      UnsetFlagKept(ApplyOption(opts, options[0]), options[1..], f);
    }
  }

  /** The block types that have a handler. */
  const HandledTypes: set<string> :=
    {"image", "paragraph", "header", "list", "code", "quote", "table", "alert", "delimiter"}

  // ---------------------------------------------------------------------------
  // Whole documents

  /** Renders one block; a type without a handler, or a failing handler, is an error. */
  function HandleBlock(b: Block, opts: MarkdownOptions, rs: Renderers): (r: Result<string>)
    ensures b.blockType !in HandledTypes ==> r == Err("no handler found for block type " + b.blockType)
  {
    if b.blockType !in HandledTypes then Err("no handler found for block type " + b.blockType)
    else Wrapped(Handler(b.blockType, b.data, opts, rs), b.blockType)
  }

  /** The five handled types that cannot fail give their handler's output unchanged. */
  lemma BlockDispatchPlain(b: Block, opts: MarkdownOptions, rs: Renderers)
    ensures b.blockType == "paragraph" ==> HandleBlock(b, opts, rs) == Ok(HandleParagraph(b.data, rs.toMarkdown))
    ensures b.blockType == "code" ==> HandleBlock(b, opts, rs) == Ok(HandleCode(b.data))
    ensures b.blockType == "quote" ==> HandleBlock(b, opts, rs) == Ok(HandleQuote(b.data, rs.toMarkdown))
    ensures b.blockType == "table" ==> HandleBlock(b, opts, rs) == Ok(HandleTable(b.data, rs.toMarkdown))
    ensures b.blockType == "delimiter" ==> HandleBlock(b, opts, rs) == Ok(HandleDelimiter(b.data))
  {
  }

  /** The four handlers that can fail go through `Wrapped`: a returned error is
      prefixed with the block type. */
  lemma BlockDispatchWrapped(b: Block, opts: MarkdownOptions, rs: Renderers)
    ensures b.blockType == "image" ==> HandleBlock(b, opts, rs) == Wrapped(HandleImage(b.data, opts, rs), "image")
    ensures b.blockType == "header" ==> HandleBlock(b, opts, rs) == Wrapped(HandleHeader(b.data, rs.toMarkdown), "header")
    ensures b.blockType == "list" ==> HandleBlock(b, opts, rs) == Wrapped(HandleList(b.data, rs.toMarkdown), "list")
    ensures b.blockType == "alert" ==> HandleBlock(b, opts, rs) == Wrapped(HandleAlert(b.data, rs.toMarkdown), "alert")
  {
    if b.blockType in {"image", "header", "list", "alert"} {
      assert HandleBlock(b, opts, rs) == Wrapped(Handler(b.blockType, b.data, opts, rs), b.blockType);
    }
  }

  /** A handler's result as the document loop passes it on: output and panics
      unchanged, a returned error prefixed with the block type. */
  function Wrapped(out: Result<string>, blockType: string): (r: Result<string>)
    ensures out.Ok? ==> r == out
    ensures out.Err? ==> r == Err("error handling block type " + blockType + ": " + out.msg)
    ensures out.Panic? ==> r == out
  {
    if out.Ok? then out else out.Wrap("error handling block type " + blockType + ": ")
  }

  function Handler(t: string, data: map<string, Value>, opts: MarkdownOptions, rs: Renderers): Result<string>
    requires t in HandledTypes
  {
    match t
    case "image" => HandleImage(data, opts, rs)
    case "paragraph" => Ok(HandleParagraph(data, rs.toMarkdown))
    case "header" => HandleHeader(data, rs.toMarkdown)
    case "list" => HandleList(data, rs.toMarkdown)
    case "code" => Ok(HandleCode(data))
    case "quote" => Ok(HandleQuote(data, rs.toMarkdown))
    case "table" => Ok(HandleTable(data, rs.toMarkdown))
    case "alert" => HandleAlert(data, rs.toMarkdown)
    case "delimiter" => Ok(HandleDelimiter(data))
  }

  /** The blocks' output in order, or the failure of the first block that fails. */
  function Render(blocks: seq<Block>, opts: MarkdownOptions, rs: Renderers): (r: Result<string>)
    ensures r.Ok? <==> forall i :: 0 <= i < |blocks| ==> HandleBlock(blocks[i], opts, rs).Ok?
    ensures |blocks| == 0 ==> r == Ok("")
    ensures |blocks| == 1 ==> r == HandleBlock(blocks[0], opts, rs)
  {
    var steps := HandledSteps(blocks, opts, rs);
    assert forall i :: 0 <= i < |blocks| ==> steps[i] == HandleBlock(blocks[i], opts, rs);
    Concat(steps)
  }

  function HandledSteps(blocks: seq<Block>, opts: MarkdownOptions, rs: Renderers): seq<Result<string>>
  {
    Map(blocks, b => HandleBlock(b, opts, rs))
  }

  /** Rendering two runs of blocks one after the other concatenates their
      outputs: each block writes its own output after the previous ones. */
  lemma RenderAppend(a: seq<Block>, b: seq<Block>, opts: MarkdownOptions, rs: Renderers)
    requires Render(a, opts, rs).Ok? && Render(b, opts, rs).Ok?
    ensures Render(a + b, opts, rs) == Ok(Render(a, opts, rs).value + Render(b, opts, rs).value)
  {
    MapAppend(a, b, b => HandleBlock(b, opts, rs));
    ConcatAppend(HandledSteps(a, opts, rs), HandledSteps(b, opts, rs));
  }

  /** The first block that fails decides the result: its error is returned. */
  lemma RenderFails(blocks: seq<Block>, opts: MarkdownOptions, rs: Renderers, k: nat)
    requires k < |blocks| && !HandleBlock(blocks[k], opts, rs).Ok?
    requires forall j :: 0 <= j < k ==> HandleBlock(blocks[j], opts, rs).Ok?
    ensures Render(blocks, opts, rs) == HandleBlock(blocks[k], opts, rs)
  {
    var steps := HandledSteps(blocks, opts, rs);
    assert forall i :: 0 <= i < |blocks| ==> steps[i] == HandleBlock(blocks[i], opts, rs);
    ConcatFails(steps, k);
  }

  /** `ParseBlocksToMarkdown`: fails as soon as one block fails (no partial output);
      a block type without a handler is such a failure; success is trimmed. */
  function ParseBlocksToMarkdown(blocks: seq<Block>, options: seq<MarkdownOption>, rs: Renderers): (r: Result<string>)
    ensures var opts := ApplyOptions(DefaultOptions, options);
      r.Ok? <==> forall i :: 0 <= i < |blocks| ==> HandleBlock(blocks[i], opts, rs).Ok?
    ensures !r.Ok? ==> r == Render(blocks, ApplyOptions(DefaultOptions, options), rs)
    ensures r.Ok? && |r.value| > 0 ==> !IsGoSpace(r.value[0]) && !IsGoSpace(r.value[|r.value| - 1])
    ensures r.Ok? ==> r.value == TrimSpace(Render(blocks, ApplyOptions(DefaultOptions, options), rs).value)
  {
    Trimmed(Render(blocks, ApplyOptions(DefaultOptions, options), rs))
  }

  /** The final step: a failure passes through, a success is trimmed. */
  function Trimmed(out: Result<string>): (r: Result<string>)
    ensures r.Ok? <==> out.Ok?
    ensures !r.Ok? ==> r == out
    ensures r.Ok? && |r.value| > 0 ==> !IsGoSpace(r.value[0]) && !IsGoSpace(r.value[|r.value| - 1])
    ensures r.Ok? ==> r.value == TrimSpace(out.value)
  {
    if out.Ok? then
      TrimSpaceTrimmed(out.value);
      Ok(TrimSpace(out.value))
    else
      out
  }

  /** A block without a handler fails the conversion with its error, unless an
      earlier block failed first; no output is produced. */
  lemma UnhandledTypeFails(blocks: seq<Block>, options: seq<MarkdownOption>, rs: Renderers)
    ensures (exists i :: 0 <= i < |blocks| && blocks[i].blockType !in HandledTypes)
      ==> !ParseBlocksToMarkdown(blocks, options, rs).Ok?
    ensures forall k :: (0 <= k < |blocks| && blocks[k].blockType !in HandledTypes
      && (forall j :: 0 <= j < k ==> HandleBlock(blocks[j], ApplyOptions(DefaultOptions, options), rs).Ok?)
      ==> ParseBlocksToMarkdown(blocks, options, rs) == Err("no handler found for block type " + blocks[k].blockType))
  {
    var opts := ApplyOptions(DefaultOptions, options);
    forall k | 0 <= k < |blocks| && blocks[k].blockType !in HandledTypes
      && (forall j :: 0 <= j < k ==> HandleBlock(blocks[j], opts, rs).Ok?)
      ensures ParseBlocksToMarkdown(blocks, options, rs) == Err("no handler found for block type " + blocks[k].blockType)
    {
      assert HandleBlock(blocks[k], opts, rs) == Err("no handler found for block type " + blocks[k].blockType);
      RenderFails(blocks, opts, rs, k);
    }
    forall k | 0 <= k < |blocks| && blocks[k].blockType !in HandledTypes
      ensures !HandleBlock(blocks[k], opts, rs).Ok?
    {
    }
  }

  // ---------------------------------------------------------------------------
  // Paragraph, header, delimiter

  /** A paragraph with a string `text` is its trimmed text converted, then a
      blank line; without one it writes nothing. */
  function HandleParagraph(data: map<string, Value>, toMarkdown: string -> string): (r: string)
    ensures GetString(data, "text").None? ==> r == ""
    ensures GetString(data, "text").Some?
      ==> HasSuffix(r, "\n\n") && r[..|r| - 2] == toMarkdown(TrimSpace(GetString(data, "text").value))
  {
    match GetString(data, "text")
    case Some(text) => toMarkdown(TrimSpace(text)) + "\n\n"
    case None => ""
  }

  /** Number of leading `#` characters of a line: a header's level read back. */
  function HashRun(s: string): nat
  {
    if |s| > 0 && s[0] == '#' then 1 + HashRun(s[1..]) else 0
  }

  /** A header needs a string `text` (checked first) and a numeric `level`; a
      negative level makes `strings.Repeat` panic. */
  function HandleHeader(data: map<string, Value>, toMarkdown: string -> string): (r: Result<string>)
    ensures GetString(data, "text").None? ==> r == Err("missing or invalid 'text' in heading block")
    ensures GetString(data, "text").Some? && GetNum(data, "level").None?
      ==> r == Err("missing or invalid 'level' in heading block")
    ensures r.Ok? <==> GetString(data, "text").Some? && GetNum(data, "level").Some? && GetNum(data, "level").value >= 0
    ensures r.Ok? ==> var level := GetNum(data, "level").value;
      && HasPrefix(r.value, Repeat("#", level) + " ")
      && HasSuffix(r.value, toMarkdown(GetString(data, "text").value) + "\n\n")
    ensures r.Ok? ==> var level := GetNum(data, "level").value;
      && |r.value| > level
      && r.value[level..] == " " + toMarkdown(GetString(data, "text").value) + "\n\n"
    ensures GetString(data, "text").Some? && GetNum(data, "level").Some? && GetNum(data, "level").value < 0
      ==> r.Panic?
  {
    match GetString(data, "text")
    case None => Err("missing or invalid 'text' in heading block")
    case Some(text) =>
      match GetNum(data, "level")
      case None => Err("missing or invalid 'level' in heading block")
      case Some(level) =>
        if level < 0 then Panic("strings: negative Repeat count")
        else
          var s := Repeat("#", level) + " " + toMarkdown(text) + "\n\n";
          assert s[..level + 1] == Repeat("#", level) + " ";
          assert s == Repeat("#", level) + (" " + toMarkdown(text) + "\n\n");
          Ok(s)
  }

  /** The level of a rendered header can be read back as its run of `#`. */
  lemma HeaderLevelReadBack(data: map<string, Value>, toMarkdown: string -> string)
    requires HandleHeader(data, toMarkdown).Ok?
    ensures HashRun(HandleHeader(data, toMarkdown).value) == GetNum(data, "level").value
  {
    var level := GetNum(data, "level").value;
    var s := HandleHeader(data, toMarkdown).value;
    assert s == Repeat("#", level) + (" " + toMarkdown(GetString(data, "text").value) + "\n\n");
    HashRunRepeat(level, " " + toMarkdown(GetString(data, "text").value) + "\n\n");
  }

  lemma {:induction false} HashRunRepeat(n: nat, rest: string)
    requires |rest| > 0 && rest[0] != '#'
    ensures HashRun(Repeat("#", n) + rest) == n
  {
    if n > 0 {
      assert (Repeat("#", n) + rest)[1..] == Repeat("#", n - 1) + rest;
      HashRunRepeat(n - 1, rest);
    }
  }

  /** A delimiter is a thematic break and a blank line, whatever its data. */
  function HandleDelimiter(data: map<string, Value>): (r: string)
    ensures r == "---\n\n"
  {
    "---\n\n"
  }

  // ---------------------------------------------------------------------------
  // Lists

  /** Every item, at every depth, is an object: exactly the lists `processList` accepts. */
  predicate WellFormedItems(items: seq<Value>, from: nat)
    requires from <= |items|
    decreases JArr(items), |items| - from
  {
    from == |items|
    || (items[from].JObj? && WellFormedItem(items[from].fields) && WellFormedItems(items, from + 1))
  }

  predicate WellFormedItem(item: map<string, Value>)
    decreases JObj(item), 0
  {
    match GetArr(item, "items")
    case Some(nested) =>
      assert JArr(nested) == item["items"];
      WellFormedItems(nested, 0)
    case None => true
  }

  /** `handleList`: `items` must be an array; `style` defaults to unordered. The
      output is one line per item of the outline and a closing newline; an item
      that is not an object fails the list with a wrapped error. */
  function HandleList(data: map<string, Value>, toMarkdown: string -> string): (r: Result<string>)
    ensures GetArr(data, "items").None? ==> r == Err("invalid or missing 'items' in list data")
    ensures r.Ok? <==> GetArr(data, "items").Some? && WellFormedItems(GetArr(data, "items").value, 0)
    ensures !r.Panic?
    ensures r.Ok? ==> r.value == ListText(Outline(GetArr(data, "items").value, 0, 0), ListStyle(data), ListMeta(data), toMarkdown) + "\n"
    ensures GetArr(data, "items").Some? && !r.Ok? ==> HasPrefix(r.msg, "error processing list: ")
  {
    match GetArr(data, "items")
    case None => Err("invalid or missing 'items' in list data")
    case Some(items) =>
      var out := ProcessList(items, 0, ListStyle(data), ListMeta(data), 0, toMarkdown);
      if out.Ok? then
        ProcessListText(items, 0, ListStyle(data), ListMeta(data), 0, toMarkdown);
        Ok(out.value + "\n")
      else
        var r := out.Wrap("error processing list: ");
        assert r.msg == "error processing list: " + out.msg;
        r
  }

  /** The list's `style`, unordered when absent. */
  function ListStyle(data: map<string, Value>): string
  {
    GetString(data, "style").GetOr("unordered")
  }

  /** The list's `meta` object, empty when absent (Go's nil map reads as empty). */
  function ListMeta(data: map<string, Value>): map<string, Value>
  {
    GetObj(data, "meta").GetOr(map[])
  }

  const UnexpectedItem := "unexpected item type in list: "

  /** `processList` over `items[from..]`: fails exactly when some item, at any
      depth, is not an object; never panics. */
  function ProcessList(items: seq<Value>, from: nat, style: string, meta: map<string, Value>, depth: nat,
                       toMarkdown: string -> string): (r: Result<string>)
    requires from <= |items|
    ensures r.Ok? <==> WellFormedItems(items, from)
    ensures !r.Panic?
    ensures from < |items| && !items[from].JObj? ==> r == Err(UnexpectedItem + TypeName(items[from]))
    decreases JArr(items), |items| - from
  {
    if from == |items| then Ok("")
    else
      var item := items[from];
      if !item.JObj? then Err(UnexpectedItem + TypeName(item))
      else
        var head := ProcessListItem(item.fields, style, meta, depth, toMarkdown);
        if !head.Ok? then head
        else
          var rest := ProcessList(items, from + 1, style, meta, depth, toMarkdown);
          if !rest.Ok? then rest else Ok(head.value + rest.value)
  }

  /** One item: its line, then its non-empty nested list one level deeper; a
      failure inside the nested list is wrapped. */
  function ProcessListItem(item: map<string, Value>, style: string, meta: map<string, Value>, depth: nat,
                           toMarkdown: string -> string): (r: Result<string>)
    ensures r.Ok? <==> WellFormedItem(item)
    ensures !r.Panic?
    ensures r.Ok? ==> HasPrefix(r.value, Repeat("    ", depth))
    ensures !r.Ok? ==> HasPrefix(r.msg, "error processing nested list: ")
    decreases JObj(item), 0
  {
    var line := ItemLine(item, style, meta, depth, toMarkdown);
    match GetArr(item, "items")
    case Some(nested) =>
      assert JArr(nested) == item["items"];
      if |nested| > 0 then
        var sub := ProcessList(nested, 0, style, meta, depth + 1, toMarkdown);
        if sub.Ok? then Ok(line + sub.value)
        else
          var r := sub.Wrap("error processing nested list: ");
          assert r.msg == "error processing nested list: " + sub.msg;
          r
      else Ok(line)
    case None => Ok(line)
  }

  /** The first item that is not an object, after well-formed ones, is the one
      the list reports. */
  lemma {:induction false} ProcessListFirstBad(items: seq<Value>, from: nat, k: nat, style: string, meta: map<string, Value>,
                                               depth: nat, toMarkdown: string -> string)
    requires from <= k < |items| && !items[k].JObj?
    requires forall j :: from <= j < k ==> items[j].JObj? && WellFormedItem(items[j].fields)
    ensures ProcessList(items, from, style, meta, depth, toMarkdown) == Err(UnexpectedItem + TypeName(items[k]))
    decreases k - from
  {
    if from == k {
      assert !items[from].JObj?;
    } else {
      assert from <= from < k;
      ProcessListFirstBad(items, from + 1, k, style, meta, depth, toMarkdown);
      ProcessListPassesOn(items, from, style, meta, depth, toMarkdown);
    }
  }

  /** After an item that succeeds, a failure of the rest is the list's failure. */
  lemma ProcessListPassesOn(items: seq<Value>, from: nat, style: string, meta: map<string, Value>, depth: nat,
                            toMarkdown: string -> string)
    requires from < |items| && items[from].JObj? && WellFormedItem(items[from].fields)
    requires !ProcessList(items, from + 1, style, meta, depth, toMarkdown).Ok?
    ensures ProcessList(items, from, style, meta, depth, toMarkdown) == ProcessList(items, from + 1, style, meta, depth, toMarkdown)
  {
  }

  /** A list item with the depth it is written at. */
  datatype Entry = Entry(item: map<string, Value>, depth: nat)

  /** Reference listing: the object items of `items[from..]` in pre-order, each
      followed by the items nested under it one level deeper. */
  function Outline(items: seq<Value>, from: nat, depth: nat): (entries: seq<Entry>)
    requires from <= |items|
    decreases JArr(items), |items| - from
  {
    if from == |items| then []
    else
      var here := if items[from].JObj? then [Entry(items[from].fields, depth)] + Subtree(items[from].fields, depth) else [];
      here + Outline(items, from + 1, depth)
  }

  /** The outline of an item's nested `items`, one level deeper. */
  function Subtree(item: map<string, Value>, depth: nat): seq<Entry>
    decreases JObj(item), 0
  {
    match GetArr(item, "items")
    case Some(nested) =>
      assert JArr(nested) == item["items"];
      Outline(nested, 0, depth + 1)
    case None => []
  }

  /** The lines of the entries, in order. */
  function ListText(entries: seq<Entry>, style: string, meta: map<string, Value>, toMarkdown: string -> string): string
  {
    if |entries| == 0 then ""
    else ItemLine(entries[0].item, style, meta, entries[0].depth, toMarkdown) + ListText(entries[1..], style, meta, toMarkdown)
  }

  lemma {:induction false} ListTextAppend(a: seq<Entry>, b: seq<Entry>, style: string, meta: map<string, Value>,
                                          toMarkdown: string -> string)
    ensures ListText(a + b, style, meta, toMarkdown) == ListText(a, style, meta, toMarkdown) + ListText(b, style, meta, toMarkdown)
  {
    if |a| > 0 {
      assert (a + b)[1..] == a[1..] + b;
      ListTextAppend(a[1..], b, style, meta, toMarkdown);
    } else {
      assert a + b == b;
    }
  }

  /** A well-formed list writes exactly the lines of its outline: every item,
      in pre-order, at its own depth. */
  lemma {:induction false} ProcessListText(items: seq<Value>, from: nat, style: string, meta: map<string, Value>, depth: nat,
                                           toMarkdown: string -> string)
    requires from <= |items| && WellFormedItems(items, from)
    ensures ProcessList(items, from, style, meta, depth, toMarkdown)
      == Ok(ListText(Outline(items, from, depth), style, meta, toMarkdown))
    decreases JArr(items), |items| - from
  {
    if from < |items| {
      var item := items[from].fields;
      ProcessListItemText(item, style, meta, depth, toMarkdown);
      ProcessListText(items, from + 1, style, meta, depth, toMarkdown);
      ListTextAppend([Entry(item, depth)] + Subtree(item, depth), Outline(items, from + 1, depth), style, meta, toMarkdown);
    }
  }

  lemma {:induction false} ProcessListItemText(item: map<string, Value>, style: string, meta: map<string, Value>, depth: nat,
                                               toMarkdown: string -> string)
    requires WellFormedItem(item)
    ensures ProcessListItem(item, style, meta, depth, toMarkdown)
      == Ok(ListText([Entry(item, depth)] + Subtree(item, depth), style, meta, toMarkdown))
    decreases JObj(item), 0
  {
    var line := ItemLine(item, style, meta, depth, toMarkdown);
    ListTextAppend([Entry(item, depth)], Subtree(item, depth), style, meta, toMarkdown);
    assert ListText([Entry(item, depth)], style, meta, toMarkdown) == line + ListText([], style, meta, toMarkdown);
    match GetArr(item, "items")
    case Some(nested) =>
      assert JArr(nested) == item["items"];
      if |nested| > 0 {
        ProcessListText(nested, 0, style, meta, depth + 1, toMarkdown);
      }
    case None =>
      assert Subtree(item, depth) == [];
      assert line + ListText([], style, meta, toMarkdown) == line;
  }

  /** Whether a checklist item is ticked: its `meta.checked`, false when absent. */
  function ItemChecked(item: map<string, Value>): bool
  {
    match GetObj(item, "meta")
    case Some(itemMeta) => GetBool(itemMeta, "checked").GetOr(false)
    case None => false
  }

  /** An item's own line: the indentation, the marker for the list's style,
      the converted content and a newline. */
  function ItemLine(item: map<string, Value>, style: string, meta: map<string, Value>, depth: nat,
                    toMarkdown: string -> string): (line: string)
    ensures HasPrefix(line, Repeat("    ", depth))
    ensures HasSuffix(line, "\n")
    ensures var content := toMarkdown(GetString(item, "content").GetOr(""));
      && (style == "checklist" ==> line == Repeat("    ", depth) + ((if ItemChecked(item) then "[x]" else "[ ]") + " " + content + "\n"))
      && (style == "ordered" ==> line == Repeat("    ", depth) + (OrderedPrefix(GetNum(meta, "start").GetOr(1),
                                   GetString(meta, "counterType").GetOr("numeric"), depth) + content + "\n"))
      && (style != "checklist" && style != "ordered" ==> line == Repeat("    ", depth) + ("- " + content + "\n"))
  {
    var prefix := Repeat("    ", depth);
    var content := toMarkdown(GetString(item, "content").GetOr(""));
    var marker := match style
      case "checklist" => (if ItemChecked(item) then "[x]" else "[ ]") + " "
      case "ordered" =>
        var start := GetNum(meta, "start").GetOr(1);
        var counterType := GetString(meta, "counterType").GetOr("numeric");
        OrderedPrefix(start, counterType, depth)
      case _ => "- ";
    var line := prefix + (marker + content + "\n");
    assert line[..|prefix|] == prefix;
    assert line[|line| - 1..] == "\n";
    line
  }

  /** The index an ordered item shows at `depth`: `index + depth * (index - 1)`. */
  function AdjustedIndex(index: int, depth: nat): int
  {
    index + depth * (index - 1)
  }

  /** The adjusted index is never negative exactly when the index is positive,
      or zero at depth zero. */
  lemma AdjustedNonNegative(index: int, depth: nat)
    ensures AdjustedIndex(index, depth) >= 0 <==> index >= 1 || (index == 0 && depth == 0)
  {
    if index >= 1 {
      assert depth * (index - 1) >= 0;
    } else if depth > 0 {
      assert depth * (index - 1) < 0;
    }
  }

  /** `getOrderedPrefix`: the marker of an ordered item, always ending in `. `. */
  function OrderedPrefix(index: int, counterType: string, depth: nat): (r: string)
    ensures HasSuffix(r, ". ")
  {
    var adjusted := AdjustedIndex(index, depth);
    var marker := match counterType
      case "lower-roman" => ToRoman(adjusted, false)
      case "upper-roman" => ToRoman(adjusted, true)
      case "lower-alpha" => [RuneChar('a' as int + adjusted - 1)]
      case "upper-alpha" => [RuneChar('A' as int + adjusted - 1)]
      case _ => IntToString(adjusted);
    assert (marker + ". ")[|marker|..] == ". ";
    marker + ". "
  }

  /** Go's `%c` of a rune: an invalid code point prints U+FFFD. */
  function RuneChar(code: int): char
  {
    if 0 <= code < 0xD800 || 0xE000 <= code < 0x11_0000 then code as char else '\U{FFFD}'
  }

  /** The number an ordered marker stands for, read back from its text. */
  function MarkerText(prefix: string): string
    requires HasSuffix(prefix, ". ")
  {
    prefix[..|prefix| - 2]
  }

  /** An alphabetic marker is the k-th letter of the alphabet, in the requested
      case, for the adjusted index `k` from 1 to 26. */
  lemma OrderedPrefixAlpha(index: int, depth: nat, upper: bool)
    requires 1 <= AdjustedIndex(index, depth) <= 26
    ensures var m := MarkerText(OrderedPrefix(index, if upper then "upper-alpha" else "lower-alpha", depth));
      && |m| == 1
      && (if upper then 'A' <= m[0] <= 'Z' else 'a' <= m[0] <= 'z')
      && m[0] as int - (if upper then 'A' else 'a') as int == AdjustedIndex(index, depth) - 1
  {
  }

  /** A decimal marker reads back as the adjusted index. */
  lemma OrderedPrefixNumeric(index: int, depth: nat)
    requires index >= 1 || (index == 0 && depth == 0)
    ensures var m := MarkerText(OrderedPrefix(index, "numeric", depth));
      (forall i :: 0 <= i < |m| ==> '0' <= m[i] <= '9') && ParseNat(m) == AdjustedIndex(index, depth)
  {
    AdjustedNonNegative(index, depth);
    var k := AdjustedIndex(index, depth);
    assert MarkerText(OrderedPrefix(index, "numeric", depth)) == NatToString(k);
    ParseNatToString(k);
  }

  /** A Roman marker reads back as the adjusted index. */
  lemma OrderedPrefixRoman(index: int, depth: nat, upper: bool)
    requires index >= 1 || (index == 0 && depth == 0)
    ensures RomanValue(MarkerText(OrderedPrefix(index, if upper then "upper-roman" else "lower-roman", depth)))
      == AdjustedIndex(index, depth)
  {
    AdjustedNonNegative(index, depth);
    var k := AdjustedIndex(index, depth);
    assert MarkerText(OrderedPrefix(index, if upper then "upper-roman" else "lower-roman", depth)) == ToRoman(k, upper);
    ToRomanValue(k, upper);
  }

  // ---------------------------------------------------------------------------
  // Roman numerals

  const RomanValues: seq<int> := [1000, 900, 500, 400, 100, 90, 50, 40, 10, 9, 5, 4, 1]
  const RomanSymbols: seq<string> := ["M", "CM", "D", "CD", "C", "XC", "L", "XL", "X", "IX", "V", "IV", "I"]

  /** The greedy conversion of `toRoman`, from table entry `i` on. */
  function ToRomanFrom(n: int, i: nat): string
    requires i <= |RomanValues|
    decreases |RomanValues| - i, n
  {
    if i == |RomanValues| then ""
    else if n >= RomanValues[i] then RomanSymbols[i] + ToRomanFrom(n - RomanValues[i], i)
    else ToRomanFrom(n, i + 1)
  }

  /** `toRoman(num, uppercase)`: empty for `num <= 0`; only the letters M, D, C,
      L, X, V, I in the requested case. */
  function ToRoman(num: int, uppercase: bool): (r: string)
    ensures num <= 0 ==> r == ""
    ensures forall i :: 0 <= i < |r| ==> r[i] in (if uppercase then "MDCLXVI" else "mdclxvi")
  {
    RomanLetters(num, 0);
    if num <= 0 then
      assert ToRomanFrom(num, 0) == "" by { RomanNonPositive(num, 0); }
      ""
    else
      var s := ToRomanFrom(num, 0);
      if uppercase then s else ToLower(s)
  }

  lemma {:induction false} RomanNonPositive(n: int, i: nat)
    requires n <= 0 && i <= |RomanValues|
    ensures ToRomanFrom(n, i) == ""
    decreases |RomanValues| - i
  {
    if i < |RomanValues| {
      RomanNonPositive(n, i + 1);
    }
  }

  lemma {:induction false} RomanLetters(n: int, i: nat)
    requires i <= |RomanValues|
    ensures forall k :: 0 <= k < |ToRomanFrom(n, i)| ==> ToRomanFrom(n, i)[k] in "MDCLXVI"
    decreases |RomanValues| - i, n
  {
    if i < |RomanValues| {
      if n >= RomanValues[i] {
        RomanLetters(n - RomanValues[i], i);
      } else {
        RomanLetters(n, i + 1);
      }
    }
  }

  /** The value of one Roman letter, in either case. */
  function LetterValue(c: char): int
  {
    match c
    case 'M' => 1000 case 'm' => 1000
    case 'D' => 500 case 'd' => 500
    case 'C' => 100 case 'c' => 100
    case 'L' => 50 case 'l' => 50
    case 'X' => 10 case 'x' => 10
    case 'V' => 5 case 'v' => 5
    case 'I' => 1 case 'i' => 1
    case _ => 0
  }

  /** The usual reading of a Roman numeral: a letter worth less than its right
      neighbour is subtracted, every other letter is added. */
  function RomanValue(s: string): int
  {
    if |s| == 0 then 0
    else if |s| == 1 then LetterValue(s[0])
    else if LetterValue(s[0]) < LetterValue(s[1]) then RomanValue(s[1..]) - LetterValue(s[0])
    else RomanValue(s[1..]) + LetterValue(s[0])
  }

  /** Whatever the greedy conversion emits from entry `i` on starts with a letter
      worth at most that entry's value. */
  lemma {:induction false} RomanFirstLetter(n: int, i: nat)
    requires i < |RomanValues|
    ensures var s := ToRomanFrom(n, i); |s| > 0 ==> LetterValue(s[0]) <= RomanValues[i]
    decreases |RomanValues| - i
  {
    if n < RomanValues[i] && i + 1 < |RomanValues| {
      RomanFirstLetter(n, i + 1);
    }
  }

  /** A letter followed by letters worth no more than it adds its value. */
  lemma RomanOne(c: char, rest: string)
    requires |rest| > 0 ==> LetterValue(rest[0]) <= LetterValue(c)
    ensures RomanValue([c] + rest) == LetterValue(c) + RomanValue(rest)
  {
    assert ([c] + rest)[1..] == rest;
  }

  /** A subtractive pair followed by letters worth no more than its second letter. */
  lemma RomanPair(a: char, b: char, rest: string)
    requires LetterValue(a) < LetterValue(b)
    requires |rest| > 0 ==> LetterValue(rest[0]) <= LetterValue(b)
    ensures RomanValue([a, b] + rest) == LetterValue(b) - LetterValue(a) + RomanValue(rest)
  {
    var s := [a, b] + rest;
    assert s[0] == a && s[1] == b && s[1..] == [b] + rest;
    assert RomanValue(s) == RomanValue([b] + rest) - LetterValue(a);
    RomanOne(b, rest);
  }

  /** The shape of a table entry: one letter worth the entry's value, or a
      subtractive pair whose second letter is worth at least the entry's value. */
  predicate SymbolShape(sym: string, value: int)
  {
    (|sym| == 1 && LetterValue(sym[0]) == value)
    || (|sym| == 2 && LetterValue(sym[0]) < LetterValue(sym[1])
        && LetterValue(sym[1]) - LetterValue(sym[0]) == value
        && LetterValue(sym[1]) >= value)
  }

  lemma SymbolShapes(i: nat)
    requires i < |RomanValues|
    ensures SymbolShape(RomanSymbols[i], RomanValues[i])
  {
    if i == 0 {} else if i == 1 {} else if i == 2 {} else if i == 3 {} else if i == 4 {}
    else if i == 5 {} else if i == 6 {} else if i == 7 {} else if i == 8 {} else if i == 9 {}
    else if i == 10 {} else if i == 11 {} else {}
  }

  /** Reading a symbol of that shape followed by letters no larger than its value. */
  lemma ShapedSymbolThen(sym: string, value: int, rest: string)
    requires SymbolShape(sym, value)
    requires |rest| > 0 ==> LetterValue(rest[0]) <= value
    ensures RomanValue(sym + rest) == value + RomanValue(rest)
  {
    if |sym| == 1 {
      assert sym == [sym[0]];
      RomanOne(sym[0], rest);
    } else {
      assert sym == [sym[0], sym[1]];
      RomanPair(sym[0], sym[1], rest);
    }
  }

  /** Reading a table symbol followed by letters no larger than its value. */
  lemma RomanSymbolThen(i: nat, rest: string)
    requires i < |RomanValues|
    requires |rest| > 0 ==> LetterValue(rest[0]) <= RomanValues[i]
    ensures RomanValue(RomanSymbols[i] + rest) == RomanValues[i] + RomanValue(rest)
  {
    SymbolShapes(i);
    ShapedSymbolThen(RomanSymbols[i], RomanValues[i], rest);
  }

  lemma {:induction false} RomanFromValue(n: int, i: nat)
    requires 0 <= n && i < |RomanValues|
    ensures RomanValue(ToRomanFrom(n, i)) == n
    decreases |RomanValues| - i, n
  {
    if n >= RomanValues[i] {
      RomanFromValue(n - RomanValues[i], i);
      RomanFirstLetter(n - RomanValues[i], i);
      RomanSymbolThen(i, ToRomanFrom(n - RomanValues[i], i));
    } else if i + 1 < |RomanValues| {
      RomanFromValue(n, i + 1);
    } else {
      assert n == 0;
    }
  }

  lemma {:induction false} RomanValueLower(s: string)
    ensures RomanValue(ToLower(s)) == RomanValue(s)
  {
    if |s| > 1 {
      assert ToLower(s)[1..] == ToLower(s[1..]);
      RomanValueLower(s[1..]);
    }
  }

  /** Round trip: reading the numeral `toRoman` writes gives the number back. */
  lemma ToRomanValue(n: nat, uppercase: bool)
    ensures RomanValue(ToRoman(n, uppercase)) == n
  {
    RomanFromValue(n, 0);
    if !uppercase && n > 0 {
      RomanValueLower(ToRomanFrom(n, 0));
    }
  }

  // ---------------------------------------------------------------------------
  // Code, quote, table

  /** Four spaces before the line: dropping them gives the line back, and
      no line break is added. */
  function Indent(line: string): (r: string)
    ensures HasPrefix(r, "    ") && r[4..] == line
    ensures '\n' !in line ==> '\n' !in r
  {
    var r := "    " + line;
    assert r[..4] == "    " && r[4..] == line;
    assert forall k :: 4 <= k < |r| ==> r[k] == line[k - 4];
    r
  }

  /** A code block with a non-empty language is fenced; otherwise each of its
      lines is indented by exactly four spaces, and dropping those four spaces
      from every output line gives the code back. */
  function HandleCode(data: map<string, Value>): (r: string)
    ensures GetString(data, "code").None? ==> r == ""
    ensures GetString(data, "code").Some? && GetString(data, "language").Some? && GetString(data, "language").value != ""
      ==> r == "```" + GetString(data, "language").value + "\n" + GetString(data, "code").value + "\n```\n\n"
    ensures GetString(data, "code").Some? && !(GetString(data, "language").Some? && GetString(data, "language").value != "")
      ==> var ps := Split(r, '\n');
        && |ps| >= 2 && ps[|ps| - 1] == "" && ps[|ps| - 2] == ""
        && (forall i :: 0 <= i < |ps| - 2 ==> HasPrefix(ps[i], "    "))
        && Join(seq(|ps| - 2, i requires 0 <= i < |ps| - 2 => ps[i][4..]), "\n") == GetString(data, "code").value
  {
    match GetString(data, "code")
    case None => ""
    case Some(code) =>
      var language := GetString(data, "language").GetOr("");
      if language != "" then "```" + language + "\n" + code + "\n```\n\n"
      else
        var lines := Split(code, '\n');
        var indented := seq(|lines|, i requires 0 <= i < |lines| => Indent(lines[i]));
        var out := Terminated(indented) + "\n";
        IndentedCodeLines(lines, indented, out);
        out
  }

  lemma IndentedCodeLines(lines: seq<string>, indented: seq<string>, out: string)
    requires |lines| >= 1 && forall i :: 0 <= i < |lines| ==> '\n' !in lines[i]
    requires indented == seq(|lines|, i requires 0 <= i < |lines| => Indent(lines[i]))
    requires out == Terminated(indented) + "\n"
    ensures var ps := Split(out, '\n');
      && ps == indented + ["", ""]
      && (forall i :: 0 <= i < |ps| - 2 ==> HasPrefix(ps[i], "    "))
      && seq(|ps| - 2, i requires 0 <= i < |ps| - 2 => ps[i][4..]) == lines
  {
    assert forall i :: 0 <= i < |indented| ==> '\n' !in indented[i] by {
      forall i | 0 <= i < |indented| ensures '\n' !in indented[i] {
        assert indented[i] == Indent(lines[i]);
      }
    }
    SplitTerminatedNewline(indented, out);
    var ps := Split(out, '\n');
    var back := seq(|ps| - 2, i requires 0 <= i < |ps| - 2 => ps[i][4..]);
    forall i | 0 <= i < |lines|
      ensures HasPrefix(ps[i], "    ") && back[i] == lines[i]
    {
      assert ps[i] == indented[i] == Indent(lines[i]);
    }
    assert back == lines;
  }

  /** Lines without line breaks, each terminated, plus one more line break,
      split back into the lines and two empty pieces. */
  lemma SplitTerminatedNewline(lines: seq<string>, out: string)
    requires forall i :: 0 <= i < |lines| ==> '\n' !in lines[i]
    requires out == Terminated(lines) + "\n"
    ensures Split(out, '\n') == lines + ["", ""]
  {
    NoBreakOneMore(lines);
    TerminatedOneMore(lines);
    LinesOfTerminated(lines + [""]);
    AppendTwice(lines, "", "");
  }

  lemma NoBreakOneMore(lines: seq<string>)
    requires forall i :: 0 <= i < |lines| ==> '\n' !in lines[i]
    ensures forall i :: 0 <= i < |lines + [""]| ==> '\n' !in (lines + [""])[i]
  {
    forall i | 0 <= i < |lines + [""]|
      ensures '\n' !in (lines + [""])[i]
    {
      if i < |lines| {
        assert (lines + [""])[i] == lines[i];
      }
    }
  }

  lemma AppendTwice<T>(s: seq<T>, x: T, y: T)
    ensures s + [x] + [y] == s + [x, y]
  {
  }

  lemma TerminatedOneMore(lines: seq<string>)
    ensures Terminated(lines + [""]) == Terminated(lines) + "\n"
  {
    TerminatedAppend(lines, [""]);
    assert Terminated([""]) == "" + "\n" + Terminated([]);
  }

  /** A quote with a string `text`; a non-empty string caption adds a citation
      line closing the quote, an absent or empty one adds nothing. */
  function HandleQuote(data: map<string, Value>, toMarkdown: string -> string): (r: string)
    ensures GetString(data, "text").None? ==> r == ""
    ensures GetString(data, "text").Some? ==> HasPrefix(r, "> " + toMarkdown(GetString(data, "text").value) + "\n")
    ensures GetString(data, "text").Some? && GetString(data, "caption").GetOr("") != ""
      ==> HasSuffix(r, "> \n" + CiteOpen + toMarkdown(GetString(data, "caption").value) + CiteClose + "\n\n")
    ensures GetString(data, "text").Some? && GetString(data, "caption").GetOr("") == ""
      ==> r == "> " + toMarkdown(GetString(data, "text").value) + "\n\n"
    ensures GetString(data, "text").Some? && GetString(data, "caption").GetOr("") != ""
      ==> var t := toMarkdown(GetString(data, "text").value);
        var c := toMarkdown(GetString(data, "caption").value);
        r == ("> " + t + "\n") + ("> \n" + CiteOpen + c + CiteClose + "\n\n")
  {
    match GetString(data, "text")
    case None => ""
    case Some(text) =>
      var head := "> " + toMarkdown(text) + "\n";
      var caption := GetString(data, "caption").GetOr("");
      var cite := if caption != "" then "> \n" + CiteOpen + toMarkdown(caption) + CiteClose + "\n" else "";
      var out := head + (cite + "\n");
      assert out[..|head|] == head;
      assert out[|out| - |cite + "\n"|..] == cite + "\n";
      out
  }

  const CiteOpen := "> -- <caption>"
  const CiteClose := "</caption>"

  /** Reads a quote back from its newline-split lines: the first line without
      its "> ", and the citation's caption when there is a citation line. */
  function ReadQuote(out: string): (r: (string, string))
  {
    var ps := Split(out, '\n');
    var text := if HasPrefix(ps[0], "> ") then ps[0][2..] else ps[0];
    var cited := |ps| == 5 && |CiteOpen| + |CiteClose| <= |ps[2]|
      && HasPrefix(ps[2], CiteOpen) && HasSuffix(ps[2], CiteClose);
    (text, if cited then ps[2][|CiteOpen|..|ps[2]| - |CiteClose|] else "")
  }

  /** The lines of a quote: the quoted text, then for a citation an empty quoted
      line and the caption line. */
  function QuoteLines(text: string, cited: bool, caption: string): seq<string>
  {
    ["> " + text] + (if cited then ["> ", CiteOpen + caption + CiteClose] else [])
  }

  lemma QuoteAsLines(text: string, cited: bool, caption: string)
    ensures Terminated(QuoteLines(text, cited, caption)) + "\n"
      == ("> " + text + "\n") + ((if cited then "> \n" + CiteOpen + caption + CiteClose + "\n" else "") + "\n")
  {
    var lines := QuoteLines(text, cited, caption);
    if cited {
      var cite := CiteOpen + caption + CiteClose;
      assert lines[1..][1..] == [cite];
      assert Terminated([cite]) == cite + "\n";
      assert Terminated(lines[1..]) == "> " + "\n" + (cite + "\n");
    }
  }

  lemma ReadQuoteLines(text: string, cited: bool, caption: string)
    requires '\n' !in text && '\n' !in caption
    ensures ReadQuote(Terminated(QuoteLines(text, cited, caption)) + "\n") == (text, if cited then caption else "")
  {
    var lines := QuoteLines(text, cited, caption);
    TerminatedOneMore(lines);
    LinesOfTerminated(lines + [""]);
    assert lines + [""] + [""] == lines + ["", ""];
    if cited {
      ThreeRuns(CiteOpen, caption, CiteClose);
    }
    assert ("> " + text)[2..] == text;
  }

  /** A quote reads back as its converted text and, when the caption is
      non-empty, its converted caption. */
  lemma QuoteReadBack(data: map<string, Value>, toMarkdown: string -> string)
    requires GetString(data, "text").Some?
    requires forall t :: '\n' !in toMarkdown(t)
    ensures var caption := GetString(data, "caption").GetOr("");
      ReadQuote(HandleQuote(data, toMarkdown))
        == (toMarkdown(GetString(data, "text").value), if caption != "" then toMarkdown(caption) else "")
  {
    var t := toMarkdown(GetString(data, "text").value);
    var caption := GetString(data, "caption").GetOr("");
    var c := toMarkdown(caption);
    QuoteAsLines(t, caption != "", c);
    ReadQuoteLines(t, caption != "", c);
  }

  /** The string cells of a row, converted, in order; other cells are skipped. */
  function RowCells(cols: seq<Value>, toMarkdown: string -> string): (cells: seq<string>)
    ensures |cells| <= |cols|
  {
    if |cols| == 0 then []
    else (if cols[0].JStr? then [toMarkdown(cols[0].s)] else []) + RowCells(cols[1..], toMarkdown)
  }

  function RowLine(cells: seq<string>): string
  {
    "| " + Join(cells, " | ") + " |\n"
  }

  /** The heading separator has one ` --- ` column per cell of the heading row:
      split on `|` it is an empty piece, `cells` dashes, and the newline. */
  function SeparatorLine(cells: nat): (r: string)
    ensures Split(r, '|') == [""] + seq(cells, _ => " --- ") + ["\n"]
  {
    var r := "|" + Repeat(" --- |", cells) + "\n";
    var pieces := [""] + seq(cells, _ => " --- ") + ["\n"];
    JoinDashes(cells, "\n");
    assert pieces[1..] == seq(cells, _ => " --- ") + ["\n"];
    assert Join(pieces, "|") == r;
    SplitJoin(pieces, '|');
    r
  }

  lemma {:induction false} JoinDashes(n: nat, tail: string)
    ensures Join(seq(n, _ => " --- ") + [tail], "|") == Repeat(" --- |", n) + tail
  {
    if n > 0 {
      var xs := seq(n, _ => " --- ") + [tail];
      assert xs[1..] == seq(n - 1, _ => " --- ") + [tail];
      JoinDashes(n - 1, tail);
    }
  }

  /** The rows from index `i` on; a row that is not an array writes nothing but
      still counts as an index. */
  function TableRows(rows: seq<Value>, i: nat, withHeadings: bool, toMarkdown: string -> string): string
    requires i <= |rows|
    decreases |rows| - i
  {
    if i == |rows| then ""
    else
      var line := if rows[i].JArr? then
        var cells := RowCells(rows[i].items, toMarkdown);
        if withHeadings && i == 0 then RowLine(cells) + SeparatorLine(|cells|) else RowLine(cells)
      else "";
      line + TableRows(rows, i + 1, withHeadings, toMarkdown)
  }

  /** A table without a `rows` array writes nothing. Otherwise every array row
      becomes one line, in order, followed by the heading separator when it is
      the first row and `withHeadings` is set, and the table ends with a blank line. */
  function HandleTable(data: map<string, Value>, toMarkdown: string -> string): (r: string)
    ensures GetArr(data, "rows").None? ==> r == ""
    ensures GetArr(data, "rows").Some?
      ==> r == Terminated(HeadedLines(GetArr(data, "rows").value, GetBool(data, "withHeadings").GetOr(false), toMarkdown)) + "\n"
    ensures GetArr(data, "rows").Some? && |GetArr(data, "rows").value| > 0 && GetArr(data, "rows").value[0].JArr?
      && GetBool(data, "withHeadings") == Some(true)
      ==> var cells := RowCells(GetArr(data, "rows").value[0].items, toMarkdown);
        HasPrefix(r, RowLine(cells) + SeparatorLine(|cells|))
  {
    match GetArr(data, "rows")
    case None => ""
    case Some(rows) =>
      var withHeadings := GetBool(data, "withHeadings").GetOr(false);
      var body := TableRows(rows, 0, withHeadings, toMarkdown);
      var out := body + "\n";
      TableRowsLines(rows, withHeadings, toMarkdown);
      assert |rows| > 0 && rows[0].JArr? && withHeadings ==>
        var first := RowLine(RowCells(rows[0].items, toMarkdown)) + SeparatorLine(|RowCells(rows[0].items, toMarkdown)|);
        HasPrefix(out, first)
      by {
        if |rows| > 0 && rows[0].JArr? && withHeadings {
          var first := RowLine(RowCells(rows[0].items, toMarkdown)) + SeparatorLine(|RowCells(rows[0].items, toMarkdown)|);
          assert body == first + TableRows(rows, 1, withHeadings, toMarkdown);
          assert out[..|first|] == first;
        }
      }
      out
  }

  /** A row's line without its newline. */
  function RowText(cells: seq<string>): string
  {
    "| " + Join(cells, " | ") + " |"
  }

  /** The heading separator without its newline. */
  function SeparatorText(cells: nat): string
  {
    "|" + Repeat(" --- |", cells)
  }

  /** Reference listing: one line per row that is an array, in order; rows of
      other kinds contribute nothing. */
  function ArrayRowLines(rows: seq<Value>, toMarkdown: string -> string): (lines: seq<string>)
    ensures |lines| <= |rows|
  {
    if |rows| == 0 then []
    else
      var head := if rows[0].JArr? then [RowText(RowCells(rows[0].items, toMarkdown))] else [];
      head + ArrayRowLines(rows[1..], toMarkdown)
  }

  /** The table's lines: the array rows in order, with the separator inserted
      after the first row exactly when it is an array and headings are on. */
  function HeadedLines(rows: seq<Value>, withHeadings: bool, toMarkdown: string -> string): seq<string>
  {
    if withHeadings && |rows| > 0 && rows[0].JArr? then
      var cells := RowCells(rows[0].items, toMarkdown);
      [RowText(cells), SeparatorText(|cells|)] + ArrayRowLines(rows[1..], toMarkdown)
    else ArrayRowLines(rows, toMarkdown)
  }

  /** Past the first row (or without headings) the rows are the plain listing. */
  lemma {:induction false} TableRowsFrom(rows: seq<Value>, i: nat, withHeadings: bool, toMarkdown: string -> string)
    requires i <= |rows|
    requires i >= 1 || !withHeadings
    ensures TableRows(rows, i, withHeadings, toMarkdown) == Terminated(ArrayRowLines(rows[i..], toMarkdown))
    decreases |rows| - i
  {
    if i < |rows| {
      TableRowsFrom(rows, i + 1, withHeadings, toMarkdown);
      var head := if rows[i].JArr? then [RowText(RowCells(rows[i].items, toMarkdown))] else [];
      assert rows[i..][1..] == rows[i + 1..];
      assert ArrayRowLines(rows[i..], toMarkdown) == head + ArrayRowLines(rows[i + 1..], toMarkdown);
      TerminatedAppend(head, ArrayRowLines(rows[i + 1..], toMarkdown));
    }
  }

  lemma TableRowsLines(rows: seq<Value>, withHeadings: bool, toMarkdown: string -> string)
    ensures TableRows(rows, 0, withHeadings, toMarkdown) == Terminated(HeadedLines(rows, withHeadings, toMarkdown))
  {
    if withHeadings && |rows| > 0 {
      TableRowsFrom(rows, 1, withHeadings, toMarkdown);
      if rows[0].JArr? {
        HeadingLines(RowCells(rows[0].items, toMarkdown), ArrayRowLines(rows[1..], toMarkdown));
      } else {
        assert ArrayRowLines(rows, toMarkdown) == ArrayRowLines(rows[1..], toMarkdown);
      }
    } else if !withHeadings {
      TableRowsFrom(rows, 0, withHeadings, toMarkdown);
      assert rows[0..] == rows;
    }
  }

  /** The heading row and its separator are the first two terminated lines. */
  lemma HeadingLines(cells: seq<string>, rest: seq<string>)
    ensures Terminated([RowText(cells), SeparatorText(|cells|)] + rest)
      == RowLine(cells) + SeparatorLine(|cells|) + Terminated(rest)
  {
    var two := [RowText(cells), SeparatorText(|cells|)];
    TerminatedAppend(two, rest);
    assert two[1..][1..] == [];
  }

  /** With a converter that never yields a newline, the cells of a row hold none. */
  lemma {:induction false} RowCellsFree(cols: seq<Value>, toMarkdown: string -> string)
    requires forall t :: '\n' !in toMarkdown(t)
    ensures forall k :: 0 <= k < |RowCells(cols, toMarkdown)| ==> '\n' !in RowCells(cols, toMarkdown)[k]
  {
    if |cols| > 0 {
      RowCellsFree(cols[1..], toMarkdown);
    }
  }

  lemma {:induction false} ArrayRowLinesFree(rows: seq<Value>, toMarkdown: string -> string)
    requires forall t :: '\n' !in toMarkdown(t)
    ensures forall k :: 0 <= k < |ArrayRowLines(rows, toMarkdown)| ==> '\n' !in ArrayRowLines(rows, toMarkdown)[k]
  {
    if |rows| > 0 {
      ArrayRowLinesFree(rows[1..], toMarkdown);
      if rows[0].JArr? {
        RowCellsFree(rows[0].items, toMarkdown);
        JoinFree(RowCells(rows[0].items, toMarkdown), " | ", '\n');
      }
    }
  }

  /** Splitting a table on newlines gives one line per array row, in order, the
      separator right after the first when headings are on, and then the two
      empty pieces of the closing blank line. */
  lemma TableSplit(data: map<string, Value>, toMarkdown: string -> string)
    requires GetArr(data, "rows").Some?
    requires forall t :: '\n' !in toMarkdown(t)
    ensures Split(HandleTable(data, toMarkdown), '\n')
      == HeadedLines(GetArr(data, "rows").value, GetBool(data, "withHeadings").GetOr(false), toMarkdown) + ["", ""]
  {
    var rows := GetArr(data, "rows").value;
    var lines := HeadedLines(rows, GetBool(data, "withHeadings").GetOr(false), toMarkdown);
    ArrayRowLinesFree(rows, toMarkdown);
    if |rows| > 0 && rows[0].JArr? {
      ArrayRowLinesFree(rows[1..], toMarkdown);
      RowCellsFree(rows[0].items, toMarkdown);
      JoinFree(RowCells(rows[0].items, toMarkdown), " | ", '\n');
      RepeatFree(" --- |", |RowCells(rows[0].items, toMarkdown)|, '\n');
    }
    TerminatedOneMore(lines);
    LinesOfTerminated(lines + [""]);
    assert lines + [""] + [""] == lines + ["", ""];
  }

  // ---------------------------------------------------------------------------
  // Images

  /** `extractImageData`: the `file.url` string is required, the caption is optional. */
  function ExtractImageData(data: map<string, Value>): (r: Result<(string, string)>)
    ensures r.Ok? <==> GetObj(data, "file").Some? && GetString(GetObj(data, "file").value, "url").Some?
    ensures r.Ok? ==> r.value == (GetString(GetObj(data, "file").value, "url").value, GetString(data, "caption").GetOr(""))
    ensures GetObj(data, "file").None? ==> r == Err("missing or invalid 'file' field in image block")
    ensures GetObj(data, "file").Some? && GetString(GetObj(data, "file").value, "url").None?
      ==> r == Err("missing or invalid 'url' in image file")
  {
    match GetObj(data, "file")
    case None => Err("missing or invalid 'file' field in image block")
    case Some(file) =>
      match GetString(file, "url")
      case None => Err("missing or invalid 'url' in image file")
      case Some(url) => Ok((url, GetString(data, "caption").GetOr("")))
  }

  /** Position of a class name in the fixed order border, background, stretched. */
  function ClassRank(c: string): int
  {
    if c == "with-border" then 0 else if c == "with-background" then 1 else if c == "stretched" then 2 else 3
  }

  /** The classes of an image figure: each present iff its option is set, in
      the fixed order border, background, stretched, none containing a space. */
  function ClassList(opts: MarkdownOptions): (cs: seq<string>)
    ensures "with-border" in cs <==> opts.withImageBorder
    ensures "with-background" in cs <==> opts.withImageBackground
    ensures "stretched" in cs <==> opts.withImageStretched
    ensures |cs| == 0 <==> !opts.withImageBorder && !opts.withImageBackground && !opts.withImageStretched
    ensures forall i, j :: 0 <= i < j < |cs| ==> ClassRank(cs[i]) < ClassRank(cs[j])
    ensures forall i :: 0 <= i < |cs| ==> cs[i] != "" && ' ' !in cs[i]
  {
    match (opts.withImageBorder, opts.withImageBackground, opts.withImageStretched)
    case (false, false, false) => []
    case (true, false, false) => ["with-border"]
    case (false, true, false) => ["with-background"]
    case (false, false, true) => ["stretched"]
    case (true, true, false) => ["with-border", "with-background"]
    case (true, false, true) => ["with-border", "stretched"]
    case (false, true, true) => ["with-background", "stretched"]
    case (true, true, true) => ["with-border", "with-background", "stretched"]
  }

  /** `generateImageClasses`: the class list joined by spaces, which splits back
      into exactly that list; empty when no option is set. */
  function ImageClasses(opts: MarkdownOptions): (r: string)
    ensures r == "" <==> !opts.withImageBorder && !opts.withImageBackground && !opts.withImageStretched
    ensures r != "" ==> Split(r, ' ') == ClassList(opts)
  {
    var cs := ClassList(opts);
    var r := Join(cs, " ");
    assert |cs| > 0 ==> Split(r, ' ') == cs && r != "" by {
      if |cs| > 0 {
        SplitJoin(cs, ' ');
        assert |r| >= |cs[0]|;
      }
    }
    r
  }

  const OptionsOpen: string := "<!-- Options: "
  const OptionsClose: string := "-->\n\n"

  /** A flag's word in the options comment: present when the flag is on. */
  function Word(on: bool, word: string): string
  {
    if on then word else ""
  }

  /** The words of the options comment: each on flag's name and ", ", in the
      order border, background, stretched. */
  function OptionWords(opts: MarkdownOptions): string
  {
    Word(opts.withImageBorder, "border, ") + Word(opts.withImageBackground, "background, ")
      + Word(opts.withImageStretched, "stretched, ")
  }

  /** Takes one word off the front of a string, when it is there. */
  function ReadWord(s: string, word: string): (r: (bool, string))
    ensures r.0 ==> s == word + r.1
    ensures !r.0 ==> r.1 == s
  {
    if HasPrefix(s, word) then
      assert s == s[..|word|] + s[|word|..];
      (true, s[|word|..])
    else (false, s)
  }

  /** Reads the flags back from the words of an options comment, in their
      fixed order; anything left over means the words are not an options list. */
  function ReadOptionWords(s: string): Option<MarkdownOptions>
  {
    var (border, s1) := ReadWord(s, "border, ");
    var (background, s2) := ReadWord(s1, "background, ");
    var (stretched, s3) := ReadWord(s2, "stretched, ");
    if s3 == "" then Some(MarkdownOptions(border, background, stretched)) else None
  }

  /** A word in front is taken off. */
  lemma ReadWordHit(word: string, rest: string)
    ensures ReadWord(word + rest, word) == (true, rest)
  {
    assert (word + rest)[..|word|] == word;
  }

  /** A string that differs from the word at some position does not start with it. */
  lemma ReadWordMiss(s: string, word: string, i: nat)
    requires i < |word| && i < |s| && s[i] != word[i]
    ensures ReadWord(s, word) == (false, s)
  {
    if |word| <= |s| {
      assert s[..|word|][i] == s[i];
    }
  }

  /** Reading a flag's word off the front of the words that follow it. */
  lemma ReadFlagWord(on: bool, word: string, rest: string, i: nat)
    requires i < |word| && (rest == "" || (i < |rest| && rest[i] != word[i]))
    ensures ReadWord(Word(on, word) + rest, word) == (on, rest)
  {
    if on {
      ReadWordHit(word, rest);
    } else {
      assert Word(on, word) + rest == rest;
      if rest != "" {
        ReadWordMiss(rest, word, i);
      }
    }
  }

  /** The comment's words read back as the options they were written from. */
  lemma OptionWordsReadBack(opts: MarkdownOptions)
    ensures ReadOptionWords(OptionWords(opts)) == Some(opts)
  {
    var a := Word(opts.withImageBorder, "border, ");
    var b := Word(opts.withImageBackground, "background, ");
    var c := Word(opts.withImageStretched, "stretched, ");
    assert OptionWords(opts) == a + (b + c);
    ReadFlagWord(opts.withImageStretched, "stretched, ", "", 0);
    assert c + "" == c;
    ReadFlagWord(opts.withImageBackground, "background, ", c, 0);
    ReadFlagWord(opts.withImageBorder, "border, ", b + c, if opts.withImageBackground then 1 else 0);
  }

  /** An image written as Markdown: `![alt](url)`, a newline, and the comment
      whose words read back as the options. */
  predicate ImageShaped(out: string, alt: string, url: string, opts: MarkdownOptions)
  {
    var head := "![" + alt + "](" + url + ")\n" + OptionsOpen;
    && |head| + |OptionsClose| <= |out|
    && HasPrefix(out, head) && HasSuffix(out, OptionsClose)
    && ReadOptionWords(out[|head|..|out| - |OptionsClose|]) == Some(opts)
  }

  /** `renderImageAsMarkdown`: the image, then the set options as an HTML comment. */
  function ImageMarkdown(url: string, caption: string, opts: MarkdownOptions, toMarkdown: string -> string): (r: string)
    ensures ImageShaped(r, toMarkdown(caption), url, opts)
  {
    var head := "![" + toMarkdown(caption) + "](" + url + ")\n" + OptionsOpen;
    var words := OptionWords(opts);
    var r := head + words + OptionsClose;
    assert r[..|head|] == head;
    assert r[|r| - |OptionsClose|..] == OptionsClose;
    assert r[|head|..|r| - |OptionsClose|] == words;
    OptionWordsReadBack(opts);
    r
  }

  /** An image with a caption is rendered as an HTML figure with the option
      classes, otherwise as Markdown with the options comment. */
  function HandleImage(data: map<string, Value>, opts: MarkdownOptions, rs: Renderers): (r: Result<string>)
    ensures !r.Panic?
    ensures r.Ok? <==> ExtractImageData(data).Ok?
    ensures r.Ok? ==> var (url, caption) := ExtractImageData(data).value;
      && (caption != "" ==> r.value == rs.figure(url, caption, ImageClasses(opts)) + "\n\n")
      && (caption == "" ==> ImageShaped(r.value, rs.toMarkdown(""), url, opts))
  {
    var img :- ExtractImageData(data);
    var (url, caption) := img;
    if caption != "" then Ok(rs.figure(url, caption, ImageClasses(opts)) + "\n\n")
    else Ok(ImageMarkdown(url, caption, opts, rs.toMarkdown))
  }

  // ---------------------------------------------------------------------------
  // Alerts

  /** The GitHub admonition marker `[!NAME]`. */
  function Marker(name: string): string
  {
    "[!" + name + "]"
  }

  /** Alert type to GitHub admonition header. */
  const AlertHeaders: map<string, string> := map[
    "primary" := Marker("NOTE"),
    "success" := Marker("TIP"),
    "secondary" := Marker("IMPORTANT"),
    "warning" := Marker("WARNING"),
    "danger" := Marker("CAUTION")]

  /** One quoted line: `> ` and the line, still free of newlines. */
  function Quote(line: string): (r: string)
    requires '\n' !in line
    ensures HasPrefix(r, "> ") && r[2..] == line && '\n' !in r
  {
    var r := "> " + line;
    assert forall k :: 0 <= k < |r| ==> r[k] == (if k < 2 then "> "[k] else line[k - 2]);
    r
  }

  /** The lines of a rendered alert, before the trailing newlines. */
  function AlertBody(header: string, lines: seq<string>, center: bool): (all: seq<string>)
    requires '\n' !in header
    requires forall i :: 0 <= i < |lines| ==> '\n' !in lines[i]
    ensures |all| >= 1 && all[0] == "> " + header
    ensures forall i :: 0 <= i < |all| ==> '\n' !in all[i] && HasPrefix(all[i], "> ")
  {
    var quoted := seq(|lines|, i requires 0 <= i < |lines| => Quote(lines[i]));
    var body := if center then [Quote("<div align='center'>")] + quoted + [Quote("</div>")] else quoted;
    [Quote(header)] + body
  }

  /** Split on newlines, `out` is the quoted header line, then quoted lines
      only, then the two empty pieces of the closing blank line. */
  predicate AlertShaped(out: string, header: string)
  {
    var ps := Split(out, '\n');
    && |ps| >= 3 && ps[|ps| - 1] == "" && ps[|ps| - 2] == ""
    && ps[0] == "> " + header
    && forall i :: 0 <= i < |ps| - 2 ==> HasPrefix(ps[i], "> ")
  }

  const CenterOpen: string := "<div align='center'>"
  const CenterClose: string := "</div>"

  /** The text lines among the quoted lines after the header: all of them, or,
      when centered, all but the opening and closing `div` lines. */
  function TextLines(inner: seq<string>, center: bool): seq<string>
  {
    if !center then inner
    else if |inner| >= 2 then inner[1..|inner| - 1]
    else []
  }

  /** Each line without its `> ` prefix. */
  function Unquoted(lines: seq<string>): (r: seq<string>)
    ensures |r| == |lines|
  {
    seq(|lines|, i requires 0 <= i < |lines| => if HasPrefix(lines[i], "> ") then lines[i][2..] else lines[i])
  }

  /** The text an alert holds, read back from its output: the quoted lines
      between the header line and the closing blank line, without the center
      `div` lines, unquoted and joined with newlines. */
  function ReadAlertText(out: string, center: bool): string
  {
    var ps := Split(out, '\n');
    if |ps| < 3 then "" else Join(Unquoted(TextLines(ps[1..|ps| - 2], center)), "\n")
  }

  /** A centered alert's text sits between the quoted `div` lines. */
  predicate CenterWrapped(out: string, center: bool)
  {
    var ps := Split(out, '\n');
    center ==> |ps| >= 5 && ps[1] == "> " + CenterOpen && ps[|ps| - 3] == "> " + CenterClose
  }

  /** The rendered alert for a header and its processed text: split on newlines
      it is the header line, then quoted lines only, then two empty pieces; a
      centered one is wrapped in the `div` lines; and the text reads back. */
  function AlertText(header: string, processed: string, center: bool): (out: string)
    requires '\n' !in header
    ensures AlertShaped(out, header)
    ensures CenterWrapped(out, center)
    ensures ReadAlertText(out, center) == processed
  {
    var lines := Split(processed, '\n');
    var all := AlertBody(header, lines, center);
    var out := Terminated(all) + "\n";
    SplitTerminatedNewline(all, out);
    AlertShapedOf(all, header, out);
    AlertInner(header, lines, center);
    AlertReadBack(all, out, center, processed);
    out
  }

  /** The quoted lines after the header: the `div` lines around the text lines
      when centered, and the text lines, unquoted, are the lines given. */
  lemma AlertInner(header: string, lines: seq<string>, center: bool)
    requires '\n' !in header
    requires forall i :: 0 <= i < |lines| ==> '\n' !in lines[i]
    ensures var inner := AlertBody(header, lines, center)[1..];
      && (center ==> |inner| >= 2 && inner[0] == "> " + CenterOpen && inner[|inner| - 1] == "> " + CenterClose)
      && Unquoted(TextLines(inner, center)) == lines
  {
    var inner := AlertBody(header, lines, center)[1..];
    var quoted := seq(|lines|, i requires 0 <= i < |lines| => Quote(lines[i]));
    assert inner == if center then [Quote(CenterOpen)] + quoted + [Quote(CenterClose)] else quoted;
    assert TextLines(inner, center) == quoted;
    forall i | 0 <= i < |lines|
      ensures Unquoted(quoted)[i] == lines[i]
    {
      assert quoted[i] == Quote(lines[i]);
    }
  }

  /** Reading the text back from an alert's lines. */
  lemma AlertReadBack(all: seq<string>, out: string, center: bool, processed: string)
    requires |all| >= 1 && Split(out, '\n') == all + ["", ""]
    requires Unquoted(TextLines(all[1..], center)) == Split(processed, '\n')
    requires center ==> |all[1..]| >= 2 && all[1] == "> " + CenterOpen && all[|all| - 1] == "> " + CenterClose
    ensures CenterWrapped(out, center)
    ensures ReadAlertText(out, center) == processed
  {
    var ps := Split(out, '\n');
    assert ps[1..|ps| - 2] == all[1..];
    assert center ==> ps[1] == all[1] && ps[|ps| - 3] == all[|all| - 1];
  }

  lemma AlertShapedOf(all: seq<string>, header: string, out: string)
    requires |all| >= 1 && all[0] == "> " + header
    requires forall i :: 0 <= i < |all| ==> HasPrefix(all[i], "> ")
    requires Split(out, '\n') == all + ["", ""]
    ensures AlertShaped(out, header)
  {
    var ps := Split(out, '\n');
    assert forall i :: 0 <= i < |ps| - 2 ==> ps[i] == all[i];
  }

  /** An alert needs a string `text` (checked first) and one of the five known
      types; the first line is the header the type maps to, every line of the
      output before the closing blank line starts with `> `, and the text
      reads back: raw and wrapped in the `div` lines when centered, converted
      otherwise. */
  function HandleAlert(data: map<string, Value>, toMarkdown: string -> string): (r: Result<string>)
    ensures GetString(data, "text").None? ==> r == Err("missing or invalid 'text' field in alert block")
    ensures GetString(data, "text").Some? && GetString(data, "type").GetOr("") !in AlertHeaders
      ==> r == Err("unsupported alert type: " + GetString(data, "type").GetOr(""))
    ensures r.Ok? <==> GetString(data, "text").Some? && GetString(data, "type").GetOr("") in AlertHeaders
    ensures r.Ok? ==> AlertShaped(r.value, AlertHeaders[GetString(data, "type").GetOr("")])
    ensures r.Ok? ==> var center := GetString(data, "align").GetOr("") == "center";
      var text := GetString(data, "text").value;
      && CenterWrapped(r.value, center)
      && ReadAlertText(r.value, center) == (if center then text else toMarkdown(text))
  {
    var alertType := GetString(data, "type").GetOr("");
    var align := GetString(data, "align").GetOr("");
    match GetString(data, "text")
    case None => Err("missing or invalid 'text' field in alert block")
    case Some(text) =>
      if alertType !in AlertHeaders then Err("unsupported alert type: " + alertType)
      else
        var header := AlertHeaders[alertType];
        var processed := if align == "center" then text else toMarkdown(text);
        HeadersSingleLine(alertType);
        Ok(AlertText(header, processed, align == "center"))
  }

  lemma HeadersSingleLine(t: string)
    requires t in AlertHeaders
    ensures '\n' !in AlertHeaders[t]
  {
  }
}

=== FILE: fields.dfy ===
/** The frontmatter field record shared by the Go back end and the TypeScript
    front end (`markdown/frontmatter.go` and `frontend/src/types/frontmatter.ts`). */
module Fields {

  /** One metadata field.  `fieldType` is the source's free-form type tag; only the
      slot that matches it is meaningful.  Numbers (a `float64` / JavaScript
      `number`) are modelled as integers; the date-time slot is an opaque
      ISO-8601 string. */
  datatype FrontmatterField = FrontmatterField(
    name: string,
    fieldType: string,
    stringValue: string,
    boolValue: bool,
    numberValue: int,
    dateTimeValue: string,
    stringSliceValue: seq<string>)

  /** The date-time slot's "no value" sentinel (Go's zero `time.Time`). */
  const UnsetDateTime: string := "0001-01-01T00:00:00Z"

  /** The five type tags the editor offers and the YAML writer accepts. */
  const KnownTypes: set<string> := {"string", "bool", "number", "dateTime", "stringSlice"}

  /** A value an editor input holds: a JavaScript string, boolean, number or
      string array. */
  datatype FormValue = Str(s: string) | Bool(b: bool) | Num(n: int) | List(xs: seq<string>)

  function Names(fields: seq<FrontmatterField>): seq<string>
    ensures |Names(fields)| == |fields|
  {
    seq(|fields|, i requires 0 <= i < |fields| => fields[i].name)
  }
}

=== FILE: format.dfy ===
/** `formatPostId` of `frontend/src/lib/format.ts`: a long post id is shown as
    its first four characters, an ellipsis and its last four. */
module Format {

  /** Ids shorter than eight characters are shown whole. */
  function FormatPostId(id: string): (r: string)
    ensures |id| < 8 ==> r == id
    ensures |id| >= 8 ==> |r| == 11 && r[4..7] == "..."
    ensures |id| >= 8 ==> r[..4] == id[..4] && r[7..] == id[|id| - 4..]
  {
    if |id| < 8 then id else id[..4] + "..." + id[|id| - 4..]
  }

  /** Formatting twice is formatting once: a shortened id is eleven
      characters long and keeps its own first and last four. */
  lemma FormatIdempotent(id: string)
    ensures FormatPostId(FormatPostId(id)) == FormatPostId(id)
  {
    var r := FormatPostId(id);
    if |id| >= 8 {
      var r2 := FormatPostId(r);
      assert r2[..4] == r[..4] && r2[4..7] == r[4..7] && r2[7..] == r[7..];
      assert r2 == r2[..4] + r2[4..7] + r2[7..];
      assert r == r[..4] + r[4..7] + r[7..];
    }
  }
}

=== FILE: frontmatter.dfy ===
/** `markdown/frontmatter.go`: splitting a post into frontmatter fields and a
    Markdown body, the fixed ordering of the fields, and writing fields back as
    a YAML header.

    The YAML decoder and encoder, `time.Parse`/`Format` and the `%v` rendering
    of a value are parameters.  A decoded YAML mapping is an association list
    with distinct keys, in the order Go's map iteration happened to visit them. */
module Frontmatter {
  import opened Wrappers
  import opened Strs
  import opened Json
  import opened Fields
  import opened Ordering
  import opened FrontmatterScan

  // ---------------------------------------------------------------------------
  // One field

  /** The string elements of a decoded YAML sequence, in order; others are skipped. */
  function StringItems(items: seq<Value>): (r: seq<string>)
    ensures |r| <= |items|
    ensures forall s :: s in r <==> JStr(s) in items
  {
    if |items| == 0 then []
    else
      var rest := StringItems(items[1..]);
      assert items == [items[0]] + items[1..];
      (if items[0].JStr? then [items[0].s] else []) + rest
  }

  /** The field `parseFrontmatterFields` builds for one key.  `numbersAsNumber`
      chooses between the code as written (`false`: the type tag is Go's type
      name, so a number is tagged `float64` or `int`, and an `int` keeps the
      value 0) and the corrected reading (`true`: every number is tagged
      `number` and keeps its value). */
  function ParseFieldWith(key: string, value: Value, parseDate: string -> Result<string>,
                          formatValue: Value -> string, numbersAsNumber: bool): (r: Result<FrontmatterField>)
    ensures r.Ok? ==> r.value.name == key
  {
    if value.JNull? then Panic("reflect: call of reflect.Type.String on nil Type")
    else
      var base := FrontmatterField(key, TypeName(value), "", false, 0, UnsetDateTime, []);
      if key == "date" then
        if !value.JStr? then Panic("interface conversion: interface {} is " + TypeName(value) + ", not string")
        else
          match parseDate(value.s)
          case Ok(d) => Ok(base.(dateTimeValue := d, fieldType := "dateTime"))
          case Err(e) => Err("failed to parse date: " + e)
          case Panic(e) => Panic(e)
      else
        match value
        case JStr(s) => Ok(base.(stringValue := s))
        case JBool(b) => Ok(base.(boolValue := b))
        case JNum(n) => Ok(if numbersAsNumber then base.(numberValue := n, fieldType := "number") else base.(numberValue := n))
        case JInt(i) => Ok(if numbersAsNumber then base.(numberValue := i, fieldType := "number") else base)
        case JArr(items) =>
          var strs := StringItems(items);
          if |strs| == 0 then Err("unsupported slice type: " + formatValue(value))
          else Ok(base.(fieldType := "stringSlice", stringSliceValue := strs))
        case _ => Ok(base)
  }

  /** The field as the source builds it. */
  function ParseFieldAsWritten(key: string, value: Value, parseDate: string -> Result<string>,
                               formatValue: Value -> string): (r: Result<FrontmatterField>)
    ensures key != "date" ==> (value.JNum? <==> r.Ok? && r.value.fieldType == "float64")
    ensures key != "date" && value.JInt? ==> r.Ok? && r.value.fieldType == "int" && r.value.numberValue == 0
  {
    ParseFieldWith(key, value, parseDate, formatValue, false)
  }

  /** The field with numbers tagged `number`: a `null` value panics (the type
      name of nil is asked for); a `date` value must be a string and goes through
      `parseDate`; a sequence needs at least one string element and keeps
      exactly its string elements; otherwise the slot of the value's type holds
      the value and every other slot its default. */
  function ParseField(key: string, value: Value, parseDate: string -> Result<string>,
                      formatValue: Value -> string): (r: Result<FrontmatterField>)
    ensures value.JNull? ==> r.Panic?
    ensures key == "date" && !value.JStr? ==> r.Panic?
    ensures key == "date" && value.JStr? ==>
      && (r.Ok? <==> parseDate(value.s).Ok?)
      && (r.Ok? ==> r.value.fieldType == "dateTime" && r.value.dateTimeValue == parseDate(value.s).value)
      && (parseDate(value.s).Err? ==> r == Err("failed to parse date: " + parseDate(value.s).msg))
    ensures key != "date" && value.JArr? ==>
      (r.Ok? <==> exists s :: JStr(s) in value.items)
      && (r.Ok? ==> r.value.fieldType == "stringSlice" && r.value.stringSliceValue == StringItems(value.items))
      && (!r.Ok? ==> r == Err("unsupported slice type: " + formatValue(value)))
    ensures key != "date" && !value.JNull? && !value.JArr? ==> r.Ok?
    ensures r.Ok? ==> r.value.name == key
    ensures r.Ok? && key != "date" ==> r.value.dateTimeValue == UnsetDateTime
    ensures r.Ok? && value.JObj? ==> r.value.fieldType !in KnownTypes
    ensures r.Ok? && !value.JObj? ==> r.value.fieldType in KnownTypes
  {
    var r := ParseFieldWith(key, value, parseDate, formatValue, true);
    SliceField(key, value, parseDate, formatValue);
    ParseFieldTag(key, value, parseDate, formatValue);
    r
  }

  /** A sequence parses exactly when it has a string element, and keeps its
      string elements. */
  lemma SliceField(key: string, value: Value, parseDate: string -> Result<string>, formatValue: Value -> string)
    ensures key != "date" && value.JArr? ==>
      var r := ParseFieldWith(key, value, parseDate, formatValue, true);
      && (r.Ok? <==> exists s :: JStr(s) in value.items)
      && (r.Ok? ==> r.value.fieldType == "stringSlice" && r.value.stringSliceValue == StringItems(value.items))
      && (!r.Ok? ==> r == Err("unsupported slice type: " + formatValue(value)))
  {
    if key != "date" && value.JArr? {
      var strs := StringItems(value.items);
      if exists s :: JStr(s) in value.items {
        var s :| JStr(s) in value.items;
        assert s in strs;
      }
      if |strs| > 0 {
        assert strs[0] in strs;
        assert JStr(strs[0]) in value.items;
      }
    }
  }

  /** Only an object value gets a type tag the writer does not know. */
  lemma ParseFieldTag(key: string, value: Value, parseDate: string -> Result<string>, formatValue: Value -> string)
    ensures var r := ParseFieldWith(key, value, parseDate, formatValue, true);
      && (r.Ok? && value.JObj? ==> r.value.fieldType !in KnownTypes)
      && (r.Ok? && !value.JObj? ==> r.value.fieldType in KnownTypes)
  {
    if value.JObj? {
      assert |TypeName(value)| == 29;
    }
  }

  // ---------------------------------------------------------------------------
  // Field order

  const PriorityKeys: seq<string> := ["title", "date", "description", "category", "categories", "tags"]

  lemma PriorityKeysDistinct()
    ensures forall a, b :: 0 <= a < b < |PriorityKeys| ==> PriorityKeys[a] != PriorityKeys[b]
  {
    forall a, b | 0 <= a < b < |PriorityKeys|
      ensures PriorityKeys[a] != PriorityKeys[b]
    {
      assert |PriorityKeys[a]| != |PriorityKeys[b]| || PriorityKeys[a][0] != PriorityKeys[b][0];
    }
  }

  function NameOf(f: FrontmatterField): string
  {
    f.name
  }

  predicate DistinctNames(fields: seq<FrontmatterField>)
  {
    forall i, j :: 0 <= i < j < |fields| ==> fields[i].name != fields[j].name
  }

  /** The field named `key`, if there is one. */
  function Lookup(fields: seq<FrontmatterField>, key: string): (r: Option<FrontmatterField>)
    ensures r.Some? <==> exists i :: 0 <= i < |fields| && fields[i].name == key
    ensures r.Some? ==> r.value in fields && r.value.name == key
  {
    if |fields| == 0 then None
    else if fields[0].name == key then Some(fields[0])
    else
      var r := Lookup(fields[1..], key);
      assert forall i :: 1 <= i < |fields| ==> fields[i] == fields[1..][i - 1];
      r
  }

  /** The fields named by `keys`, taken in the order of `keys`. */
  function PriorityPart(fields: seq<FrontmatterField>, keys: seq<string>): (r: seq<FrontmatterField>)
    ensures forall i :: 0 <= i < |r| ==> r[i] in fields && r[i].name in keys
  {
    if |keys| == 0 then []
    else
      var head := match Lookup(fields, keys[0]) case Some(f) => [f] case None => [];
      var rest := PriorityPart(fields, keys[1..]);
      assert forall i :: 0 <= i < |rest| ==> rest[i].name in keys[1..];
      head + rest
  }

  /** The priority fields come in the order their names have among `keys`. */
  lemma {:induction false} PriorityOrder(fields: seq<FrontmatterField>, keys: seq<string>)
    requires forall a, b :: 0 <= a < b < |keys| ==> keys[a] != keys[b]
    ensures forall i, j :: 0 <= i < j < |PriorityPart(fields, keys)| ==>
      IndexOf(keys, PriorityPart(fields, keys)[i].name) < IndexOf(keys, PriorityPart(fields, keys)[j].name)
  {
    if |keys| > 0 {
      forall a, b | 0 <= a < b < |keys[1..]|
        ensures keys[1..][a] != keys[1..][b]
      {
        assert keys[1..][a] == keys[a + 1] && keys[1..][b] == keys[b + 1];
      }
      PriorityOrder(fields, keys[1..]);
      assert InKeyOrder(PriorityPart(fields, keys[1..]), keys[1..]);
      PriorityOrderStep(fields, keys);
    }
  }

  /** A key after the first is one place further in `keys` than in its tail. */
  lemma IndexInTail(keys: seq<string>, k: string)
    requires |keys| > 0 && k in keys[1..]
    requires forall a, b :: 0 <= a < b < |keys| ==> keys[a] != keys[b]
    ensures IndexOf(keys, k) == 1 + IndexOf(keys[1..], k)
  {
    var a :| 0 <= a < |keys[1..]| && keys[1..][a] == k;
    assert keys[a + 1] == k;
  }

  /** One key of `PriorityOrder`'s induction: the first key's field, if any,
      goes before the fields of the others. */
  lemma PriorityOrderStep(fields: seq<FrontmatterField>, keys: seq<string>)
    requires |keys| > 0
    requires forall a, b :: 0 <= a < b < |keys| ==> keys[a] != keys[b]
    requires InKeyOrder(PriorityPart(fields, keys[1..]), keys[1..])
    ensures InKeyOrder(PriorityPart(fields, keys), keys)
  {
    var head := match Lookup(fields, keys[0]) case Some(f) => [f] case None => [];
    var rest := PriorityPart(fields, keys[1..]);
    assert PriorityPart(fields, keys) == head + rest;
    HeadThenTail(keys, head, rest);
  }

  /** Fields named by the first key, then fields in the order of the other
      keys, are in the order of all the keys. */
  lemma HeadThenTail(keys: seq<string>, head: seq<FrontmatterField>, rest: seq<FrontmatterField>)
    requires |keys| > 0
    requires forall a, b :: 0 <= a < b < |keys| ==> keys[a] != keys[b]
    requires |head| <= 1 && forall i :: 0 <= i < |head| ==> head[i].name == keys[0]
    requires forall i :: 0 <= i < |rest| ==> rest[i].name in keys[1..]
    requires InKeyOrder(rest, keys[1..])
    ensures InKeyOrder(head + rest, keys)
  {
    var r := head + rest;
    forall i, j | 0 <= i < j < |r|
      ensures IndexOf(keys, r[i].name) < IndexOf(keys, r[j].name)
    {
      var j' := j - |head|;
      assert r[j] == rest[j'];
      IndexInTail(keys, rest[j'].name);
      if i < |head| {
        assert r[i].name == keys[0];
      } else {
        var i' := i - |head|;
        assert r[i] == rest[i'];
        IndexInTail(keys, rest[i'].name);
      }
    }
  }

  /** The fields `p` accepts, in order. */
  function Filter(fields: seq<FrontmatterField>, p: FrontmatterField -> bool): (r: seq<FrontmatterField>)
    ensures forall f :: f in r <==> f in fields && p(f)
  {
    if |fields| == 0 then []
    else
      var rest := Filter(fields[1..], p);
      assert forall f :: f in fields ==> f == fields[0] || f in fields[1..];
      (if p(fields[0]) then [fields[0]] else []) + rest
  }

  predicate IsPriority(f: FrontmatterField)
  {
    f.name in PriorityKeys
  }

  predicate NotPriority(f: FrontmatterField)
  {
    !IsPriority(f)
  }

  predicate IsBool(f: FrontmatterField)
  {
    f.fieldType == "bool"
  }

  predicate NotBool(f: FrontmatterField)
  {
    !IsBool(f)
  }

  /** The fields after the priority ones: those that are not `bool`, by name. */
  function OtherFields(fields: seq<FrontmatterField>): (r: seq<FrontmatterField>)
    ensures SortedBy(r, NameOf)
    ensures forall i :: 0 <= i < |r| ==> !IsPriority(r[i]) && !IsBool(r[i])
    ensures multiset(r) == multiset(Filter(Filter(fields, NotPriority), NotBool))
  {
    var src := Filter(Filter(fields, NotPriority), NotBool);
    var r := SortBy(src, NameOf);
    forall i | 0 <= i < |r|
      ensures !IsPriority(r[i]) && !IsBool(r[i])
    {
      assert r[i] in multiset(src);
      assert r[i] in Filter(fields, NotPriority);
    }
    r
  }

  /** The last fields: the remaining `bool` ones, by name. */
  function BoolFields(fields: seq<FrontmatterField>): (r: seq<FrontmatterField>)
    ensures SortedBy(r, NameOf)
    ensures forall i :: 0 <= i < |r| ==> !IsPriority(r[i]) && IsBool(r[i])
    ensures multiset(r) == multiset(Filter(Filter(fields, NotPriority), IsBool))
  {
    var src := Filter(Filter(fields, NotPriority), IsBool);
    var r := SortBy(src, NameOf);
    forall i | 0 <= i < |r|
      ensures !IsPriority(r[i]) && IsBool(r[i])
    {
      assert r[i] in multiset(src);
      assert r[i] in Filter(fields, NotPriority);
    }
    r
  }

  /** The order of `parseFrontmatterFields`: the priority keys in their fixed
      order, then the other non-`bool` fields by name, then the other `bool`
      fields by name. */
  function OrderFields(fields: seq<FrontmatterField>): seq<FrontmatterField>
  {
    PriorityPart(fields, PriorityKeys) + OtherFields(fields) + BoolFields(fields)
  }

  /** A field that is neither a priority field nor a `bool` one. */
  predicate IsOther(f: FrontmatterField)
  {
    !IsPriority(f) && !IsBool(f)
  }

  /** A `bool` field that is not a priority field. */
  predicate IsTrailingBool(f: FrontmatterField)
  {
    !IsPriority(f) && IsBool(f)
  }

  predicate All(s: seq<FrontmatterField>, p: FrontmatterField -> bool)
  {
    forall i :: 0 <= i < |s| ==> p(s[i])
  }

  /** The names of `s` occur in `keys` in the same order. */
  predicate InKeyOrder(s: seq<FrontmatterField>, keys: seq<string>)
  {
    forall i, j :: 0 <= i < j < |s| ==> IndexOf(keys, s[i].name) < IndexOf(keys, s[j].name)
  }

  /** The three runs of the order: the priority fields in the order of the
      priority keys, then the other non-`bool` fields sorted by name, then the
      other `bool` fields sorted by name. */
  lemma OrderFieldsShape(fields: seq<FrontmatterField>)
    ensures var r := OrderFields(fields);
      var n := |PriorityPart(fields, PriorityKeys)|;
      var m := n + |OtherFields(fields)|;
      && n <= m <= |r|
      && All(r[..n], IsPriority) && InKeyOrder(r[..n], PriorityKeys)
      && All(r[n..m], IsOther) && SortedBy(r[n..m], NameOf)
      && All(r[m..], IsTrailingBool) && SortedBy(r[m..], NameOf)
  {
    var p := PriorityPart(fields, PriorityKeys);
    var o := OtherFields(fields);
    var b := BoolFields(fields);
    var r := OrderFields(fields);
    PriorityKeysDistinct();
    PriorityOrder(fields, PriorityKeys);
    ThreeRuns(p, o, b);
  }

  /** Splitting by a predicate and its negation keeps every element once. */
  lemma {:induction false} FilterSplit(fields: seq<FrontmatterField>, p: FrontmatterField -> bool, q: FrontmatterField -> bool)
    requires forall f :: q(f) == !p(f)
    ensures multiset(Filter(fields, p)) + multiset(Filter(fields, q)) == multiset(fields)
  {
    if |fields| > 0 {
      var x := fields[0];
      var t := fields[1..];
      FilterSplit(t, p, q);
      FilterSplitStep(fields, p, q);
    }
  }

  /** One element of `FilterSplit`'s induction. */
  lemma FilterSplitStep(fields: seq<FrontmatterField>, p: FrontmatterField -> bool, q: FrontmatterField -> bool)
    requires |fields| > 0 && q(fields[0]) == !p(fields[0])
    requires multiset(Filter(fields[1..], p)) + multiset(Filter(fields[1..], q)) == multiset(fields[1..])
    ensures multiset(Filter(fields, p)) + multiset(Filter(fields, q)) == multiset(fields)
  {
    var x := fields[0];
    var t := fields[1..];
    FilterHead(fields, p);
    FilterHead(fields, q);
    MultisetCons(fields);
    var a, b := multiset(Filter(t, p)), multiset(Filter(t, q));
    if p(x) {
      MultisetShift(multiset{x}, a, b, multiset(t));
    } else {
      MultisetShift(multiset{x}, b, a, multiset(t));
    }
  }

  lemma MultisetCons<T>(s: seq<T>)
    requires |s| > 0
    ensures multiset(s) == multiset{s[0]} + multiset(s[1..])
  {
    assert s == [s[0]] + s[1..];
  }

  lemma MultisetShift<T>(x: multiset<T>, a: multiset<T>, b: multiset<T>, m: multiset<T>)
    requires a + b == m || b + a == m
    ensures (x + a) + b == x + m && b + (x + a) == x + m
  {
  }

  /** The first field counts towards a filter exactly when it passes. */
  lemma FilterHead(fields: seq<FrontmatterField>, p: FrontmatterField -> bool)
    requires |fields| > 0
    ensures p(fields[0]) ==> multiset(Filter(fields, p)) == multiset{fields[0]} + multiset(Filter(fields[1..], p))
    ensures !p(fields[0]) ==> multiset(Filter(fields, p)) == multiset(Filter(fields[1..], p))
  {
    var x := fields[0];
    if p(x) {
      assert Filter(fields, p) == [x] + Filter(fields[1..], p);
    } else {
      assert Filter(fields, p) == Filter(fields[1..], p);
    }
  }

  /** With distinct names, each field occurs at most once. */
  lemma {:induction false} DistinctCount(fields: seq<FrontmatterField>, x: FrontmatterField)
    requires DistinctNames(fields)
    ensures multiset(fields)[x] == if x in fields then 1 else 0
  {
    if |fields| > 0 {
      DistinctCount(fields[1..], x);
      assert fields == [fields[0]] + fields[1..];
      if x == fields[0] {
        assert x !in fields[1..];
      }
    }
  }

  lemma {:induction false} FilterDistinct(fields: seq<FrontmatterField>, p: FrontmatterField -> bool)
    requires DistinctNames(fields)
    ensures DistinctNames(Filter(fields, p))
  {
    if |fields| > 0 {
      FilterDistinct(fields[1..], p);
      var rest := Filter(fields[1..], p);
      assert forall i :: 0 <= i < |rest| ==> rest[i] in fields[1..];
      assert forall f :: f in fields[1..] ==> f.name != fields[0].name;
    }
  }

  /** How often a field occurs among the priority fields of distinctly named fields. */
  lemma {:induction false} PriorityCount(fields: seq<FrontmatterField>, keys: seq<string>, x: FrontmatterField)
    requires DistinctNames(fields)
    requires forall a, b :: 0 <= a < b < |keys| ==> keys[a] != keys[b]
    ensures multiset(PriorityPart(fields, keys))[x] == if x in fields && x.name in keys then 1 else 0
  {
    if |keys| > 0 {
      PriorityCount(fields, keys[1..], x);
      var look := Lookup(fields, keys[0]);
      if x in fields && x.name == keys[0] {
        var i :| 0 <= i < |fields| && fields[i] == x;
        assert look.Some? && look.value.name == x.name;
        assert look.value == x;
        assert x.name !in keys[1..];
      }
      assert multiset(PriorityPart(fields, keys)) == multiset(match look case Some(f) => [f] case None => [])
        + multiset(PriorityPart(fields, keys[1..]));
    }
  }

  /** With distinct names, the priority fields are exactly the fields with a priority name. */
  lemma PriorityMultiset(fields: seq<FrontmatterField>)
    requires DistinctNames(fields)
    ensures multiset(PriorityPart(fields, PriorityKeys)) == multiset(Filter(fields, IsPriority))
  {
    var pr := Filter(fields, IsPriority);
    var p := PriorityPart(fields, PriorityKeys);
    FilterDistinct(fields, IsPriority);
    PriorityKeysDistinct();
    forall x
      ensures multiset(p)[x] == multiset(pr)[x]
    {
      PriorityCount(fields, PriorityKeys, x);
      DistinctCount(pr, x);
    }
  }

  /** The ordered fields are a permutation of distinctly named input fields. */
  lemma OrderFieldsPermutation(fields: seq<FrontmatterField>)
    requires DistinctNames(fields)
    ensures multiset(OrderFields(fields)) == multiset(fields)
    ensures |OrderFields(fields)| == |fields|
  {
    var rest := Filter(fields, NotPriority);
    FilterSplit(fields, NotPriority, IsPriority);
    FilterSplit(rest, NotBool, IsBool);
    PriorityMultiset(fields);
    var p := PriorityPart(fields, PriorityKeys);
    var o := OtherFields(fields);
    var b := BoolFields(fields);
    assert OrderFields(fields) == p + o + b;
    assert multiset(p + o + b) == multiset(p) + multiset(o) + multiset(b);
    MultisetRegroup(multiset(p), multiset(o), multiset(b), multiset(rest), multiset(fields));
    assert |multiset(OrderFields(fields))| == |multiset(fields)|;
  }

  lemma MultisetRegroup<T>(p: multiset<T>, o: multiset<T>, b: multiset<T>, rest: multiset<T>, all: multiset<T>)
    requires o + b == rest && rest + p == all
    ensures p + o + b == all
  {
  }

  /** The field for every entry, in the decoder's order. */
  function ParsedSteps(entries: seq<(string, Value)>, parseDate: string -> Result<string>,
                       formatValue: Value -> string, numbersAsNumber: bool): seq<Result<FrontmatterField>>
  {
    seq(|entries|, i requires 0 <= i < |entries| => ParseFieldWith(entries[i].0, entries[i].1, parseDate, formatValue, numbersAsNumber))
  }

  predicate DistinctKeys(entries: seq<(string, Value)>)
  {
    forall i, j :: 0 <= i < j < |entries| ==> entries[i].0 != entries[j].0
  }

  /** `parseFrontmatterFields`: one field per key, ordered by `OrderFields`, or
      the failure of the first key (in the decoder's order) that fails.
      `numbersAsNumber` is passed to `ParseFieldWith`: `false` is the code as
      written, `true` the corrected number tagging. */
  function ParseFrontmatterFields(entries: seq<(string, Value)>, parseDate: string -> Result<string>,
                                  formatValue: Value -> string, numbersAsNumber: bool): (r: Result<seq<FrontmatterField>>)
    requires DistinctKeys(entries)
    ensures r.Ok? <==> forall i :: 0 <= i < |entries| ==> ParseFieldWith(entries[i].0, entries[i].1, parseDate, formatValue, numbersAsNumber).Ok?
    ensures r.Ok? ==> |r.value| == |entries| && DistinctNames(r.value)
    ensures r.Ok? ==> r.value == OrderFields(Collect(ParsedSteps(entries, parseDate, formatValue, numbersAsNumber)).value)
  {
    var steps := ParsedSteps(entries, parseDate, formatValue, numbersAsNumber);
    assert forall i :: 0 <= i < |entries| ==> steps[i] == ParseFieldWith(entries[i].0, entries[i].1, parseDate, formatValue, numbersAsNumber);
    var parsed := Collect(steps);
    if !parsed.Ok? then parsed
    else
      assert forall i :: 0 <= i < |entries| ==> parsed.value[i].name == entries[i].0;
      Ok(OrderParsed(parsed.value, entries))
  }

  /** `r` is `fields` rearranged into the three runs: the priority fields in
      key order, then the other non-bool fields by name, then the remaining bool
      fields by name. */
  ghost predicate ArrangedFrom(r: seq<FrontmatterField>, fields: seq<FrontmatterField>)
  {
    var n := |PriorityPart(fields, PriorityKeys)|;
    var m := n + |OtherFields(fields)|;
    && multiset(r) == multiset(fields)
    && n <= m <= |r|
    && All(r[..n], IsPriority) && InKeyOrder(r[..n], PriorityKeys)
    && All(r[n..m], IsOther) && SortedBy(r[n..m], NameOf)
    && All(r[m..], IsTrailingBool) && SortedBy(r[m..], NameOf)
  }

  lemma OrderFieldsArranged(fields: seq<FrontmatterField>)
    requires DistinctNames(fields)
    ensures ArrangedFrom(OrderFields(fields), fields)
  {
    OrderFieldsShape(fields);
    OrderFieldsPermutation(fields);
  }

  /** The fields parsed from distinct keys have distinct names. */
  lemma ParsedNamesDistinct(entries: seq<(string, Value)>, parseDate: string -> Result<string>,
                            formatValue: Value -> string, numbersAsNumber: bool)
    requires DistinctKeys(entries)
    requires Collect(ParsedSteps(entries, parseDate, formatValue, numbersAsNumber)).Ok?
    ensures DistinctNames(Collect(ParsedSteps(entries, parseDate, formatValue, numbersAsNumber)).value)
  {
    var steps := ParsedSteps(entries, parseDate, formatValue, numbersAsNumber);
    var parsed := Collect(steps).value;
    assert forall i :: 0 <= i < |entries| ==> steps[i] == ParseFieldWith(entries[i].0, entries[i].1, parseDate, formatValue, numbersAsNumber);
    assert forall i :: 0 <= i < |entries| ==> parsed[i].name == entries[i].0;
  }

  /** A successful parse is the parsed fields arranged, never changed. */
  lemma ParseFrontmatterFieldsOrdered(entries: seq<(string, Value)>, parseDate: string -> Result<string>,
                                      formatValue: Value -> string, numbersAsNumber: bool)
    requires DistinctKeys(entries)
    ensures var r := ParseFrontmatterFields(entries, parseDate, formatValue, numbersAsNumber);
      r.Ok? ==> ArrangedFrom(r.value, Collect(ParsedSteps(entries, parseDate, formatValue, numbersAsNumber)).value)
  {
    var r := ParseFrontmatterFields(entries, parseDate, formatValue, numbersAsNumber);
    if r.Ok? {
      ParsedNamesDistinct(entries, parseDate, formatValue, numbersAsNumber);
      OrderFieldsArranged(Collect(ParsedSteps(entries, parseDate, formatValue, numbersAsNumber)).value);
    }
  }

  /** A failing key fails the whole parse with its own error when every key
      before it (in the decoder's order) parsed. */
  lemma ParseFrontmatterFieldsFails(entries: seq<(string, Value)>, parseDate: string -> Result<string>,
                                    formatValue: Value -> string, numbersAsNumber: bool)
    requires DistinctKeys(entries)
    ensures forall k :: (0 <= k < |entries| && !ParseFieldWith(entries[k].0, entries[k].1, parseDate, formatValue, numbersAsNumber).Ok?
      && (forall j :: 0 <= j < k ==> ParseFieldWith(entries[j].0, entries[j].1, parseDate, formatValue, numbersAsNumber).Ok?)
      ==> (ParseFrontmatterFields(entries, parseDate, formatValue, numbersAsNumber)
           == ParseFieldWith(entries[k].0, entries[k].1, parseDate, formatValue, numbersAsNumber).PropagateFailure()))
  {
    var steps := ParsedSteps(entries, parseDate, formatValue, numbersAsNumber);
    assert forall i :: 0 <= i < |entries| ==> steps[i] == ParseFieldWith(entries[i].0, entries[i].1, parseDate, formatValue, numbersAsNumber);
    forall k | FirstFailure(steps, k)
      ensures Collect(steps) == steps[k].PropagateFailure()
    {
      CollectFails(steps, k);
    }
  }

  /** Every key's parsed field is in a successful result. */
  lemma ParseFrontmatterFieldsKeepsAll(entries: seq<(string, Value)>, parseDate: string -> Result<string>,
                                       formatValue: Value -> string, numbersAsNumber: bool)
    requires DistinctKeys(entries)
    ensures var r := ParseFrontmatterFields(entries, parseDate, formatValue, numbersAsNumber);
      r.Ok? ==> forall i :: 0 <= i < |entries| ==> ParseFieldWith(entries[i].0, entries[i].1, parseDate, formatValue, numbersAsNumber).value in r.value
  {
    var steps := ParsedSteps(entries, parseDate, formatValue, numbersAsNumber);
    assert forall i :: 0 <= i < |entries| ==> steps[i] == ParseFieldWith(entries[i].0, entries[i].1, parseDate, formatValue, numbersAsNumber);
  }

  /** As written, a whole-number value reaches the parsed fields tagged `int`
      and with the number lost. */
  lemma AsWrittenIntField(key: string, i: int, parseDate: string -> Result<string>, formatValue: Value -> string)
    requires key != "date"
    ensures var r := ParseFrontmatterFields([(key, JInt(i))], parseDate, formatValue, false);
      r.Ok? && |r.value| == 1 && r.value[0].fieldType == "int" && r.value[0].numberValue == 0
  {
    var entries := [(key, JInt(i))];
    ParseFrontmatterFieldsKeepsAll(entries, parseDate, formatValue, false);
  }

  /** The parsed fields, one per key, put in order: every one kept and the
      names distinct. */
  function OrderParsed(fields: seq<FrontmatterField>, entries: seq<(string, Value)>): (r: seq<FrontmatterField>)
    requires DistinctKeys(entries) && |fields| == |entries|
    requires forall i :: 0 <= i < |entries| ==> fields[i].name == entries[i].0
    ensures |r| == |fields| && DistinctNames(r)
    ensures forall i :: 0 <= i < |fields| ==> fields[i] in r
    ensures r == OrderFields(fields)
  {
    assert DistinctNames(fields);
    OrderFieldsKeeps(fields);
    OrderFields(fields)
  }

  /** Ordering distinctly named fields keeps every field and the names distinct. */
  lemma OrderFieldsKeeps(fields: seq<FrontmatterField>)
    requires DistinctNames(fields)
    ensures |OrderFields(fields)| == |fields| && DistinctNames(OrderFields(fields))
    ensures forall i :: 0 <= i < |fields| ==> fields[i] in OrderFields(fields)
  {
    var r := OrderFields(fields);
    OrderFieldsPermutation(fields);
    PermutationNames(fields, r);
    assert forall i :: 0 <= i < |fields| ==> fields[i] in multiset(r);
  }

  /** A permutation of distinctly named fields is distinctly named. */
  lemma PermutationNames(a: seq<FrontmatterField>, b: seq<FrontmatterField>)
    requires DistinctNames(a) && multiset(a) == multiset(b)
    ensures DistinctNames(b)
  {
    forall i, j | 0 <= i < j < |b|
      ensures b[i].name != b[j].name
    {
      if b[i].name == b[j].name {
        assert b[i] in multiset(a) && b[j] in multiset(a);
        var x :| 0 <= x < |a| && a[x] == b[i];
        var y :| 0 <= y < |a| && a[y] == b[j];
        assert x == y;
        assert b[i] == b[j];
        assert multiset(b)[b[i]] >= 2 by {
          assert b == b[..i] + [b[i]] + b[i + 1..j] + [b[j]] + b[j + 1..];
        }
        DistinctCount(a, b[i]);
      }
    }
  }

  /** `ExtractFrontMatter`: the scan errors, the decoder's error wrapped, or the
      parsed fields and the body.  A document that does not open a header is
      returned whole as the body, with no fields.  With `numbersAsNumber` false
      the fields are tagged as the code as written tags them. */
  function ExtractFrontMatter(content: string, unmarshal: string -> Result<seq<(string, Value)>>,
                              parseDate: string -> Result<string>, formatValue: Value -> string, numbersAsNumber: bool)
    : (r: Result<(seq<FrontmatterField>, string)>)
    requires forall y :: unmarshal(y).Ok? ==> DistinctKeys(unmarshal(y).value)
    ensures content == "" ==> r == Err("empty content")
    ensures SplitDocument(content).NoFrontmatter? ==> r == Ok(([], content))
    ensures SplitDocument(content).Unterminated? ==> r == Err("unterminated frontmatter")
    ensures SplitDocument(content).Delimited? ==>
      var d := SplitDocument(content);
      && (unmarshal(d.yaml).Err? ==> r == Err("failed to parse frontmatter: " + unmarshal(d.yaml).msg))
      && (unmarshal(d.yaml).Ok? ==>
            (r.Ok? <==> ParseFrontmatterFields(unmarshal(d.yaml).value, parseDate, formatValue, numbersAsNumber).Ok?)
            && (r.Ok? ==> r.value == (ParseFrontmatterFields(unmarshal(d.yaml).value, parseDate, formatValue, numbersAsNumber).value, d.body)))
  {
    match SplitDocument(content)
    case Empty => Err("empty content")
    case NoFrontmatter => Ok(([], content))
    case Unterminated => Err("unterminated frontmatter")
    case Delimited(yaml, body) =>
      match unmarshal(yaml)
      case Err(e) => Err("failed to parse frontmatter: " + e)
      case Panic(e) => Panic(e)
      case Ok(entries) =>
        var fields :- ParseFrontmatterFields(entries, parseDate, formatValue, numbersAsNumber);
        Ok((fields, body))
  }

  // ---------------------------------------------------------------------------
  // Writing fields back

  /** The YAML value `FrontmatterFieldToYaml` writes for one field, chosen by its
      type tag; an unknown tag is an error. */
  function FieldValue(f: FrontmatterField, formatDate: string -> string): (r: Result<Value>)
    ensures r.Ok? <==> f.fieldType in KnownTypes
    ensures !r.Ok? ==> r == Err("unknown field type: " + f.fieldType)
  {
    match f.fieldType
    case "string" => Ok(JStr(f.stringValue))
    case "bool" => Ok(JBool(f.boolValue))
    case "number" => Ok(JNum(f.numberValue))
    case "dateTime" => Ok(JStr(formatDate(f.dateTimeValue)))
    case "stringSlice" => Ok(JArr(seq(|f.stringSliceValue|, i requires 0 <= i < |f.stringSliceValue| => JStr(f.stringSliceValue[i]))))
    case _ => Err("unknown field type: " + f.fieldType)
  }

  /** The mapping from each field's name to its value, a later field
      overwriting an earlier one of the same name (Go's map assignment in a loop). */
  function BuildMap(fields: seq<FrontmatterField>, values: seq<Value>): (m: map<string, Value>)
    requires |values| == |fields|
    ensures forall k :: k in m <==> k in Names(fields)
    ensures forall i :: 0 <= i < |fields| ==> fields[i].name in m
    ensures forall i :: 0 <= i < |fields| && LastNamed(fields, i) ==> m[fields[i].name] == values[i]
    decreases |fields|
  {
    if |fields| == 0 then map[]
    else
      var n := |fields| - 1;
      var init := fields[..n];
      var m := BuildMap(init, values[..n]);
      BuildMapStep(fields, values, m);
      m[fields[n].name := values[n]]
  }

  /** One step of `BuildMap`: adding the last field to the mapping of the
      others keeps every name and gives each last-named field its value. */
  lemma BuildMapStep(fields: seq<FrontmatterField>, values: seq<Value>, m: map<string, Value>)
    requires |values| == |fields| > 0
    requires var init := fields[..|fields| - 1];
      && (forall k :: k in m <==> k in Names(init))
      && (forall i :: 0 <= i < |init| ==> init[i].name in m)
      && (forall i :: 0 <= i < |init| && LastNamed(init, i) ==> m[init[i].name] == values[..|fields| - 1][i])
    ensures var n := |fields| - 1; var r := m[fields[n].name := values[n]];
      && (forall k :: k in r <==> k in Names(fields))
      && (forall i :: 0 <= i < |fields| ==> fields[i].name in r)
      && (forall i :: 0 <= i < |fields| && LastNamed(fields, i) ==> r[fields[i].name] == values[i])
  {
    var n := |fields| - 1;
    BuildMapKeys(fields, m, values[n]);
    forall i | 0 <= i < n
      ensures fields[i].name in m
    {
      assert fields[..n][i] == fields[i];
    }
    forall i | 0 <= i < |fields| && LastNamed(fields, i)
      ensures m[fields[n].name := values[n]][fields[i].name] == values[i]
    {
      if i < n {
        BuildMapEarlier(fields, values, m, i);
      }
    }
  }

  lemma BuildMapKeys(fields: seq<FrontmatterField>, m: map<string, Value>, v: Value)
    requires |fields| > 0
    requires forall k :: k in m <==> k in Names(fields[..|fields| - 1])
    ensures forall k :: k in m[fields[|fields| - 1].name := v] <==> k in Names(fields)
  {
    assert Names(fields) == Names(fields[..|fields| - 1]) + [fields[|fields| - 1].name];
  }

  /** A field before the last that is last-named keeps the value it had. */
  lemma BuildMapEarlier(fields: seq<FrontmatterField>, values: seq<Value>, m: map<string, Value>, i: int)
    requires |values| == |fields| > 0 && 0 <= i < |fields| - 1 && LastNamed(fields, i)
    requires forall j :: 0 <= j < |fields| - 1 ==> fields[j].name in m
    requires var init := fields[..|fields| - 1];
      forall j :: 0 <= j < |init| && LastNamed(init, j) ==> m[init[j].name] == values[..|fields| - 1][j]
    ensures m[fields[|fields| - 1].name := values[|fields| - 1]][fields[i].name] == values[i]
  {
    var n := |fields| - 1;
    var init := fields[..n];
    assert init[i] == fields[i] && values[..n][i] == values[i];
    assert LastNamed(init, i);
    assert fields[n].name != fields[i].name;
  }

  /** No later field has the name of field `i`: its value is the one that stays. */
  predicate LastNamed(fields: seq<FrontmatterField>, i: int)
    requires 0 <= i < |fields|
  {
    forall j :: i < j < |fields| ==> fields[j].name != fields[i].name
  }

  /** The mapping handed to the encoder: the value of every field under its
      name, a later field overwriting an earlier one of the same name; or the
      first unknown type tag. */
  function YamlMap(fields: seq<FrontmatterField>, formatDate: string -> string): (r: Result<map<string, Value>>)
    ensures r.Ok? <==> forall i :: 0 <= i < |fields| ==> fields[i].fieldType in KnownTypes
    ensures r.Ok? ==> forall k :: k in r.value <==> k in Names(fields)
    ensures r.Ok? ==> forall i :: 0 <= i < |fields| ==> fields[i].name in r.value
  {
    var steps := ValueSteps(fields, formatDate);
    assert forall i :: 0 <= i < |fields| ==> steps[i] == FieldValue(fields[i], formatDate);
    var values :- Collect(steps);
    Ok(BuildMap(fields, values))
  }

  function ValueSteps(fields: seq<FrontmatterField>, formatDate: string -> string): seq<Result<Value>>
  {
    seq(|fields|, i requires 0 <= i < |fields| => FieldValue(fields[i], formatDate))
  }

  /** The first field with an unknown type tag is the one reported. */
  lemma YamlMapFails(fields: seq<FrontmatterField>, formatDate: string -> string)
    ensures forall k :: (0 <= k < |fields| && fields[k].fieldType !in KnownTypes
      && (forall j :: 0 <= j < k ==> fields[j].fieldType in KnownTypes)
      ==> YamlMap(fields, formatDate) == Err("unknown field type: " + fields[k].fieldType))
  {
    var steps := ValueSteps(fields, formatDate);
    assert forall i :: 0 <= i < |fields| ==> steps[i] == FieldValue(fields[i], formatDate);
    forall k | FirstFailure(steps, k)
      ensures Collect(steps) == steps[k].PropagateFailure()
    {
      CollectFails(steps, k);
    }
  }

  /** A name's value in the mapping is the value of the last field of that name. */
  lemma YamlMapValues(fields: seq<FrontmatterField>, formatDate: string -> string)
    ensures var r := YamlMap(fields, formatDate);
      r.Ok? ==> forall i :: 0 <= i < |fields| && LastNamed(fields, i) ==>
        r.value[fields[i].name] == FieldValue(fields[i], formatDate).value
  {
    var steps := ValueSteps(fields, formatDate);
    assert forall i :: 0 <= i < |fields| ==> steps[i] == FieldValue(fields[i], formatDate);
  }

  /** `FrontmatterFieldToYaml`: the encoded mapping between `---` lines; an
      unknown type tag or an encoder failure is an error. */
  function FrontmatterFieldToYaml(fields: seq<FrontmatterField>, marshal: map<string, Value> -> Result<string>,
                                  formatDate: string -> string): (r: Result<string>)
    ensures r.Ok? <==> YamlMap(fields, formatDate).Ok? && marshal(YamlMap(fields, formatDate).value).Ok?
    ensures YamlMap(fields, formatDate).Err? ==> r == Err(YamlMap(fields, formatDate).msg)
    ensures r.Ok? ==> (HasPrefix(r.value, "---\n") && HasSuffix(r.value, "---\n") && |r.value| >= 8
      && r.value[4..|r.value| - 4] == marshal(YamlMap(fields, formatDate).value).value)
    ensures YamlMap(fields, formatDate).Ok? && marshal(YamlMap(fields, formatDate).value).Err? ==>
      r == Err("failed to marshal frontmatter: " + marshal(YamlMap(fields, formatDate).value).msg)
  {
    var m :- YamlMap(fields, formatDate);
    match marshal(m)
    case Ok(y) =>
      var out := "---\n" + y + "---\n";
      assert out[..4] == "---\n" && out[|out| - 4..] == "---\n" && out[4..|out| - 4] == y;
      Ok(out)
    case Err(e) => Err("failed to marshal frontmatter: " + e)
    case Panic(e) => Panic(e)
  }

  // ---------------------------------------------------------------------------
  // Reading and writing agree

  /** The value a field should write back: what was read, with a YAML integer
      written as a number. */
  function Normalized(v: Value): Value
  {
    if v.JInt? then JNum(v.i) else v
  }

  /** Round trip: a string, boolean, number or sequence of strings read into a
      field is written back as the same value. */
  lemma FieldRoundTrip(key: string, v: Value, parseDate: string -> Result<string>, formatValue: Value -> string,
                       formatDate: string -> string)
    requires key != "date"
    requires v.JStr? || v.JBool? || v.JNum? || v.JInt? || (v.JArr? && |v.items| > 0 && forall i :: 0 <= i < |v.items| ==> v.items[i].JStr?)
    ensures ParseField(key, v, parseDate, formatValue).Ok?
    ensures FieldValue(ParseField(key, v, parseDate, formatValue).value, formatDate) == Ok(Normalized(v))
  {
    if v.JArr? {
      SliceRoundTrip(key, v, parseDate, formatValue, formatDate);
    } else {
      var f := ParseFieldWith(key, v, parseDate, formatValue, true);
      assert ParseField(key, v, parseDate, formatValue) == f;
    }
  }

  /** The round trip for a sequence of strings: every element is kept, in order. */
  lemma SliceRoundTrip(key: string, v: Value, parseDate: string -> Result<string>, formatValue: Value -> string,
                       formatDate: string -> string)
    requires key != "date"
    requires v.JArr? && |v.items| > 0 && forall i :: 0 <= i < |v.items| ==> v.items[i].JStr?
    ensures ParseField(key, v, parseDate, formatValue).Ok?
    ensures FieldValue(ParseField(key, v, parseDate, formatValue).value, formatDate) == Ok(v)
  {
    AllStrings(v.items);
    var strs := StringItems(v.items);
    assert |strs| > 0;
    var f := ParseFieldWith(key, v, parseDate, formatValue, true);
    assert f == Ok(FrontmatterField(key, TypeName(v), "", false, 0, UnsetDateTime, []).(fieldType := "stringSlice", stringSliceValue := strs));
    assert ParseField(key, v, parseDate, formatValue) == f;
    var w := FieldValue(f.value, formatDate).value;
    assert w.JArr? && |w.items| == |v.items|;
    assert forall i :: 0 <= i < |v.items| ==> w.items[i] == v.items[i];
    assert w == v;
  }

  lemma {:induction false} AllStrings(items: seq<Value>)
    requires forall i :: 0 <= i < |items| ==> items[i].JStr?
    ensures |StringItems(items)| == |items|
    ensures forall i :: 0 <= i < |items| ==> items[i] == JStr(StringItems(items)[i])
  {
    if |items| > 0 {
      AllStrings(items[1..]);
      assert items == [items[0]] + items[1..];
    }
  }

  /** Round trip for the date: when formatting undoes parsing, the date string
      read is the date string written. */
  lemma DateRoundTrip(s: string, parseDate: string -> Result<string>, formatValue: Value -> string,
                      formatDate: string -> string)
    requires parseDate(s).Ok? && formatDate(parseDate(s).value) == s
    ensures ParseField("date", JStr(s), parseDate, formatValue).Ok?
    ensures FieldValue(ParseField("date", JStr(s), parseDate, formatValue).value, formatDate) == Ok(JStr(s))
  {
  }

  /** As written, a number read from a header cannot be written back: its type
      tag is `float64`, which the writer rejects. */
  lemma NumberNotWritable(key: string, n: int, parseDate: string -> Result<string>, formatValue: Value -> string,
                          marshal: map<string, Value> -> Result<string>, formatDate: string -> string)
    requires key != "date"
    ensures var f := ParseFieldAsWritten(key, JNum(n), parseDate, formatValue);
      f.Ok? && FrontmatterFieldToYaml([f.value], marshal, formatDate) == Err("unknown field type: float64")
  {
    var f := ParseFieldAsWritten(key, JNum(n), parseDate, formatValue).value;
    YamlMapFails([f], formatDate);
    assert YamlMap([f], formatDate) == Err("unknown field type: float64");
  }

  /** As written, a YAML integer loses its value and cannot be written back either. */
  lemma IntegerNotWritable(key: string, i: int, parseDate: string -> Result<string>, formatValue: Value -> string,
                           marshal: map<string, Value> -> Result<string>, formatDate: string -> string)
    requires key != "date"
    ensures var f := ParseFieldAsWritten(key, JInt(i), parseDate, formatValue);
      f.Ok? && f.value.numberValue == 0
      && FrontmatterFieldToYaml([f.value], marshal, formatDate) == Err("unknown field type: int")
  {
    var f := ParseFieldAsWritten(key, JInt(i), parseDate, formatValue).value;
    YamlMapFails([f], formatDate);
    assert YamlMap([f], formatDate) == Err("unknown field type: int");
  }
}

=== FILE: frontmatter_handler.dfy ===
/** `ExtractFrontMatter` of `handlers.go`: the same delimiter scan as
    `markdown/frontmatter.go`, returning the decoded YAML mapping itself (or no
    mapping at all for a document without a header) and the body. */
module FrontmatterHandler {
  import opened Wrappers
  import opened Strs
  import opened Json
  import opened FrontmatterScan
  import Frontmatter

  /** The decoded header and the body.  `unmarshal` stands for `yaml.Unmarshal`
      into a fresh map. */
  function ExtractFrontMatter(content: string, unmarshal: string -> Result<map<string, Value>>)
    : (r: Result<(Option<map<string, Value>>, string)>)
    ensures r == Err("empty content") <==> content == ""
    ensures r == Err("unterminated frontmatter") <==> SplitDocument(content).Unterminated?
    ensures (r.Ok? && r.value.0.None?) <==> SplitDocument(content).NoFrontmatter?
    ensures r.Ok? && r.value.0.None? ==> r.value.1 == content
    ensures SplitDocument(content).Delimited? ==>
      var d := SplitDocument(content);
      && (unmarshal(d.yaml).Err? ==> r == Err("failed to parse frontmatter: " + unmarshal(d.yaml).msg))
      && (unmarshal(d.yaml).Ok? ==> r == Ok((Some(unmarshal(d.yaml).value), d.body)))
  {
    match SplitDocument(content)
    case Empty => Err("empty content")
    case NoFrontmatter => Ok((None, content))
    case Unterminated => Err("unterminated frontmatter")
    case Delimited(yaml, body) =>
      match unmarshal(yaml)
      case Ok(m) => Ok((Some(m), body))
      case Err(e) =>
        assert |"failed to parse frontmatter: " + e| > |"unterminated frontmatter"|;
        Err("failed to parse frontmatter: " + e)
      case Panic(e) => Panic(e)
  }

  /** A document built from an opener, YAML lines, a closer and body lines
      gives back the decoded YAML lines and exactly the body lines. */
  lemma ExtractComposed(opener: string, yamlLines: seq<string>, closer: string, bodyLines: seq<string>,
                        unmarshal: string -> Result<map<string, Value>>)
    requires IsOpener(opener) && IsCloser(closer) && CleanLine(closer)
    requires forall i :: 0 <= i < |yamlLines| ==> CleanLine(yamlLines[i]) && !IsCloser(yamlLines[i])
    requires forall i :: 0 <= i < |bodyLines| ==> CleanLine(bodyLines[i])
    requires unmarshal(Terminated(yamlLines)).Ok?
    ensures ExtractFrontMatter(Terminated([opener] + yamlLines + [closer] + bodyLines), unmarshal)
      == Ok((Some(unmarshal(Terminated(yamlLines)).value), Terminated(bodyLines)))
  {
    SplitComposed(opener, yamlLines, closer, bodyLines);
  }

  /** The two extractors agree on everything the scan decides: both reject an
      empty or unterminated document with the same error, both return a
      document without a header whole as its body, and when both succeed they
      return the same body. */
  lemma ExtractorsAgree(content: string, unmarshal: string -> Result<map<string, Value>>,
                        unmarshalFields: string -> Result<seq<(string, Value)>>,
                        parseDate: string -> Result<string>, formatValue: Value -> string, numbersAsNumber: bool)
    requires forall y :: unmarshalFields(y).Ok? ==> Frontmatter.DistinctKeys(unmarshalFields(y).value)
    ensures var a := ExtractFrontMatter(content, unmarshal);
      var b := Frontmatter.ExtractFrontMatter(content, unmarshalFields, parseDate, formatValue, numbersAsNumber);
      && (content == "" ==> a == Err("empty content") && b == Err("empty content"))
      && (SplitDocument(content).Unterminated? ==> a == Err("unterminated frontmatter") && b == Err("unterminated frontmatter"))
      && (SplitDocument(content).NoFrontmatter? ==> a == Ok((None, content)) && b == Ok(([], content)))
      && (a.Ok? && b.Ok? ==> a.value.1 == b.value.1)
  {
    match SplitDocument(content)
    case Empty =>
    case NoFrontmatter =>
    case Unterminated =>
    case Delimited(yaml, body) =>
  }
}

=== FILE: frontmatter_scan.dfy ===
/** The delimiter scanner shared by both `ExtractFrontMatter` functions
    (`markdown/frontmatter.go` and `handlers.go`): a document is read line by
    line with `bufio.Scanner`, a `---` (or `---yaml`) first line opens a YAML
    header, the first later line that trims to `---` closes it, and the lines
    after it form the body. */
module FrontmatterScan {
  import opened Strs

  /** `bufio.ScanLines` drops one carriage return before each newline and at the end. */
  function DropCR(line: string): (r: string)
    ensures |line| > 0 && line[|line| - 1] == '\r' ==> r == line[..|line| - 1]
    ensures !(|line| > 0 && line[|line| - 1] == '\r') ==> r == line
  {
    if |line| > 0 && line[|line| - 1] == '\r' then line[..|line| - 1] else line
  }

  /** The tokens of `bufio.Scanner` with `ScanLines`: the pieces between newlines,
      without the empty piece after a final newline, each without a trailing
      carriage return.  Only the empty document has no line at all. */
  function ScanLines(content: string): (lines: seq<string>)
    ensures |lines| == 0 <==> content == ""
    ensures forall i :: 0 <= i < |lines| ==> '\n' !in lines[i]
  {
    var pieces := Split(content, '\n');
    var kept := if pieces[|pieces| - 1] == "" then pieces[..|pieces| - 1] else pieces;
    assert content == "" ==> pieces == [""];
    assert |kept| == 0 ==> pieces == [""] && content == Join(pieces, "\n") == "";
    seq(|kept|, i requires 0 <= i < |kept| => DropCR(kept[i]))
  }

  /** A line the scanner hands back unchanged: no newline, no trailing carriage return. */
  predicate CleanLine(line: string)
  {
    '\n' !in line && !(|line| > 0 && line[|line| - 1] == '\r')
  }

  /** Clean lines, each newline-terminated, scan back into the same lines. */
  lemma ScanTerminated(lines: seq<string>)
    requires forall i :: 0 <= i < |lines| ==> CleanLine(lines[i])
    ensures ScanLines(Terminated(lines)) == lines
  {
    assert forall i :: 0 <= i < |lines| ==> '\n' !in lines[i];
    LinesOfTerminated(lines);
    ScanPieces(Terminated(lines), lines);
  }

  /** A text that splits into clean lines and a final empty piece scans back
      into those lines. */
  lemma ScanPieces(content: string, lines: seq<string>)
    requires forall i :: 0 <= i < |lines| ==> CleanLine(lines[i])
    requires Split(content, '\n') == lines + [""]
    ensures ScanLines(content) == lines
  {
    var pieces := lines + [""];
    assert pieces[..|pieces| - 1] == lines;
    var r := ScanLines(content);
    forall i | 0 <= i < |lines|
      ensures r[i] == lines[i]
    {
      assert r[i] == DropCR(lines[i]);
    }
  }

  predicate IsOpener(line: string)
  {
    line == "---" || line == "---yaml"
  }

  predicate IsCloser(line: string)
  {
    TrimSpace(line) == "---"
  }

  /** Index of the first closing line at or after `from`, or `|lines|`. */
  function CloserIndex(lines: seq<string>, from: nat): (k: nat)
    requires from <= |lines|
    ensures from <= k <= |lines|
    ensures forall i :: from <= i < k ==> !IsCloser(lines[i])
    ensures k < |lines| ==> IsCloser(lines[k])
    decreases |lines| - from
  {
    if from == |lines| || IsCloser(lines[from]) then from else CloserIndex(lines, from + 1)
  }

  /** How a document splits. */
  datatype Document =
    | Empty
    | NoFrontmatter
    | Unterminated
    | Delimited(yaml: string, body: string)

  /** The scan: no line at all; a first line that is not an opener; no closing
      line after the opener; or the YAML lines between opener and first closer
      and the body lines after it, each newline-terminated. */
  function SplitDocument(content: string): (d: Document)
    ensures d.Empty? <==> content == ""
    ensures var lines := ScanLines(content);
      d.NoFrontmatter? <==> |lines| > 0 && !IsOpener(lines[0])
    ensures var lines := ScanLines(content);
      d.Unterminated? <==> |lines| > 0 && IsOpener(lines[0]) && forall i :: 1 <= i < |lines| ==> !IsCloser(lines[i])
    ensures var lines := ScanLines(content);
      d.Delimited? ==> exists k :: (1 <= k < |lines| && IsCloser(lines[k])
        && (forall i :: 1 <= i < k ==> !IsCloser(lines[i]))
        && d.yaml == Terminated(lines[1..k]) && d.body == Terminated(lines[k + 1..]))
  {
    var lines := ScanLines(content);
    if |lines| == 0 then Empty
    else if !IsOpener(lines[0]) then NoFrontmatter
    else
      var k := CloserIndex(lines, 1);
      if k == |lines| then Unterminated
      else Delimited(Terminated(lines[1..k]), Terminated(lines[k + 1..]))
  }

  /** Composing a document from an opener, YAML lines with no closer among them,
      a closer and body lines, and scanning it, gives the YAML and the body back. */
  lemma SplitComposed(opener: string, yamlLines: seq<string>, closer: string, bodyLines: seq<string>)
    requires IsOpener(opener) && IsCloser(closer) && CleanLine(closer)
    requires forall i :: 0 <= i < |yamlLines| ==> CleanLine(yamlLines[i]) && !IsCloser(yamlLines[i])
    requires forall i :: 0 <= i < |bodyLines| ==> CleanLine(bodyLines[i])
    ensures SplitDocument(Terminated([opener] + yamlLines + [closer] + bodyLines))
      == Delimited(Terminated(yamlLines), Terminated(bodyLines))
  {
    var lines := [opener] + yamlLines + [closer] + bodyLines;
    var k := |yamlLines| + 1;
    ComposedLines(opener, yamlLines, closer, bodyLines);
    ScanTerminated(lines);
    CloserFirst(lines, 1, k);
  }

  /** The composed lines: all clean, the opener first, no closer before the
      given one, and the YAML and body lines as the slices around it. */
  lemma ComposedLines(opener: string, yamlLines: seq<string>, closer: string, bodyLines: seq<string>)
    requires IsOpener(opener) && IsCloser(closer) && CleanLine(closer)
    requires forall i :: 0 <= i < |yamlLines| ==> CleanLine(yamlLines[i]) && !IsCloser(yamlLines[i])
    requires forall i :: 0 <= i < |bodyLines| ==> CleanLine(bodyLines[i])
    ensures var lines := [opener] + yamlLines + [closer] + bodyLines;
      var k := |yamlLines| + 1;
      && (forall i :: 0 <= i < |lines| ==> CleanLine(lines[i]))
      && lines[0] == opener && lines[k] == closer
      && (forall i :: 1 <= i < k ==> !IsCloser(lines[i]))
      && lines[1..k] == yamlLines && lines[k + 1..] == bodyLines
  {
    var lines := [opener] + yamlLines + [closer] + bodyLines;
    var k := |yamlLines| + 1;
    assert CleanLine(opener);
    CleanConcat([opener], yamlLines);
    CleanConcat([opener] + yamlLines, [closer]);
    CleanConcat([opener] + yamlLines + [closer], bodyLines);
    assert lines[1..k] == yamlLines;
    assert lines[k + 1..] == bodyLines;
    forall i | 1 <= i < k
      ensures !IsCloser(lines[i])
    {
      assert lines[i] == lines[1..k][i - 1];
    }
  }

  lemma CleanConcat(a: seq<string>, b: seq<string>)
    requires forall i :: 0 <= i < |a| ==> CleanLine(a[i])
    requires forall i :: 0 <= i < |b| ==> CleanLine(b[i])
    ensures forall i :: 0 <= i < |a + b| ==> CleanLine((a + b)[i])
  {
    forall i | 0 <= i < |a + b|
      ensures CleanLine((a + b)[i])
    {
      if i < |a| {
        assert (a + b)[i] == a[i];
      } else {
        assert (a + b)[i] == b[i - |a|];
      }
    }
  }

  lemma {:induction false} CloserFirst(lines: seq<string>, from: nat, k: nat)
    requires from <= k < |lines| && IsCloser(lines[k])
    requires forall i :: from <= i < k ==> !IsCloser(lines[i])
    ensures CloserIndex(lines, from) == k
    decreases k - from
  {
    if from < k {
      CloserFirst(lines, from + 1, k);
    }
  }
}

=== FILE: github_organizations.dfy ===
/** `github/organizations.go`: reading the `rel="next"` target out of a
    `Link` response header (Web Linking, section 3 of RFC 8288), and the
    checks and the ordering around `FetchOrganizations`.  The paginated HTTP
    round trips are one function parameter. */
module GithubOrganizations {
  import opened Wrappers
  import opened Strs
  import opened Ordering

  /** An organization as the API describes it. */
  datatype Organization = Organization(login: string, description: string, url: string)

  /** The link parameter `rel="<rel>"`. */
  function RelParam(rel: string): string
  {
    "rel=\"" + rel + "\""
  }

  const NextRel: string := RelParam("next")

  /** What one comma-separated entry of the header says. */
  datatype Entry = Next(target: string) | Other

  /** An entry names the next page when, trimmed and split on `;`, it has
      exactly two parts and the second trims to `rel="next"`; its URL is the
      first part with every leading `<` and trailing `>` removed. */
  function ReadEntry(link: string): (e: Entry)
    ensures e.Next? ==> |Split(TrimSpace(link), ';')| == 2
  {
    var parts := Split(TrimSpace(link), ';');
    if |parts| == 2 && TrimSpace(parts[1]) == NextRel then Next(TrimCutset(parts[0], {'<', '>'}))
    else Other
  }

  /** The URL of a next-page entry keeps no `<` at its start and no `>` at
      its end. */
  lemma TargetUnbracketed(link: string)
    requires ReadEntry(link).Next?
    ensures var u := ReadEntry(link).target;
      |u| > 0 ==> u[0] !in {'<', '>'} && u[|u| - 1] !in {'<', '>'}
  {
    TrimCutsetTrimmed(Split(TrimSpace(link), ';')[0], {'<', '>'});
  }

  /** Each entry of the header, read. */
  function Entries(links: seq<string>): (es: seq<Entry>)
    ensures |es| == |links| && forall i :: 0 <= i < |links| ==> es[i] == ReadEntry(links[i])
  {
    seq(|links|, i requires 0 <= i < |links| => ReadEntry(links[i]))
  }

  /** Index of the first next-page entry at or after `from`, or `|es|`. */
  function FirstNext(es: seq<Entry>, from: nat): (k: nat)
    requires from <= |es|
    ensures from <= k <= |es|
    ensures forall i :: from <= i < k ==> es[i].Other?
    ensures k < |es| ==> es[k].Next?
    decreases |es| - from
  {
    if from == |es| || es[from].Next? then from else FirstNext(es, from + 1)
  }

  /** `k` is the first next-page entry of `es`. */
  predicate FirstNextAt(es: seq<Entry>, k: int)
  {
    0 <= k < |es| && es[k].Next? && forall i :: 0 <= i < k ==> es[i].Other?
  }

  /** No entry names the next page. */
  predicate NoNext(es: seq<Entry>)
  {
    forall i :: 0 <= i < |es| ==> es[i].Other?
  }

  /** The target of the first next-page entry, or `""` when there is none. */
  function NextTarget(es: seq<Entry>): (u: string)
    ensures forall k :: FirstNextAt(es, k) ==> u == es[k].target
    ensures NoNext(es) ==> u == ""
  {
    var k := FirstNext(es, 0);
    if k < |es| then es[k].target else ""
  }

  /** `extractNextPageURL`: the target of the first next-page entry of the
      comma-separated header, or `""` when there is none. */
  function ExtractNextPageURL(header: string): (u: string)
    ensures var es := Entries(Split(header, ','));
      && (forall k :: FirstNextAt(es, k) ==> u == es[k].target)
      && (NoNext(es) ==> u == "")
  {
    NextTarget(Entries(Split(header, ',')))
  }

  /** An empty header names no next page, so the caller's check for an empty
      header before the call changes nothing. */
  lemma EmptyHeaderNoNext()
    ensures ExtractNextPageURL("") == ""
  {
    assert Split("", ',') == [""] by {
      SplitJoin([""], ',');
    }
    assert TrimSpace("") == "";
    assert Split("", ';') == [""] by {
      SplitJoin([""], ';');
    }
    assert ReadEntry("") == Other;
  }

  /** One link of a header, as a server writes it: optional white space, the
      target in angle brackets, and one `rel` parameter. */
  datatype Link = Link(pad: string, target: string, rel: string)

  /** The link target in angle brackets, `<target>`. */
  function Bracket(target: string): string
  {
    "<" + target + ">"
  }

  function Render(l: Link): string
  {
    l.pad + Bracket(l.target) + "; " + RelParam(l.rel)
  }

  function RenderAll(ls: seq<Link>): (r: seq<string>)
    ensures |r| == |ls| && forall i :: 0 <= i < |ls| ==> r[i] == Render(ls[i])
  {
    seq(|ls|, i requires 0 <= i < |ls| => Render(ls[i]))
  }

  /** The characters a link may hold without changing how the header splits:
      white space in front, no separator, bracket or quote in the target, no
      separator or quote in the relation. */
  predicate WellFormed(l: Link)
  {
    && (forall i :: 0 <= i < |l.pad| ==> IsGoSpace(l.pad[i]) && l.pad[i] != ',')
    && (forall i :: 0 <= i < |l.target| ==> l.target[i] !in {',', ';', '<', '>'})
    && (forall i :: 0 <= i < |l.rel| ==> l.rel[i] !in {',', ';'})
  }

  predicate AllWellFormed(ls: seq<Link>)
  {
    forall i :: 0 <= i < |ls| ==> WellFormed(ls[i])
  }

  /** Index of the first link whose relation is `next`, or `|ls|`. */
  function FirstNextRel(ls: seq<Link>): (k: nat)
    ensures k <= |ls|
    ensures forall i :: 0 <= i < k ==> ls[i].rel != "next"
    ensures k < |ls| ==> ls[k].rel == "next"
  {
    if |ls| == 0 then 0
    else if ls[0].rel == "next" then 0
    else 1 + FirstNextRel(ls[1..])
  }

  /** The page after this one, read off the links directly: the target of the
      first link whose relation is `next`, or nothing. */
  function NextOf(ls: seq<Link>): (u: string)
    ensures (forall i :: 0 <= i < |ls| ==> ls[i].rel != "next") ==> u == ""
  {
    var k := FirstNextRel(ls);
    if k < |ls| then ls[k].target else ""
  }

  /** Extracting from a rendered header finds what the links say: the target
      of the first `rel="next"` link, or `""` when none has that relation. */
  lemma {:induction false} ExtractRendered(ls: seq<Link>)
    requires |ls| >= 1 && AllWellFormed(ls)
    ensures ExtractNextPageURL(Join(RenderAll(ls), ",")) == NextOf(ls)
  {
    var links := RenderAll(ls);
    SplitRendered(ls);
    var es := Entries(links);
    EntriesRendered(ls);
    var k := FirstNextRel(ls);
    var u := ExtractNextPageURL(Join(links, ","));
    assert Entries(Split(Join(links, ","), ',')) == es;
    if k < |ls| {
      assert es[k] == Next(ls[k].target);
      forall i | 0 <= i < k
        ensures es[i].Other?
      {
        assert ls[i].rel != "next";
      }
      assert FirstNextAt(es, k);
    } else {
      forall i | 0 <= i < |es|
        ensures es[i].Other?
      {
        assert ls[i].rel != "next";
      }
      assert NoNext(es);
    }
  }

  /** The rendered header splits on `,` back into the rendered links. */
  lemma SplitRendered(ls: seq<Link>)
    requires |ls| >= 1 && AllWellFormed(ls)
    ensures Split(Join(RenderAll(ls), ","), ',') == RenderAll(ls)
  {
    var links := RenderAll(ls);
    forall i | 0 <= i < |links|
      ensures ',' !in links[i]
    {
      RenderNoComma(ls[i]);
    }
    SplitJoin(links, ',');
    assert Join(links, [',']) == Join(links, ",");
  }

  /** Each rendered link reads as what its relation says. */
  lemma EntriesRendered(ls: seq<Link>)
    requires AllWellFormed(ls)
    ensures forall i :: 0 <= i < |ls| ==>
      Entries(RenderAll(ls))[i] == if ls[i].rel == "next" then Next(ls[i].target) else Other
  {
    forall i | 0 <= i < |ls|
      ensures Entries(RenderAll(ls))[i] == if ls[i].rel == "next" then Next(ls[i].target) else Other
    {
      LinkRead(ls[i]);
    }
  }

  lemma RenderNoComma(l: Link)
    requires WellFormed(l)
    ensures ',' !in Render(l)
  {
    var r := Render(l);
    forall i | 0 <= i < |r|
      ensures r[i] != ','
    {
      if i < |l.pad| {
        assert r[i] == l.pad[i];
      } else if |l.pad| + 1 <= i < |l.pad| + 1 + |l.target| {
        assert r[i] == l.target[i - |l.pad| - 1];
      } else if |l.pad| + 1 + |l.target| + 8 <= i < |l.pad| + 1 + |l.target| + 8 + |l.rel| {
        assert r[i] == l.rel[i - |l.pad| - 1 - |l.target| - 8];
      }
    }
  }

  /** One rendered link is a next-page entry exactly when its relation is
      `next`, and then its target is read back. */
  lemma LinkRead(l: Link)
    requires WellFormed(l)
    ensures ReadEntry(Render(l)) == if l.rel == "next" then Next(l.target) else Other
  {
    var head := Bracket(l.target);
    var tail := " " + RelParam(l.rel);
    LinkParts(l);
    ReadTwoParts(Render(l), head, tail);
    TailTrim(l.rel);
    RelRead(l.rel);
    if l.rel == "next" {
      TrimBrackets(l.target);
    }
  }

  /** The parameter part loses only its leading space when trimmed. */
  lemma TailTrim(rel: string)
    ensures TrimSpace(" " + RelParam(rel)) == RelParam(rel)
  {
    TrimOneSpace(RelParam(rel));
  }

  /** Reading an entry that splits into two parts. */
  lemma ReadTwoParts(link: string, head: string, tail: string)
    requires Split(TrimSpace(link), ';') == [head, tail]
    ensures ReadEntry(link) == if TrimSpace(tail) == NextRel then Next(TrimCutset(head, {'<', '>'})) else Other
  {
  }

  /** A rendered link, trimmed, splits on `;` into the bracketed target and
      the parameter with its leading space. */
  lemma LinkParts(l: Link)
    requires WellFormed(l)
    ensures Split(TrimSpace(Render(l)), ';') == [Bracket(l.target), " " + RelParam(l.rel)]
  {
    var head := Bracket(l.target);
    var param := RelParam(l.rel);
    var tail := " " + param;
    var core := head + ";" + tail;
    SemicolonSpace(l.pad, head, param);
    TrimSpaceOf(l.pad, core, "");
    NoSemicolons(l);
    SplitJoin([head, tail], ';');
    assert Join([head, tail], [';']) == core;
  }

  /** Neither the bracketed target nor the parameter part holds a `;`. */
  lemma NoSemicolons(l: Link)
    requires WellFormed(l)
    ensures ';' !in Bracket(l.target) && ';' !in " " + RelParam(l.rel)
  {
    var head := Bracket(l.target);
    var tail := " " + RelParam(l.rel);
    forall i | 0 <= i < |head|
      ensures head[i] != ';'
    {
      if 1 <= i < |head| - 1 {
        assert head[i] == l.target[i - 1];
      }
    }
    forall i | 0 <= i < |tail|
      ensures tail[i] != ';'
    {
      if 6 <= i < |tail| - 1 {
        assert tail[i] == l.rel[i - 6];
      }
    }
  }

  /** The separator `; ` is `;` followed by the space that starts the parameter part. */
  lemma SemicolonSpace(pad: string, head: string, param: string)
    ensures pad + head + "; " + param == pad + (head + ";" + (" " + param)) + ""
  {
  }

  /** `rel="<rel>"` is `rel="next"` exactly when the relation is `next`. */
  lemma RelRead(rel: string)
    ensures RelParam(rel) == NextRel <==> rel == "next"
  {
    var p := RelParam(rel);
    var q := RelParam("next");
    assert p[5..|p| - 1] == rel;
    assert q[5..|q| - 1] == "next";
  }

  /** Removing the cut set `<>` from both ends of `<target>` gives the target
      back when the target holds no bracket. */
  lemma TrimBrackets(target: string)
    requires forall i :: 0 <= i < |target| ==> target[i] !in {',', ';', '<', '>'}
    ensures TrimCutset(Bracket(target), {'<', '>'}) == target
  {
    assert Bracket(target) == ['<'] + target + ['>'];
    TrimCutsetEnclosed('<', target, '>', {'<', '>'});
  }

  const MissingUsername: string := "username is required"
  const MissingToken: string := "authentication token is required"
  const RequestFailed: string := "failed to create request: "

  /** The first page the organizations of `username` are read from. */
  function OrganizationsURL(username: string): string
  {
    "https://api.github.com/users/" + username + "/orgs"
  }

  /** `FetchOrganizations`: an empty username is refused; then the request for
      the first page is created, which fails for a URL `http.NewRequest`
      rejects, and only then is an empty token refused.  The organizations the
      pages return are sorted by login.  `newRequest(url)` is the error
      `http.NewRequest` reports for a URL, if any; `fetchAll(url,
      authorization)` stands for the paginated requests and their decoding. */
  function FetchOrganizations(username: string, token: string, newRequest: string -> Option<string>,
                              fetchAll: (string, string) -> Result<seq<Organization>>)
    : (r: Result<seq<Organization>>)
    ensures username == "" ==> r == Err(MissingUsername)
    ensures username != "" && newRequest(OrganizationsURL(username)).Some? ==>
      r == Err(RequestFailed + newRequest(OrganizationsURL(username)).value)
    ensures username != "" && newRequest(OrganizationsURL(username)).None? && token == "" ==> r == Err(MissingToken)
    ensures username != "" && newRequest(OrganizationsURL(username)).None? && token != "" ==>
      var fetched := fetchAll(OrganizationsURL(username), "Bearer " + token);
      && (!fetched.Ok? ==> r == fetched.PropagateFailure())
      && (fetched.Ok? ==> r.Ok? && SortedBy(r.value, ByLogin)
                          && multiset(r.value) == multiset(fetched.value))
  {
    if username == "" then Err(MissingUsername)
    else if newRequest(OrganizationsURL(username)).Some? then
      Err(RequestFailed + newRequest(OrganizationsURL(username)).value)
    else if token == "" then Err(MissingToken)
    else
      var orgs :- fetchAll(OrganizationsURL(username), "Bearer " + token);
      Ok(SortBy(orgs, ByLogin))
  }

  function ByLogin(o: Organization): string
  {
    o.login
  }
}

=== FILE: github_repositories.dfy ===
/** `github/repositories.go`: the expiring cache in front of the repository
    listings, its cache keys and its cleaner, and the two cached listing
    functions.  Time is an explicit clock in nanoseconds; the paginated HTTP
    requests are one function parameter. */
module GithubRepositories {
  import opened Wrappers
  import opened Strs
  import opened Ordering

  /** A repository as the API describes it. */
  datatype Repository = Repository(name: string, description: string, isPrivate: bool,
                                   url: string, htmlUrl: string, defaultBranch: string)

  /** Five minutes, in nanoseconds. */
  const CacheDuration: int := 5 * 60 * 1_000_000_000

  datatype Entry = Entry(data: seq<Repository>, expiration: int)

  type Cache = map<string, Entry>

  /** An entry has expired once the clock is strictly after its expiration. */
  predicate Expired(e: Entry, now: int)
  {
    now > e.expiration
  }

  /** `getCached`: an absent key is a miss; an expired entry is a miss and is
      deleted; a live entry is a hit and the cache is left as it was. */
  function GetCached(cache: Cache, key: string, now: int): (r: (Option<seq<Repository>>, Cache))
    ensures key !in cache ==> r.0.None? && r.1 == cache
    ensures key in cache && Expired(cache[key], now) ==> r.0.None? && key !in r.1
    ensures r.0.Some? <==> key in cache && !Expired(cache[key], now)
    ensures r.0.Some? ==> r.0.value == cache[key].data && r.1 == cache
    ensures forall k :: k != key ==> (k in r.1 <==> k in cache)
    ensures forall k :: k != key && k in cache ==> r.1[k] == cache[k]
  {
    if key !in cache then (None, cache)
    else if Expired(cache[key], now) then (None, cache - {key})
    else (Some(cache[key].data), cache)
  }

  /** `setCache`: the key now holds the data, expiring five minutes later;
      every other key is untouched. */
  function SetCache(cache: Cache, key: string, data: seq<Repository>, now: int): (c: Cache)
    ensures key in c && c[key].data == data && c[key].expiration == now + CacheDuration
    ensures forall k :: k != key ==> (k in c <==> k in cache)
    ensures forall k :: k != key && k in cache ==> c[k] == cache[k]
  {
    cache[key := Entry(data, now + CacheDuration)]
  }

  /** What was stored is read back for five minutes, inclusive, and is gone
      after that. */
  lemma SetThenGet(cache: Cache, key: string, data: seq<Repository>, t: int, later: int)
    ensures later <= t + CacheDuration ==> GetCached(SetCache(cache, key, data, t), key, later).0 == Some(data)
    ensures later > t + CacheDuration ==> GetCached(SetCache(cache, key, data, t), key, later).0 == None
  {
  }

  /** Storing under one key does not change what another key reads. */
  lemma SetOtherKey(cache: Cache, key: string, data: seq<Repository>, t: int, other: string, later: int)
    requires other != key
    ensures GetCached(SetCache(cache, key, data, t), other, later).0 == GetCached(cache, other, later).0
  {
  }

  /** The cleaner's sweep: the entries that have not expired, unchanged. */
  function Sweep(cache: Cache, now: int): (c: Cache)
    ensures forall k :: k in c <==> k in cache && !Expired(cache[k], now)
    ensures forall k :: k in c ==> c[k] == cache[k]
  {
    map k | k in cache && !Expired(cache[k], now) :: cache[k]
  }

  /** A sweep changes no lookup made at its own time or later: whatever it
      removed would have been a miss anyway. */
  lemma SweepKeepsLookups(cache: Cache, now: int, key: string, later: int)
    requires now <= later
    ensures GetCached(Sweep(cache, now), key, later).0 == GetCached(cache, key, later).0
  {
  }

  /** A second sweep at the same time removes nothing more. */
  lemma SweepIdempotent(cache: Cache, now: int)
    ensures Sweep(Sweep(cache, now), now) == Sweep(cache, now)
  {
  }

  /** Every cached listing is sorted by name, as the listings store them. */
  ghost predicate CacheSorted(cache: Cache)
  {
    forall k :: k in cache ==> SortedBy(cache[k].data, ByName)
  }

  /** `generateCacheKey`: `user:<id>:<url>`. */
  function CacheKey(userId: nat, url: string): (key: string)
    ensures HasPrefix(key, "user:")
  {
    "user:" + NatToString(userId) + ":" + url
  }

  /** Different users, or different URLs, never share a key: the id is all
      digits, so the first `:` after `user:` ends it. */
  lemma {:induction false} CacheKeyInjective(a: nat, u: string, b: nat, v: string)
    requires CacheKey(a, u) == CacheKey(b, v)
    ensures a == b && u == v
  {
    var ka := CacheKey(a, u);
    var sa := NatToString(a);
    var sb := NatToString(b);
    var ra := ka[5..];
    assert ra == sa + [':'] + u;
    assert ra == sb + [':'] + v;
    assert ':' !in sa by {
      forall i | 0 <= i < |sa| ensures sa[i] != ':' { assert '0' <= sa[i] <= '9'; }
    }
    assert ':' !in sb by {
      forall i | 0 <= i < |sb| ensures sb[i] != ':' { assert '0' <= sb[i] <= '9'; }
    }
    IndexOfPrefix(sa, ':', u);
    IndexOfPrefix(sb, ':', v);
    assert sa == ra[..|sa|] == sb;
    NatToStringInjective(a, b);
    assert u == ra[|sa| + 1..] == v;
  }

  const MissingOrganization: string := "organization name is required"
  const MissingToken: string := "authentication token is required"
  const RequestFailed: string := "failed to create request: "

  function OrgReposURL(org: string): string
  {
    "https://api.github.com/orgs/" + org + "/repos"
  }

  function UserReposURL(username: string): string
  {
    "https://api.github.com/users/" + username + "/repos"
  }

  function ByName(r: Repository): string
  {
    r.name
  }

  /** The cached listing both functions share: a live cache entry under
      `user:<id>:<baseURL>` answers at once; otherwise the request for the
      first page is created, which fails for a URL `http.NewRequest` rejects,
      then the token is required, and the pages are fetched, sorted by name
      and stored.  The lookup happens at `now` and the store at `storedAt`.
      `newRequest(url)` is the error `http.NewRequest` reports for a URL, if
      any; `fetchAll(url, authorization)` stands for the paginated requests
      (100 per page) and their decoding. */
  function CachedListing(baseURL: string, token: string, userId: nat, cache: Cache, now: int, storedAt: int,
                         newRequest: string -> Option<string>,
                         fetchAll: (string, string) -> Result<seq<Repository>>)
    : (r: (Result<seq<Repository>>, Cache))
    ensures var key := CacheKey(userId, baseURL);
      && (key in cache && !Expired(cache[key], now) ==> r == (Ok(cache[key].data), cache))
      && (!(key in cache && !Expired(cache[key], now)) ==>
            && (newRequest(baseURL).Some? ==> r.0 == Err(RequestFailed + newRequest(baseURL).value))
            && (newRequest(baseURL).None? && token == "" ==> r.0 == Err(MissingToken))
            && (newRequest(baseURL).None? && token != "" && !fetchAll(baseURL, "Bearer " + token).Ok? ==>
                  r.0 == fetchAll(baseURL, "Bearer " + token).PropagateFailure())
            && (newRequest(baseURL).None? && token != "" && fetchAll(baseURL, "Bearer " + token).Ok? ==>
                  && r.0.Ok? && SortedBy(r.0.value, ByName)
                  && multiset(r.0.value) == multiset(fetchAll(baseURL, "Bearer " + token).value)
                  && GetCached(r.1, key, storedAt).0 == Some(r.0.value)))
    ensures CacheSorted(cache) ==> CacheSorted(r.1) && (r.0.Ok? ==> SortedBy(r.0.value, ByName))
  {
    var key := CacheKey(userId, baseURL);
    var (hit, cache') := GetCached(cache, key, now);
    if hit.Some? then (Ok(hit.value), cache')
    else if newRequest(baseURL).Some? then (Err(RequestFailed + newRequest(baseURL).value), cache')
    else if token == "" then (Err(MissingToken), cache')
    else
      match fetchAll(baseURL, "Bearer " + token)
      case Ok(repos) =>
        var sorted := SortBy(repos, ByName);
        (Ok(sorted), SetCache(cache', key, sorted, storedAt))
      case Err(e) => (Err(e), cache')
      case Panic(e) => (Panic(e), cache')
  }

  /** `FetchOrgRepositories`: an empty organization is refused before the
      cache is consulted. */
  function FetchOrgRepositories(org: string, token: string, userId: nat, cache: Cache, now: int, storedAt: int,
                                newRequest: string -> Option<string>,
                                fetchAll: (string, string) -> Result<seq<Repository>>)
    : (r: (Result<seq<Repository>>, Cache))
    ensures org == "" ==> r == (Err(MissingOrganization), cache)
    ensures CacheSorted(cache) ==> CacheSorted(r.1) && (r.0.Ok? ==> SortedBy(r.0.value, ByName))
  {
    if org == "" then (Err(MissingOrganization), cache)
    else CachedListing(OrgReposURL(org), token, userId, cache, now, storedAt, newRequest, fetchAll)
  }

  /** `FetchUserRepositories`: the same listing for a user's repositories,
      with no check on the username. */
  function FetchUserRepositories(username: string, token: string, userId: nat, cache: Cache, now: int, storedAt: int,
                                 newRequest: string -> Option<string>,
                                 fetchAll: (string, string) -> Result<seq<Repository>>)
    : (r: (Result<seq<Repository>>, Cache))
    ensures CacheSorted(cache) ==> CacheSorted(r.1) && (r.0.Ok? ==> SortedBy(r.0.value, ByName))
  {
    CachedListing(UserReposURL(username), token, userId, cache, now, storedAt, newRequest, fetchAll)
  }

  /** A listing that was fetched is answered from the cache, without a
      request, by any call for the same user and URL up to five minutes after
      it was stored. */
  lemma ListingCached(baseURL: string, token: string, userId: nat, cache: Cache, now: int, storedAt: int,
                      newRequest: string -> Option<string>, fetchAll: (string, string) -> Result<seq<Repository>>,
                      later: int, token2: string, fetchAll2: (string, string) -> Result<seq<Repository>>, storedAt2: int)
    requires var key := CacheKey(userId, baseURL);
      !(key in cache && !Expired(cache[key], now))
    requires newRequest(baseURL).None? && token != "" && fetchAll(baseURL, "Bearer " + token).Ok?
    requires storedAt <= later <= storedAt + CacheDuration
    ensures var (first, c) := CachedListing(baseURL, token, userId, cache, now, storedAt, newRequest, fetchAll);
      CachedListing(baseURL, token2, userId, c, later, storedAt2, newRequest, fetchAll2) == (first, c)
  {
    var key := CacheKey(userId, baseURL);
    var (first, c) := CachedListing(baseURL, token, userId, cache, now, storedAt, newRequest, fetchAll);
    SetThenGet(GetCached(cache, key, now).1, key, first.value, storedAt, later);
  }
}

=== FILE: github_repository.dfy ===
/** Repository-URL parsing of `github/repository.go`: the owner and the
    repository name read out of an SSH or HTTPS GitHub URL, and the input
    checks `FetchRepository` makes before it sends anything.  The HTTP request
    itself is a parameter. */
module GithubRepository {
  import opened Wrappers
  import opened Strs

  const SshPrefix: string := "git@github.com:"
  const HttpsPrefix: string := "https://github.com/"
  const GitSuffix: string := ".git"

  /** The path with one trailing `.git` removed, when the path is longer than it. */
  function StripGit(path: string): (p: string)
    ensures |path| > 4 && HasSuffix(path, GitSuffix) ==> path == p + GitSuffix
    ensures !(|path| > 4 && HasSuffix(path, GitSuffix)) ==> p == path
  {
    if |path| > 4 && HasSuffix(path, GitSuffix) then
      assert path == path[..|path| - 4] + path[|path| - 4..];
      path[..|path| - 4]
    else path
  }

  /** `parseOwnerAndRepo`: the path, without a trailing `.git`, must be exactly
      two non-empty pieces around one `/`. */
  function ParseOwnerAndRepo(path: string): (r: Result<(string, string)>)
    ensures r.Ok? ==> && r.value.0 != "" && r.value.1 != ""
                      && '/' !in r.value.0 && '/' !in r.value.1
                      && StripGit(path) == r.value.0 + "/" + r.value.1
    ensures r.Err? ==> r.msg == "invalid repository path format" || r.msg == "owner and repository name cannot be empty"
    ensures !r.Panic?
  {
    var parts := Split(StripGit(path), '/');
    if |parts| != 2 then Err("invalid repository path format")
    else if parts[0] == "" || parts[1] == "" then Err("owner and repository name cannot be empty")
    else
      assert Join(parts, "/") == parts[0] + "/" + parts[1];
      Ok((parts[0], parts[1]))
  }

  /** `parseGitHubURL`: the SSH form is tried first, then the HTTPS form; each
      needs at least one character after its prefix. */
  function ParseGitHubURL(url: string): (r: Result<(string, string)>)
    ensures |url| > |SshPrefix| && HasPrefix(url, SshPrefix) ==> r == ParseOwnerAndRepo(url[|SshPrefix|..])
    ensures !(|url| > |SshPrefix| && HasPrefix(url, SshPrefix)) && |url| > |HttpsPrefix| && HasPrefix(url, HttpsPrefix)
      ==> r == ParseOwnerAndRepo(url[|HttpsPrefix|..])
    ensures !(|url| > |SshPrefix| && HasPrefix(url, SshPrefix)) && !(|url| > |HttpsPrefix| && HasPrefix(url, HttpsPrefix))
      ==> r == Err("invalid GitHub repository URL format")
  {
    if |url| > 15 && url[..15] == SshPrefix then ParseOwnerAndRepo(url[15..])
    else if |url| > 19 && url[..19] == HttpsPrefix then ParseOwnerAndRepo(url[19..])
    else Err("invalid GitHub repository URL format")
  }

  /** What a parsed URL consists of: a GitHub prefix, the owner, `/`, the
      name, and possibly `.git`. */
  lemma ParsedShape(url: string)
    requires ParseGitHubURL(url).Ok?
    ensures var (owner, name) := ParseGitHubURL(url).value;
      && owner != "" && name != "" && '/' !in owner && '/' !in name
      && (|| url == SshPrefix + owner + "/" + name || url == SshPrefix + owner + "/" + name + GitSuffix
          || url == HttpsPrefix + owner + "/" + name || url == HttpsPrefix + owner + "/" + name + GitSuffix)
  {
    var (owner, name) := ParseGitHubURL(url).value;
    if |url| > 15 && HasPrefix(url, SshPrefix) {
      ShapeAfter(url, SshPrefix, owner, name);
    } else {
      ShapeAfter(url, HttpsPrefix, owner, name);
    }
  }

  lemma ShapeAfter(url: string, prefix: string, owner: string, name: string)
    requires HasPrefix(url, prefix)
    requires ParseOwnerAndRepo(url[|prefix|..]) == Ok((owner, name))
    ensures url == prefix + owner + "/" + name || url == prefix + owner + "/" + name + GitSuffix
  {
    var path := url[|prefix|..];
    assert url == prefix + path;
    assert StripGit(path) == owner + "/" + name;
  }

  /** An owner and a name without `/`, the name not ending in `.git`, parse
      back from `owner/name` and from `owner/name.git`. */
  lemma OwnerAndRepoRoundTrip(owner: string, name: string)
    requires owner != "" && name != "" && '/' !in owner && '/' !in name
    requires !HasSuffix(name, GitSuffix)
    ensures ParseOwnerAndRepo(owner + "/" + name) == Ok((owner, name))
    ensures ParseOwnerAndRepo(owner + "/" + name + GitSuffix) == Ok((owner, name))
  {
    var path := owner + "/" + name;
    assert Join([owner, name], "/") == path;
    SplitJoin([owner, name], '/');
    NoGitSuffix(owner, name);
    var withGit := path + GitSuffix;
    assert withGit[..|withGit| - 4] == path;
    assert withGit[|withGit| - 4..] == GitSuffix;
  }

  /** `owner/name` does not end in `.git` when `name` does not: the last four
      characters either lie in `name` or contain the `/`. */
  lemma NoGitSuffix(owner: string, name: string)
    requires !HasSuffix(name, GitSuffix)
    ensures !HasSuffix(owner + "/" + name, GitSuffix)
  {
    var path := owner + "/" + name;
    if |path| >= 4 {
      var tail := path[|path| - 4..];
      if |name| >= 4 {
        assert tail == name[|name| - 4..];
      } else {
        var j := 3 - |name|;
        assert tail[j] == path[|owner|] == '/';
        assert GitSuffix[j] != '/';
      }
    }
  }

  /** A string starts with its prefix, and the prefix cut off leaves the rest. */
  lemma AfterPrefix(prefix: string, rest: string)
    ensures HasPrefix(prefix + rest, prefix)
    ensures (prefix + rest)[|prefix|..] == rest
  {
    assert (prefix + rest)[..|prefix|] == prefix;
  }

  lemma Regroup(a: string, b: string, c: string, d: string, e: string)
    ensures a + (b + c + d) == a + b + c + d
    ensures a + (b + c + d + e) == a + b + c + d + e
  {
  }

  /** A URL after a GitHub prefix parses as the path after it. */
  lemma ParseAfterPrefix(prefix: string, path: string)
    requires prefix == SshPrefix || prefix == HttpsPrefix
    requires |path| > 0
    ensures ParseGitHubURL(prefix + path) == ParseOwnerAndRepo(path)
  {
    var url := prefix + path;
    AfterPrefix(prefix, path);
    if prefix == HttpsPrefix {
      assert !HasPrefix(url, SshPrefix) by {
        assert url[0] == HttpsPrefix[0] == 'h';
        assert SshPrefix[0] == 'g';
      }
    }
  }

  /** Parsing the HTTPS form gives the owner and name back. */
  lemma HttpsURLRoundTrip(owner: string, name: string)
    requires owner != "" && name != "" && '/' !in owner && '/' !in name
    requires !HasSuffix(name, GitSuffix)
    ensures ParseGitHubURL(HttpsPrefix + owner + "/" + name) == Ok((owner, name))
  {
    OwnerAndRepoRoundTrip(owner, name);
    var path := owner + "/" + name;
    ParseAfterPrefix(HttpsPrefix, path);
    Regroup(HttpsPrefix, owner, "/", name, "");
  }

  /** Parsing the SSH form, with its `.git`, gives the owner and name back. */
  lemma SshURLRoundTrip(owner: string, name: string)
    requires owner != "" && name != "" && '/' !in owner && '/' !in name
    requires !HasSuffix(name, GitSuffix)
    ensures ParseGitHubURL(SshPrefix + owner + "/" + name + GitSuffix) == Ok((owner, name))
  {
    OwnerAndRepoRoundTrip(owner, name);
    var path := owner + "/" + name + GitSuffix;
    ParseAfterPrefix(SshPrefix, path);
    Regroup(SshPrefix, owner, "/", name, GitSuffix);
  }

  /** `FetchRepository`: the URL and the token must be present, and the URL
      must parse, before the API is asked for `repos/<owner>/<name>` with a
      bearer token.  `request(apiURL, authorization)` stands for the HTTP
      round trip and its decoding. */
  function FetchRepository<R>(url: string, token: string, request: (string, string) -> Result<R>): (r: Result<R>)
    ensures url == "" ==> r == Err("repository URL is required")
    ensures url != "" && token == "" ==> r == Err("authentication token is required")
    ensures url != "" && token != "" && ParseGitHubURL(url).Err? ==>
      r == Err("invalid repository URL: " + ParseGitHubURL(url).msg)
    ensures url != "" && token != "" && ParseGitHubURL(url).Ok? ==>
      var (owner, name) := ParseGitHubURL(url).value;
      r == request("https://api.github.com/repos/" + owner + "/" + name, "Bearer " + token)
  {
    if url == "" then Err("repository URL is required")
    else if token == "" then Err("authentication token is required")
    else
      match ParseGitHubURL(url)
      case Ok((owner, name)) => request("https://api.github.com/repos/" + owner + "/" + name, "Bearer " + token)
      case Err(e) => Err("invalid repository URL: " + e)
      case Panic(e) => Panic(e)
  }
}

=== FILE: json.dfy ===
/** Dynamically typed values: what Go's `interface{}` holds after `encoding/json`
    or `yaml.v2` decoding, and what the `map[string]interface{}` block data of the
    editor carries. */
module Json {
  import opened Wrappers

  /** `JNum` is a `float64` (every JSON number, a YAML number with a fraction);
      `JInt` is a Go `int` (a YAML integer).  Both are modelled as mathematical
      integers. */
  datatype Value =
    | JNull
    | JBool(b: bool)
    | JNum(n: int)
    | JInt(i: int)
    | JStr(s: string)
    | JArr(items: seq<Value>)
    | JObj(fields: map<string, Value>)

  /** The dynamic type's name as `%T` and `reflect.TypeOf(v).String()` print it;
      `JNull` has no type (`reflect.TypeOf(nil)` is nil) and `%T` prints `<nil>`.
      Objects are named as yaml.v2 decodes nested mappings. */
  function TypeName(v: Value): string
  {
    match v
    case JNull => "<nil>"
    case JBool(_) => "bool"
    case JNum(_) => "float64"
    case JInt(_) => "int"
    case JStr(_) => "string"
    case JArr(_) => "[]interface {}"
    case JObj(_) => "map[interface {}]interface {}"
  }

  /** `m[k].(string)` in its `, ok` form. */
  function GetString(m: map<string, Value>, k: string): Option<string>
  {
    if k in m && m[k].JStr? then Some(m[k].s) else None
  }

  /** `m[k].(bool)` in its `, ok` form. */
  function GetBool(m: map<string, Value>, k: string): Option<bool>
  {
    if k in m && m[k].JBool? then Some(m[k].b) else None
  }

  /** `m[k].(float64)` in its `, ok` form. */
  function GetNum(m: map<string, Value>, k: string): Option<int>
  {
    if k in m && m[k].JNum? then Some(m[k].n) else None
  }

  /** `m[k].([]interface{})` in its `, ok` form. */
  function GetArr(m: map<string, Value>, k: string): Option<seq<Value>>
  {
    if k in m && m[k].JArr? then Some(m[k].items) else None
  }

  /** `m[k].(map[string]interface{})` in its `, ok` form. */
  function GetObj(m: map<string, Value>, k: string): Option<map<string, Value>>
  {
    if k in m && m[k].JObj? then Some(m[k].fields) else None
  }
}

=== FILE: legacy_markdown.dfy ===
/** The older block converter of `markdown.go`: `ConvertBlocksToMarkdown` with its
    list and checklist writers, and `ConvertFrontmatterToYAML`.

    Every field is read with a type assertion that has no `, ok` form, so a
    missing or mistyped field panics; the model makes each such panic a
    `Panic` result.  The goldmark renderer and the YAML encoder are parameters. */
module LegacyMarkdown {
  import opened Wrappers
  import opened Strs
  import opened Json
  import BlocksMarkdown

  // ---------------------------------------------------------------------------
  // Unchecked type assertions

  /** `m[k].(string)`: panics unless the key holds a string. */
  function MustString(m: map<string, Value>, k: string): (r: Result<string>)
    ensures r.Ok? <==> GetString(m, k).Some?
    ensures r.Ok? ==> r.value == GetString(m, k).value
    ensures !r.Err?
  {
    match GetString(m, k)
    case Some(s) => Ok(s)
    case None => Panic("interface conversion: " + k + " is not string")
  }

  /** `m[k].(bool)`. */
  function MustBool(m: map<string, Value>, k: string): (r: Result<bool>)
    ensures r.Ok? <==> GetBool(m, k).Some?
    ensures r.Ok? ==> r.value == GetBool(m, k).value
    ensures !r.Err?
  {
    match GetBool(m, k)
    case Some(b) => Ok(b)
    case None => Panic("interface conversion: " + k + " is not bool")
  }

  /** `m[k].(float64)`, then `int(...)`. */
  function MustNum(m: map<string, Value>, k: string): (r: Result<int>)
    ensures r.Ok? <==> GetNum(m, k).Some?
    ensures r.Ok? ==> r.value == GetNum(m, k).value
    ensures !r.Err?
  {
    match GetNum(m, k)
    case Some(n) => Ok(n)
    case None => Panic("interface conversion: " + k + " is not float64")
  }

  /** `m[k].([]interface{})`. */
  function MustArr(m: map<string, Value>, k: string): (r: Result<seq<Value>>)
    ensures r.Ok? <==> GetArr(m, k).Some?
    ensures r.Ok? ==> r.value == GetArr(m, k).value
    ensures !r.Err?
  {
    match GetArr(m, k)
    case Some(a) => Ok(a)
    case None => Panic("interface conversion: " + k + " is not []interface {}")
  }

  /** `m[k].(map[string]interface{})`. */
  function MustObj(m: map<string, Value>, k: string): (r: Result<map<string, Value>>)
    ensures r.Ok? <==> GetObj(m, k).Some?
    ensures r.Ok? ==> r.value == GetObj(m, k).value
    ensures !r.Err?
  {
    match GetObj(m, k)
    case Some(o) => Ok(o)
    case None => Panic("interface conversion: " + k + " is not map[string]interface {}")
  }

  // ---------------------------------------------------------------------------
  // Lists and checklists

  function Indentation(depth: nat): string
  {
    Repeat("  ", depth)
  }

  /** The lists `appendListMarkdown` writes without panicking: above the depth
      limit every item is an object with a string `text`, and its `children`
      (a list) and `checklist` (a checklist) are themselves such lists.  Nothing
      at or below the limit is looked at. */
  predicate ListOk(items: seq<Value>, from: nat, depth: nat, maxDepth: int)
    requires from <= |items|
    decreases JArr(items), |items| - from
  {
    depth >= maxDepth || from == |items|
    || (items[from].JObj? && ListItemOk(items[from].fields, depth, maxDepth) && ListOk(items, from + 1, depth, maxDepth))
  }

  predicate ListItemOk(item: map<string, Value>, depth: nat, maxDepth: int)
    decreases JObj(item), 1
  {
    && GetString(item, "text").Some?
    && NestedOk(item, "children", false, depth, maxDepth)
    && NestedOk(item, "checklist", true, depth, maxDepth)
  }

  /** Like `ListOk`, for checklist items, which also need a boolean `checked` and
      nest a `list` and a `checklist`. */
  predicate ChecklistOk(items: seq<Value>, from: nat, depth: nat, maxDepth: int)
    requires from <= |items|
    decreases JArr(items), |items| - from
  {
    depth >= maxDepth || from == |items|
    || (items[from].JObj? && ChecklistItemOk(items[from].fields, depth, maxDepth)
        && ChecklistOk(items, from + 1, depth, maxDepth))
  }

  predicate ChecklistItemOk(item: map<string, Value>, depth: nat, maxDepth: int)
    decreases JObj(item), 1
  {
    && GetString(item, "text").Some?
    && GetBool(item, "checked").Some?
    && NestedOk(item, "list", false, depth, maxDepth)
    && NestedOk(item, "checklist", true, depth, maxDepth)
  }

  /** The nested array under `key`, if any, is well formed one level deeper. */
  predicate NestedOk(item: map<string, Value>, key: string, checklist: bool, depth: nat, maxDepth: int)
    decreases JObj(item), 0
  {
    match GetArr(item, key)
    case Some(nested) =>
      assert JArr(nested) == item[key];
      if checklist then ChecklistOk(nested, 0, depth + 1, maxDepth) else ListOk(nested, 0, depth + 1, maxDepth)
    case None => true
  }

  /** `appendListMarkdown` over `items[from..]`: nothing at all at or beyond the
      depth limit; otherwise the items and a closing newline.  It panics exactly
      on the lists `ListOk` rejects and never returns an error. */
  function AppendList(items: seq<Value>, from: nat, listType: string, depth: nat, maxDepth: int): (r: Result<string>)
    requires from <= |items|
    ensures r.Ok? <==> ListOk(items, from, depth, maxDepth)
    ensures !r.Err?
    ensures depth >= maxDepth ==> r == Ok("")
    ensures r.Ok? && depth < maxDepth ==> HasSuffix(r.value, "\n")
    ensures r.Ok? && depth < maxDepth && from < |items| ==> HasPrefix(r.value, Indentation(depth))
    ensures r.Ok? ==> r.value == Terminated(ListLines(items, from, listType, depth, maxDepth))
    decreases JArr(items), |items| - from, 1
  {
    if depth >= maxDepth then Ok("")
    else if from == |items| then
      assert Terminated([""]) == "" + "\n" + Terminated([]);
      Ok("\n")
    else if !items[from].JObj? then Panic("interface conversion: list item is not map[string]interface {}")
    else AppendListItem(items, from, listType, depth, maxDepth)
  }

  /** The item at `from`, which is an object, followed by the rest of the list. */
  function AppendListItem(items: seq<Value>, from: nat, listType: string, depth: nat, maxDepth: int): (r: Result<string>)
    requires from < |items| && items[from].JObj? && depth < maxDepth
    ensures r.Ok? <==> ListItemOk(items[from].fields, depth, maxDepth) && ListOk(items, from + 1, depth, maxDepth)
    ensures !r.Err?
    ensures r.Ok? ==> HasPrefix(r.value, Indentation(depth)) && HasSuffix(r.value, "\n")
    ensures r.Ok? ==> r.value == Terminated(ListLines(items, from, listType, depth, maxDepth))
    decreases JArr(items), |items| - from, 0
  {
    var head := ListItem(items[from].fields, listType, depth, maxDepth);
    if !head.Ok? then head
    else
      var rest := AppendList(items, from + 1, listType, depth, maxDepth);
      if !rest.Ok? then rest
      else
        var marker := (if listType == "ordered" then "1. " else "- ") + GetString(items[from].fields, "text").value + "\n";
        PrefixOfPrefix(head.value, Indentation(depth), marker);
        ConcatEnds(head.value, rest.value, Indentation(depth), "\n");
        TerminatedAppend(ItemLines(items[from].fields, listType, depth, maxDepth), ListLines(items, from + 1, listType, depth, maxDepth));
        Ok(head.value + rest.value)
  }

  /** One list item: its indented line, then its nested list, then its nested checklist. */
  function ListItem(item: map<string, Value>, listType: string, depth: nat, maxDepth: int): (r: Result<string>)
    requires depth < maxDepth
    ensures r.Ok? <==> ListItemOk(item, depth, maxDepth)
    ensures !r.Err?
    ensures r.Ok? ==> HasPrefix(r.value, Indentation(depth) + (if listType == "ordered" then "1. " else "- ")
                                        + GetString(item, "text").value + "\n")
    ensures r.Ok? ==> r.value == Terminated(ItemLines(item, listType, depth, maxDepth))
    decreases JObj(item), 1
  {
    var text :- MustString(item, "text");
    var line := Indentation(depth) + (if listType == "ordered" then "1. " else "- ") + text + "\n";
    var children :- Nested(item, "children", false, listType, depth, maxDepth);
    var checklist :- Nested(item, "checklist", true, listType, depth, maxDepth);
    assert (line + children + checklist)[..|line|] == line;
    OwnLineThen(Indentation(depth) + (if listType == "ordered" then "1. " else "- ") + text,
      NestedLines(item, "children", false, listType, depth, maxDepth),
      NestedLines(item, "checklist", true, listType, depth, maxDepth));
    Ok(line + children + checklist)
  }

  /** `appendChecklistMarkdown`: the checklist counterpart of `AppendList`. */
  function AppendChecklist(items: seq<Value>, from: nat, depth: nat, maxDepth: int): (r: Result<string>)
    requires from <= |items|
    ensures r.Ok? <==> ChecklistOk(items, from, depth, maxDepth)
    ensures !r.Err?
    ensures depth >= maxDepth ==> r == Ok("")
    ensures r.Ok? && depth < maxDepth ==> HasSuffix(r.value, "\n")
    ensures r.Ok? && depth < maxDepth && from < |items| ==> HasPrefix(r.value, Indentation(depth))
    ensures r.Ok? ==> r.value == Terminated(ChecklistLines(items, from, depth, maxDepth))
    decreases JArr(items), |items| - from, 1
  {
    if depth >= maxDepth then Ok("")
    else if from == |items| then
      assert Terminated([""]) == "" + "\n" + Terminated([]);
      Ok("\n")
    else if !items[from].JObj? then Panic("interface conversion: checklist item is not map[string]interface {}")
    else AppendChecklistItem(items, from, depth, maxDepth)
  }

  /** The checklist item at `from`, which is an object, followed by the rest. */
  function AppendChecklistItem(items: seq<Value>, from: nat, depth: nat, maxDepth: int): (r: Result<string>)
    requires from < |items| && items[from].JObj? && depth < maxDepth
    ensures r.Ok? <==> ChecklistItemOk(items[from].fields, depth, maxDepth) && ChecklistOk(items, from + 1, depth, maxDepth)
    ensures !r.Err?
    ensures r.Ok? ==> HasPrefix(r.value, Indentation(depth)) && HasSuffix(r.value, "\n")
    ensures r.Ok? ==> r.value == Terminated(ChecklistLines(items, from, depth, maxDepth))
    decreases JArr(items), |items| - from, 0
  {
    var head := ChecklistItem(items[from].fields, depth, maxDepth);
    if !head.Ok? then head
    else
      var rest := AppendChecklist(items, from + 1, depth, maxDepth);
      if !rest.Ok? then rest
      else
        var marker := (if GetBool(items[from].fields, "checked").value then "- [x] " else "- [ ] ")
          + GetString(items[from].fields, "text").value + "\n";
        PrefixOfPrefix(head.value, Indentation(depth), marker);
        ConcatEnds(head.value, rest.value, Indentation(depth), "\n");
        TerminatedAppend(ChecklistItemLines(items[from].fields, depth, maxDepth), ChecklistLines(items, from + 1, depth, maxDepth));
        Ok(head.value + rest.value)
  }

  /** One checklist item: `- [x] ` when checked, `- [ ] ` otherwise; a nested
      `list` is always written unordered. */
  function ChecklistItem(item: map<string, Value>, depth: nat, maxDepth: int): (r: Result<string>)
    requires depth < maxDepth
    ensures r.Ok? <==> ChecklistItemOk(item, depth, maxDepth)
    ensures !r.Err?
    ensures r.Ok? ==> HasPrefix(r.value, Indentation(depth) + (if GetBool(item, "checked").value then "- [x] " else "- [ ] ")
                                        + GetString(item, "text").value + "\n")
    ensures r.Ok? ==> r.value == Terminated(ChecklistItemLines(item, depth, maxDepth))
    decreases JObj(item), 1
  {
    var text :- MustString(item, "text");
    var checked :- MustBool(item, "checked");
    var line := Indentation(depth) + (if checked then "- [x] " else "- [ ] ") + text + "\n";
    var list :- Nested(item, "list", false, "unordered", depth, maxDepth);
    var checklist :- Nested(item, "checklist", true, "unordered", depth, maxDepth);
    assert (line + list + checklist)[..|line|] == line;
    OwnLineThen(Indentation(depth) + (if checked then "- [x] " else "- [ ] ") + text,
      NestedLines(item, "list", false, "unordered", depth, maxDepth),
      NestedLines(item, "checklist", true, "unordered", depth, maxDepth));
    Ok(line + list + checklist)
  }

  /** The non-empty nested array under `key`, written one level deeper. */
  function Nested(item: map<string, Value>, key: string, checklist: bool, listType: string, depth: nat, maxDepth: int): (r: Result<string>)
    ensures r.Ok? <==> NestedOk(item, key, checklist, depth, maxDepth)
    ensures !r.Err?
    ensures r.Ok? ==> r.value == Terminated(NestedLines(item, key, checklist, listType, depth, maxDepth))
    decreases JObj(item), 0
  {
    match GetArr(item, key)
    case Some(nested) =>
      assert JArr(nested) == item[key];
      if |nested| == 0 then
        assert if checklist then ChecklistOk(nested, 0, depth + 1, maxDepth) else ListOk(nested, 0, depth + 1, maxDepth);
        Ok("")
      else if checklist then AppendChecklist(nested, 0, depth + 1, maxDepth)
      else AppendList(nested, 0, listType, depth + 1, maxDepth)
    case None => Ok("")
  }

  /** Reference listing of the lines a list writes, one per item in pre-order
      and an empty line closing each list written, without newlines.  An item's
      line is its indentation, its marker and its text; nothing is listed at or
      beyond the depth limit, and an empty nested array is not listed at all. */
  function ListLines(items: seq<Value>, from: nat, listType: string, depth: nat, maxDepth: int): seq<string>
    requires from <= |items|
    decreases JArr(items), |items| - from, 1
  {
    if depth >= maxDepth then []
    else if from == |items| then [""]
    else
      var here := if items[from].JObj? then ItemLines(items[from].fields, listType, depth, maxDepth) else [];
      here + ListLines(items, from + 1, listType, depth, maxDepth)
  }

  /** A list item's line, then its `children` and its `checklist`. */
  function ItemLines(item: map<string, Value>, listType: string, depth: nat, maxDepth: int): seq<string>
    decreases JObj(item), 1
  {
    [Indentation(depth) + (if listType == "ordered" then "1. " else "- ") + GetString(item, "text").GetOr("")]
      + NestedLines(item, "children", false, listType, depth, maxDepth)
      + NestedLines(item, "checklist", true, listType, depth, maxDepth)
  }

  function ChecklistLines(items: seq<Value>, from: nat, depth: nat, maxDepth: int): seq<string>
    requires from <= |items|
    decreases JArr(items), |items| - from, 1
  {
    if depth >= maxDepth then []
    else if from == |items| then [""]
    else
      var here := if items[from].JObj? then ChecklistItemLines(items[from].fields, depth, maxDepth) else [];
      here + ChecklistLines(items, from + 1, depth, maxDepth)
  }

  /** A checklist item's line, then its `list` (unordered) and its `checklist`. */
  function ChecklistItemLines(item: map<string, Value>, depth: nat, maxDepth: int): seq<string>
    decreases JObj(item), 1
  {
    [Indentation(depth) + (if GetBool(item, "checked").GetOr(false) then "- [x] " else "- [ ] ") + GetString(item, "text").GetOr("")]
      + NestedLines(item, "list", false, "unordered", depth, maxDepth)
      + NestedLines(item, "checklist", true, "unordered", depth, maxDepth)
  }

  function NestedLines(item: map<string, Value>, key: string, checklist: bool, listType: string, depth: nat, maxDepth: int): seq<string>
    decreases JObj(item), 0
  {
    match GetArr(item, key)
    case Some(nested) =>
      assert JArr(nested) == item[key];
      if |nested| == 0 then []
      else if checklist then ChecklistLines(nested, 0, depth + 1, maxDepth)
      else ListLines(nested, 0, listType, depth + 1, maxDepth)
    case None => []
  }

  /** An item's own terminated line followed by its two nested outputs. */
  lemma OwnLineThen(line: string, a: seq<string>, b: seq<string>)
    ensures Terminated([line] + a + b) == line + "\n" + Terminated(a) + Terminated(b)
  {
    TerminatedAppend([line] + a, b);
    TerminatedAppend([line], a);
    assert Terminated([line]) == line + "\n" + Terminated([]);
  }

  // ---------------------------------------------------------------------------
  // Whole documents

  /** One block of `ConvertBlocksToMarkdown`: `type` and `data` are asserted
      first, so a block without them panics even when its type is unsupported. */
  function ConvertBlock(block: map<string, Value>, maxDepth: int, render: string -> Result<string>): (r: Result<string>)
    ensures GetString(block, "type").None? || GetObj(block, "data").None? ==> r.Panic?
    ensures GetString(block, "type").Some? && GetObj(block, "data").Some?
      && GetString(block, "type").value !in SupportedTypes
      ==> r == Err("unsupported block type: " + GetString(block, "type").value)
    ensures GetString(block, "type") == Some("paragraph") && GetObj(block, "data").Some?
      && GetString(GetObj(block, "data").value, "text").Some?
      && render(GetString(GetObj(block, "data").value, "text").value).Err?
      ==> r == render(GetString(GetObj(block, "data").value, "text").value)
  {
    var blockType :- MustString(block, "type");
    var data :- MustObj(block, "data");
    match blockType
    case "header" =>
      var text :- MustString(data, "text");
      var level :- MustNum(data, "level");
      Header(text, level)
    case "paragraph" =>
      var html :- MustString(data, "text");
      var md :- render(html);
      Ok(md + "\n\n")
    case "list" =>
      var items :- MustArr(data, "items");
      var listType :- MustString(data, "type");
      AppendList(items, 0, listType, 0, maxDepth)
    case "checklist" =>
      var items :- MustArr(data, "items");
      AppendChecklist(items, 0, 0, maxDepth)
    case "quote" =>
      var text :- MustString(data, "text");
      var caption :- MustString(data, "caption");
      Ok(Quote(text, caption))
    case "code" =>
      var code :- MustString(data, "code");
      Ok(Code(code, GetString(data, "language").GetOr("")))
    case "image" =>
      var file :- MustObj(data, "file");
      var url :- MustString(file, "url");
      var caption :- MustString(data, "caption");
      Ok("![" + caption + "](" + url + ")\n\n")
    case _ => Err("unsupported block type: " + blockType)
  }

  /** A block's `data` object (empty when absent, where the block panics anyway). */
  function Data(block: map<string, Value>): map<string, Value>
  {
    GetObj(block, "data").GetOr(map[])
  }

  /** The text block types write their fields: a header through `Header`, a
      quote through `Quote`, code through `Code`, an image as its Markdown
      image line, and a paragraph as the rendered HTML and a blank line. */
  lemma ConvertDispatchText(block: map<string, Value>, maxDepth: int, render: string -> Result<string>)
    requires GetObj(block, "data").Some?
    ensures GetString(block, "type") == Some("header")
      && GetString(Data(block), "text").Some? && GetNum(Data(block), "level").Some?
      ==> ConvertBlock(block, maxDepth, render) == Header(GetString(Data(block), "text").value, GetNum(Data(block), "level").value)
    ensures GetString(block, "type") == Some("paragraph") && GetString(Data(block), "text").Some?
      && render(GetString(Data(block), "text").value).Ok?
      ==> ConvertBlock(block, maxDepth, render) == Ok(render(GetString(Data(block), "text").value).value + "\n\n")
    ensures GetString(block, "type") == Some("quote")
      && GetString(Data(block), "text").Some? && GetString(Data(block), "caption").Some?
      ==> ConvertBlock(block, maxDepth, render)
          == Ok(Quote(GetString(Data(block), "text").value, GetString(Data(block), "caption").value))
    ensures GetString(block, "type") == Some("code") && GetString(Data(block), "code").Some?
      ==> ConvertBlock(block, maxDepth, render)
          == Ok(Code(GetString(Data(block), "code").value, GetString(Data(block), "language").GetOr("")))
    ensures GetString(block, "type") == Some("image") && GetObj(Data(block), "file").Some?
      && GetString(GetObj(Data(block), "file").value, "url").Some? && GetString(Data(block), "caption").Some?
      ==> ConvertBlock(block, maxDepth, render)
          == Ok("![" + GetString(Data(block), "caption").value + "](" + GetString(GetObj(Data(block), "file").value, "url").value + ")\n\n")
  {
  }

  /** The list block types write through the list writers from depth 0; a
      checklist's own `type` is not read. */
  lemma ConvertDispatchLists(block: map<string, Value>, maxDepth: int, render: string -> Result<string>)
    requires GetObj(block, "data").Some?
    ensures GetString(block, "type") == Some("list")
      && GetArr(Data(block), "items").Some? && GetString(Data(block), "type").Some?
      ==> ConvertBlock(block, maxDepth, render)
          == AppendList(GetArr(Data(block), "items").value, 0, GetString(Data(block), "type").value, 0, maxDepth)
    ensures GetString(block, "type") == Some("checklist") && GetArr(Data(block), "items").Some?
      ==> ConvertBlock(block, maxDepth, render) == AppendChecklist(GetArr(Data(block), "items").value, 0, 0, maxDepth)
  {
  }

  const SupportedTypes: set<string> := {"header", "paragraph", "list", "checklist", "quote", "code", "image"}

  /** A header line: panics on a negative level; otherwise the level can be read
      back as the run of `#` and the text follows one space later. */
  function Header(text: string, level: int): (r: Result<string>)
    ensures r.Ok? <==> level >= 0
    ensures r.Ok? ==> (BlocksMarkdown.HashRun(r.value) == level
      && |r.value| > level && r.value[level..] == " " + text + "\n\n")
  {
    if level < 0 then Panic("strings: negative Repeat count")
    else
      var s := Repeat("#", level) + " " + text + "\n\n";
      assert s == Repeat("#", level) + (" " + text + "\n\n");
      BlocksMarkdown.HashRunRepeat(level, " " + text + "\n\n");
      Ok(s)
  }

  /** A quote line; a non-empty caption adds an attribution line with an em dash. */
  function Quote(text: string, caption: string): (r: string)
    ensures HasPrefix(r, "> " + text + "\n") && HasSuffix(r, "\n\n")
    ensures caption == "" ==> r == "> " + text + "\n\n"
    ensures caption != "" ==> r[|"> " + text + "\n"|..] == "> — " + caption + "\n\n"
  {
    var head := "> " + text + "\n";
    var out := head + (if caption != "" then "> — " + caption + "\n" else "") + "\n";
    assert out[..|head|] == head;
    out
  }

  /** A code block is always fenced, with the language after the opening fence
      when there is one; the code itself sits unchanged between the fences. */
  function Code(code: string, language: string): (r: string)
    ensures HasPrefix(r, "```" + language + "\n") && HasSuffix(r, "\n```\n\n")
    ensures |r| == |"```" + language + "\n"| + |code| + |"\n```\n\n"|
    ensures r[|"```" + language + "\n"|..|r| - |"\n```\n\n"|] == code
  {
    var open := "```" + language + "\n";
    var out := open + code + "\n```\n\n";
    assert out[..|open|] == open;
    assert out[|open|..|out| - 6] == code;
    out
  }

  function ConvertEach(blocks: seq<map<string, Value>>, maxDepth: int, render: string -> Result<string>): (steps: seq<Result<string>>)
    ensures |steps| == |blocks| && forall i :: 0 <= i < |blocks| ==> steps[i] == ConvertBlock(blocks[i], maxDepth, render)
  {
    Map(blocks, b => ConvertBlock(b, maxDepth, render))
  }

  /** `ConvertBlocksToMarkdown`: the blocks' output concatenated, or the failure
      (error or panic) of the first block that fails. */
  function ConvertBlocksToMarkdown(blocks: seq<map<string, Value>>, maxDepth: int, render: string -> Result<string>): (r: Result<string>)
    ensures r.Ok? <==> forall i :: 0 <= i < |blocks| ==> ConvertBlock(blocks[i], maxDepth, render).Ok?
    ensures forall k :: (0 <= k < |blocks| && !ConvertBlock(blocks[k], maxDepth, render).Ok?
      && (forall j :: 0 <= j < k ==> ConvertBlock(blocks[j], maxDepth, render).Ok?)
      ==> r == ConvertBlock(blocks[k], maxDepth, render))
    ensures |blocks| == 0 ==> r == Ok("")
    ensures |blocks| == 1 ==> r == ConvertBlock(blocks[0], maxDepth, render)
  {
    var steps := ConvertEach(blocks, maxDepth, render);
    forall k | FirstFailure(steps, k)
      ensures Concat(steps) == steps[k]
    {
      ConcatFails(steps, k);
    }
    Concat(steps)
  }

  /** Converting two runs of blocks one after the other is converting their
      concatenation: the output of each block depends on that block alone. */
  lemma ConvertConcat(a: seq<map<string, Value>>, b: seq<map<string, Value>>, maxDepth: int,
                      render: string -> Result<string>)
    requires ConvertBlocksToMarkdown(a, maxDepth, render).Ok? && ConvertBlocksToMarkdown(b, maxDepth, render).Ok?
    ensures ConvertBlocksToMarkdown(a + b, maxDepth, render)
      == Ok(ConvertBlocksToMarkdown(a, maxDepth, render).value + ConvertBlocksToMarkdown(b, maxDepth, render).value)
  {
    MapAppend(a, b, b => ConvertBlock(b, maxDepth, render));
    ConcatAppend(ConvertEach(a, maxDepth, render), ConvertEach(b, maxDepth, render));
  }

  /** `ConvertFrontmatterToYAML`: the encoder's output between `---` lines, or its
      error wrapped. */
  function ConvertFrontmatterToYaml(frontmatter: map<string, Value>, marshal: map<string, Value> -> Result<string>): (r: Result<string>)
    ensures marshal(frontmatter).Ok? ==> (r.Ok? && HasPrefix(r.value, "---\n") && HasSuffix(r.value, "---\n")
      && |r.value| >= 8 && r.value[4..|r.value| - 4] == marshal(frontmatter).value)
    ensures marshal(frontmatter).Err? ==> r == Err("failed to convert frontmatter to YAML: " + marshal(frontmatter).msg)
  {
    match marshal(frontmatter)
    case Ok(yaml) =>
      var out := "---\n" + yaml + "---\n";
      assert out[..4] == "---\n" && out[|out| - 4..] == "---\n" && out[4..|out| - 4] == yaml;
      Ok(out)
    case Err(e) => Err("failed to convert frontmatter to YAML: " + e)
    case Panic(e) => Panic(e)
  }
}

=== FILE: markdown_parser.dfy ===
/** The block-classification logic of `markdown/parser.go`, which turns a
    Markdown document into editor blocks.  The goldmark parser and renderer
    are not modelled: the syntax tree is an input, and rendering a fragment to
    HTML is a parameter that may fail. */
module MarkdownParser {
  import opened Wrappers
  import opened Strs
  import opened Json
  import BlocksMarkdown

  // ---------------------------------------------------------------------------
  // Configuration

  datatype ParseConfig = ParseConfig(
    maxDepth: int,
    quoteCaptionAlign: string,
    tableStretched: bool,
    imageStretched: bool,
    imageWithBorder: bool,
    imageWithBackground: bool)

  /** The functional options of `ParseMarkdownToBlocks`, one per setter. */
  datatype ParseOption =
    | WithMaxDepth(depth: int)
    | WithQuoteCaptionAlign(align: string)
    | WithTableStretched(table: bool)
    | WithImageStretched(image: bool)
    | WithImageWithBorder(border: bool)
    | WithImageWithBackground(background: bool)

  const DefaultConfig: ParseConfig := ParseConfig(5, "left", false, false, false, false)

  function ApplyOption(cfg: ParseConfig, opt: ParseOption): ParseConfig
  {
    match opt
    case WithMaxDepth(d) => cfg.(maxDepth := d)
    case WithQuoteCaptionAlign(a) => cfg.(quoteCaptionAlign := a)
    case WithTableStretched(b) => cfg.(tableStretched := b)
    case WithImageStretched(b) => cfg.(imageStretched := b)
    case WithImageWithBorder(b) => cfg.(imageWithBorder := b)
    case WithImageWithBackground(b) => cfg.(imageWithBackground := b)
  }

  /** The options applied in order to `cfg`. */
  function ApplyAll(cfg: ParseConfig, opts: seq<ParseOption>): ParseConfig
    decreases |opts|
  {
    if |opts| == 0 then cfg else ApplyAll(ApplyOption(cfg, opts[0]), opts[1..])
  }

  /** The settings, one per option. */
  datatype Setting = MaxDepthSetting | AlignSetting | TableSetting | ImageSetting | BorderSetting | BackgroundSetting

  function SettingOf(opt: ParseOption): Setting
  {
    match opt
    case WithMaxDepth(_) => MaxDepthSetting
    case WithQuoteCaptionAlign(_) => AlignSetting
    case WithTableStretched(_) => TableSetting
    case WithImageStretched(_) => ImageSetting
    case WithImageWithBorder(_) => BorderSetting
    case WithImageWithBackground(_) => BackgroundSetting
  }

  /** The two configurations agree on setting `s`. */
  predicate SameSetting(a: ParseConfig, b: ParseConfig, s: Setting)
  {
    match s
    case MaxDepthSetting => a.maxDepth == b.maxDepth
    case AlignSetting => a.quoteCaptionAlign == b.quoteCaptionAlign
    case TableSetting => a.tableStretched == b.tableStretched
    case ImageSetting => a.imageStretched == b.imageStretched
    case BorderSetting => a.imageWithBorder == b.imageWithBorder
    case BackgroundSetting => a.imageWithBackground == b.imageWithBackground
  }

  /** The configuration `ParseMarkdownToBlocks` starts from: the defaults with
      every option applied in order.  A setting no option names keeps its
      default: depth bound 5, captions aligned left, every flag off. */
  function Configure(opts: seq<ParseOption>): (cfg: ParseConfig)
    ensures forall s :: (forall i :: 0 <= i < |opts| ==> SettingOf(opts[i]) != s) ==> SameSetting(cfg, DefaultConfig, s)
  {
    forall s | forall i :: 0 <= i < |opts| ==> SettingOf(opts[i]) != s
      ensures SameSetting(ApplyAll(DefaultConfig, opts), DefaultConfig, s)
    {
      UntouchedSetting(DefaultConfig, opts, s);
    }
    ApplyAll(DefaultConfig, opts)
  }

  /** A setting no option names keeps its value. */
  lemma {:induction false} UntouchedSetting(cfg: ParseConfig, opts: seq<ParseOption>, s: Setting)
    requires forall i :: 0 <= i < |opts| ==> SettingOf(opts[i]) != s
    ensures SameSetting(ApplyAll(cfg, opts), cfg, s)
    decreases |opts|
  {
    if |opts| > 0 {
      var next := ApplyOption(cfg, opts[0]);
      assert forall i :: 0 <= i < |opts[1..]| ==> opts[1..][i] == opts[i + 1];
      UntouchedSetting(next, opts[1..], s);
      OtherOptionKeeps(cfg, opts[0], s);
      SameSettingTransitive(ApplyAll(next, opts[1..]), next, cfg, s);
    }
  }

  /** An option for another setting leaves `s` as it was. */
  lemma OtherOptionKeeps(cfg: ParseConfig, opt: ParseOption, s: Setting)
    requires SettingOf(opt) != s
    ensures SameSetting(ApplyOption(cfg, opt), cfg, s)
  {
  }

  lemma SameSettingTransitive(a: ParseConfig, b: ParseConfig, c: ParseConfig, s: Setting)
    requires SameSetting(a, b, s) && SameSetting(b, c, s)
    ensures SameSetting(a, c, s)
  {
  }

  /** The last depth option wins. */
  lemma {:induction false} LastDepthWins(cfg: ParseConfig, opts: seq<ParseOption>, k: int)
    requires 0 <= k < |opts| && opts[k].WithMaxDepth?
    requires forall i :: k < i < |opts| ==> !opts[i].WithMaxDepth?
    ensures ApplyAll(cfg, opts).maxDepth == opts[k].depth
    decreases |opts|
  {
    if k > 0 {
      assert forall i :: k - 1 < i < |opts[1..]| ==> opts[1..][i] == opts[i + 1];
      LastDepthWins(ApplyOption(cfg, opts[0]), opts[1..], k - 1);
    } else {
      assert forall i :: 0 <= i < |opts[1..]| ==> opts[1..][i] == opts[i + 1];
      UntouchedSetting(ApplyOption(cfg, opts[0]), opts[1..], MaxDepthSetting);
    }
  }

  // ---------------------------------------------------------------------------
  // Routing syntax-tree nodes

  /** The goldmark node kinds `processNode` distinguishes. */
  datatype NodeKind =
    | Heading | ThematicBreak | ListNode | CodeBlock | FencedCodeBlock
    | Blockquote | HTMLBlock | TableNode | Paragraph | OtherNode

  datatype WalkStatus = WalkContinue | WalkSkipChildren

  /** `processNode`: whether a node yields a block, and whether the walk goes
      on into its children.  Every kind but the unrecognised ones yields a
      block; lists and block quotes consume their own children. */
  function ProcessNode(kind: NodeKind): (r: (bool, WalkStatus))
    ensures r.0 <==> !kind.OtherNode?
    ensures r.1 == WalkSkipChildren <==> kind.ListNode? || kind.Blockquote?
  {
    match kind
    case Heading => (true, WalkContinue)
    case ThematicBreak => (true, WalkContinue)
    case ListNode => (true, WalkSkipChildren)
    case CodeBlock => (true, WalkContinue)
    case FencedCodeBlock => (true, WalkContinue)
    case Blockquote => (true, WalkSkipChildren)
    case HTMLBlock => (true, WalkContinue)
    case TableNode => (true, WalkContinue)
    case Paragraph => (true, WalkContinue)
    case OtherNode => (false, WalkContinue)
  }

  /** A syntax tree, reduced to node kinds. */
  datatype Tree = Tree(kind: NodeKind, children: seq<Tree>)

  /** The kinds of the nodes the walk of `ParseMarkdownToBlocks` turns into
      blocks, in pre-order. */
  function Walk(t: Tree): (r: seq<NodeKind>)
    ensures forall i :: 0 <= i < |r| ==> !r[i].OtherNode?
    ensures |r| <= Size(t)
    decreases t, 1
  {
    var (handled, status) := ProcessNode(t.kind);
    var own := if handled then [t.kind] else [];
    if status == WalkSkipChildren then own else own + WalkAll(t.children, 0, t)
  }

  function WalkAll(ts: seq<Tree>, from: nat, ghost parent: Tree): (r: seq<NodeKind>)
    requires from <= |ts|
    requires forall i :: 0 <= i < |ts| ==> ts[i] < parent
    ensures forall i :: 0 <= i < |r| ==> !r[i].OtherNode?
    ensures |r| <= SizeAll(ts, from)
    decreases parent, 0, |ts| - from
  {
    if from == |ts| then [] else Walk(ts[from]) + WalkAll(ts, from + 1, parent)
  }

  function Size(t: Tree): nat
    decreases t, 1
  {
    1 + SizeAll(t.children, 0)
  }

  function SizeAll(ts: seq<Tree>, from: nat): nat
    requires from <= |ts|
    decreases ts, |ts| - from
  {
    if from == |ts| then 0 else Size(ts[from]) + SizeAll(ts, from + 1)
  }

  /** Nothing inside a list or a block quote becomes a block of its own: the
      whole subtree yields exactly one block. */
  lemma SkippedSubtree(t: Tree)
    requires t.kind.ListNode? || t.kind.Blockquote?
    ensures Walk(t) == [t.kind]
  {
  }

  /** A node the walk does not recognise still lets its children through. */
  lemma TransparentNode(children: seq<Tree>)
    ensures Walk(Tree(OtherNode, children)) == WalkAll(children, 0, Tree(OtherNode, children))
  {
  }

  // ---------------------------------------------------------------------------
  // Lists

  /** A goldmark list: ordered or not, its start number, its marker character
      (`.` or `)` for ordered lists) and its items. */
  datatype MdList = MdList(ordered: bool, start: int, marker: char, items: seq<MdItem>)

  /** A list item: its source text and the lists nested in it. */
  datatype MdItem = MdItem(text: string, lists: seq<MdList>)

  /** An extracted item: rendered content, nested items, and the `checked`
      entry that checklist items carry. */
  datatype ItemData = ItemData(content: string, items: seq<ItemData>, checked: Option<bool>)

  const CheckboxPrefixes: seq<string> := ["[ ] ", "[x] ", "[X] "]

  /** The first checkbox marker the trimmed item text starts with. */
  function CheckboxPrefix(trimmed: string): (r: Option<string>)
    ensures r.Some? <==> HasPrefix(trimmed, "[ ] ") || HasPrefix(trimmed, "[x] ") || HasPrefix(trimmed, "[X] ")
    ensures r.Some? ==> r.value in CheckboxPrefixes && HasPrefix(trimmed, r.value)
  {
    if HasPrefix(trimmed, "[ ] ") then Some("[ ] ")
    else if HasPrefix(trimmed, "[x] ") then Some("[x] ")
    else if HasPrefix(trimmed, "[X] ") then Some("[X] ")
    else None
  }

  predicate IsChecked(trimmed: string)
  {
    HasPrefix(trimmed, "[x] ") || HasPrefix(trimmed, "[X] ")
  }

  /** What an item's trimmed text starts with. */
  datatype Checkbox = NoCheckbox | Unticked | Ticked

  function CheckboxOf(item: MdItem): Checkbox
  {
    var trimmed := TrimSpace(item.text);
    if CheckboxPrefix(trimmed).None? then NoCheckbox
    else if IsChecked(trimmed) then Ticked
    else Unticked
  }

  /** An item has a checkbox iff its trimmed text starts with one of the three
      markers, and it is ticked iff the marker is `[x] ` or `[X] `. */
  lemma CheckboxOfMarkers(item: MdItem)
    ensures var trimmed := TrimSpace(item.text);
      && (CheckboxOf(item) != NoCheckbox <==>
            HasPrefix(trimmed, "[ ] ") || HasPrefix(trimmed, "[x] ") || HasPrefix(trimmed, "[X] "))
      && (CheckboxOf(item) == Ticked <==> HasPrefix(trimmed, "[x] ") || HasPrefix(trimmed, "[X] "))
  {
  }

  /** The classification of every item. */
  function Checkboxes(items: seq<MdItem>): (boxes: seq<Checkbox>)
    ensures |boxes| == |items|
    ensures forall i :: 0 <= i < |items| ==> boxes[i] == CheckboxOf(items[i])
  {
    seq(|items|, i requires 0 <= i < |items| => CheckboxOf(items[i]))
  }

  /** Nesting depth of an extracted item: 1 for an item without nested items. */
  function Depth(d: ItemData): nat
    decreases d, 1
  {
    1 + DepthFrom(d.items, 0, d)
  }

  /** The deepest of `s[from..]`, 0 when there is none. */
  function DepthFrom(s: seq<ItemData>, from: nat, ghost parent: ItemData): nat
    requires from <= |s|
    requires forall i :: 0 <= i < |s| ==> s[i] < parent
    decreases parent, 0, |s| - from
  {
    if from == |s| then 0
    else
      var h := Depth(s[from]);
      var rest := DepthFrom(s, from + 1, parent);
      if h >= rest then h else rest
  }

  /** Items each at most `b` deep have a deepest at most `b`. */
  lemma {:induction false} DepthFromBound(s: seq<ItemData>, from: nat, parent: ItemData, b: nat)
    requires from <= |s|
    requires forall i :: 0 <= i < |s| ==> s[i] < parent
    requires forall i :: from <= i < |s| ==> Depth(s[i]) <= b
    ensures DepthFrom(s, from, parent) <= b
    decreases |s| - from
  {
    if from < |s| {
      DepthFromBound(s, from + 1, parent, b);
    }
  }

  /** Index of the first checkbox at or after `from`, or `|boxes|`. */
  function FirstCheckbox(boxes: seq<Checkbox>, from: nat): (k: nat)
    requires from <= |boxes|
    ensures from <= k <= |boxes|
    ensures forall j :: from <= j < k ==> boxes[j] == NoCheckbox
    ensures k < |boxes| ==> boxes[k] != NoCheckbox
    decreases |boxes| - from
  {
    if from == |boxes| || boxes[from] != NoCheckbox then from else FirstCheckbox(boxes, from + 1)
  }

  /** The `checked` entries of the items from `from` on, as the item loop of
      `extractListItems` sets them, and whether the list is a checklist once
      the loop ends; `seen` tells whether an earlier item already made it one.
      An item with a checkbox makes the list a checklist; once it is one,
      every item carries `checked`. */
  function CheckFlags(boxes: seq<Checkbox>, from: nat, seen: bool): (r: (seq<Option<bool>>, bool))
    requires from <= |boxes|
    ensures |r.0| == |boxes| - from
    decreases |boxes| - from
  {
    if from == |boxes| then ([], seen)
    else
      var seen' := seen || boxes[from] != NoCheckbox;
      var rest := CheckFlags(boxes, from + 1, seen');
      ([if seen' then Some(boxes[from] == Ticked) else None] + rest.0, rest.1)
  }

  /** The checklist rule: the list is a checklist iff some item has a
      checkbox; from the first such item on, every item carries `checked`,
      true iff its own checkbox is ticked. */
  lemma {:induction false} CheckFlagsRule(boxes: seq<Checkbox>, from: nat, seen: bool)
    requires from <= |boxes|
    ensures var r := CheckFlags(boxes, from, seen);
      && (r.1 <==> seen || FirstCheckbox(boxes, from) < |boxes|)
      && (forall i :: 0 <= i < |r.0| ==> (r.0[i].Some? <==> seen || FirstCheckbox(boxes, from) <= from + i))
      && (forall i :: 0 <= i < |r.0| && r.0[i].Some? ==> (r.0[i].value <==> boxes[from + i] == Ticked))
    decreases |boxes| - from
  {
    if from < |boxes| {
      var seen' := seen || boxes[from] != NoCheckbox;
      CheckFlagsRule(boxes, from + 1, seen');
      var r := CheckFlags(boxes, from, seen);
      var rest := CheckFlags(boxes, from + 1, seen');
      forall i | 1 <= i < |r.0|
        ensures r.0[i].Some? <==> seen || FirstCheckbox(boxes, from) <= from + i
        ensures r.0[i].Some? ==> (r.0[i].value <==> boxes[from + i] == Ticked)
      {
        assert r.0[i] == rest.0[i - 1];
        assert boxes[from + i] == boxes[(from + 1) + (i - 1)];
      }
    }
  }

  /** `extractListItems`: nothing at or beyond the depth bound; otherwise one
      entry per item, carrying the `checked` entry the item loop sets, and
      the checklist flag.  `ChecklistItems` states the checklist rule and
      `ExtractDepth` the nesting bound. */
  function ExtractListItems(list: MdList, depth: int, maxDepth: int, render: string -> Option<string>)
    : (r: (seq<ItemData>, bool))
    ensures depth >= maxDepth ==> r == ([], false)
    ensures depth < maxDepth ==> (|r.0| == |list.items|
      && r.1 == CheckFlags(Checkboxes(list.items), 0, false).1
      && forall i :: 0 <= i < |r.0| ==> r.0[i].checked == CheckFlags(Checkboxes(list.items), 0, false).0[i])
    decreases list, 1
  {
    if depth >= maxDepth then ([], false)
    else
      var flags := CheckFlags(Checkboxes(list.items), 0, false);
      var items := seq(|list.items|, i requires 0 <= i < |list.items| =>
        ItemOf(list.items[i], flags.0[i], depth, maxDepth, render));
      (items, flags.1)
  }

  /** One item: the checkbox marker removed from its (untrimmed) text, its
      nested lists one level deeper, its text rendered when rendering
      succeeds, and the given `checked` entry. */
  function ItemOf(item: MdItem, checked: Option<bool>, depth: int, maxDepth: int, render: string -> Option<string>)
    : (d: ItemData)
    ensures d.checked == checked
    ensures d.items == ChildrenFrom(item, 0, depth, maxDepth, render)
    decreases item, 1, 0
  {
    var box := CheckboxPrefix(TrimSpace(item.text));
    var text := if box.Some? then TrimPrefix(item.text, box.value) else item.text;
    ItemData(render(text).GetOr(text), ChildrenFrom(item, 0, depth, maxDepth, render), checked)
  }

  /** The items of the lists nested in `item` from index `from` on, extracted
      one level deeper, concatenated. */
  function ChildrenFrom(item: MdItem, from: nat, depth: int, maxDepth: int, render: string -> Option<string>)
    : (r: seq<ItemData>)
    requires from <= |item.lists|
    decreases item, 0, |item.lists| - from
  {
    if from == |item.lists| then []
    else ExtractListItems(item.lists[from], depth + 1, maxDepth, render).0 + ChildrenFrom(item, from + 1, depth, maxDepth, render)
  }

  /** The checklist rule for extracted items: the list is a checklist iff
      some item has a checkbox; from the first such item on, every entry
      carries `checked`, true iff that item's checkbox is ticked. */
  lemma ChecklistItems(list: MdList, depth: int, maxDepth: int, render: string -> Option<string>)
    requires depth < maxDepth
    ensures var r := ExtractListItems(list, depth, maxDepth, render);
      var boxes := Checkboxes(list.items);
      && (r.1 <==> FirstCheckbox(boxes, 0) < |list.items|)
      && (forall i :: 0 <= i < |r.0| ==> (r.0[i].checked.Some? <==> FirstCheckbox(boxes, 0) <= i))
      && (forall i :: 0 <= i < |r.0| && r.0[i].checked.Some? ==> (r.0[i].checked.value <==> CheckboxOf(list.items[i]) == Ticked))
  {
    CheckFlagsRule(Checkboxes(list.items), 0, false);
  }

  /** Every item of `s` is at most `b` deep. */
  predicate AllWithin(s: seq<ItemData>, b: int)
  {
    forall i :: 0 <= i < |s| ==> Depth(s[i]) <= b
  }

  /** Every extracted item is nested at most `maxDepth - depth` deep: the
      depth bound cuts the recursion off. */
  lemma {:induction false} ExtractDepth(list: MdList, depth: int, maxDepth: int, render: string -> Option<string>)
    ensures AllWithin(ExtractListItems(list, depth, maxDepth, render).0, maxDepth - depth)
    decreases list, 1
  {
    if depth < maxDepth {
      var flags := CheckFlags(Checkboxes(list.items), 0, false);
      var r := ExtractListItems(list, depth, maxDepth, render).0;
      forall i | 0 <= i < |r|
        ensures Depth(r[i]) <= maxDepth - depth
      {
        assert r[i] == ItemOf(list.items[i], flags.0[i], depth, maxDepth, render);
        ItemDepth(list.items[i], flags.0[i], depth, maxDepth, render);
      }
    }
  }

  lemma {:induction false} ItemDepth(item: MdItem, checked: Option<bool>, depth: int, maxDepth: int,
                                     render: string -> Option<string>)
    requires depth < maxDepth
    ensures Depth(ItemOf(item, checked, depth, maxDepth, render)) <= maxDepth - depth
    decreases item, 1, 0
  {
    var d := ItemOf(item, checked, depth, maxDepth, render);
    ChildrenDepth(item, 0, depth, maxDepth, render);
    var children := ChildrenFrom(item, 0, depth, maxDepth, render);
    assert d.items == children;
    assert forall i :: 0 <= i < |children| ==> Depth(children[i]) <= maxDepth - depth - 1;
    assert forall i :: 0 <= i < |d.items| ==> d.items[i] < d;
    DepthFromBound(d.items, 0, d, maxDepth - depth - 1);
  }

  lemma {:induction false} ChildrenDepth(item: MdItem, from: nat, depth: int, maxDepth: int, render: string -> Option<string>)
    requires from <= |item.lists|
    ensures AllWithin(ChildrenFrom(item, from, depth, maxDepth, render), maxDepth - depth - 1)
    decreases item, 0, |item.lists| - from
  {
    if from < |item.lists| {
      ExtractDepth(item.lists[from], depth + 1, maxDepth, render);
      ChildrenDepth(item, from + 1, depth, maxDepth, render);
      var nested := ExtractListItems(item.lists[from], depth + 1, maxDepth, render).0;
      var rest := ChildrenFrom(item, from + 1, depth, maxDepth, render);
      assert ChildrenFrom(item, from, depth, maxDepth, render) == nested + rest;
      AllWithinAppend(nested, rest, maxDepth - depth - 1);
    }
  }

  lemma AllWithinAppend(a: seq<ItemData>, b: seq<ItemData>, bound: int)
    requires AllWithin(a, bound) && AllWithin(b, bound)
    ensures AllWithin(a + b, bound)
  {
    forall i | 0 <= i < |a + b|
      ensures Depth((a + b)[i]) <= bound
    {
      if i < |a| {
        assert (a + b)[i] == a[i];
      } else {
        assert (a + b)[i] == b[i - |a|];
      }
    }
  }

  /** `detectCounterType`: the counter style recorded for an ordered list's marker. */
  function DetectCounterType(marker: char): (t: string)
    ensures t == "upper-roman" <==> marker == ')'
    ensures t == "decimal" <==> marker == '.'
    ensures t == "unknown" <==> marker != ')' && marker != '.'
  {
    match marker
    case ')' => "upper-roman"
    case '.' => "decimal"
    case _ => "unknown"
  }

  /** The counter style recorded for a `)` list is one the serialiser renders
      and reads back: upper-case Roman numerals worth the item's number. */
  lemma CounterTypeRoman(index: int)
    requires index >= 0
    ensures BlocksMarkdown.RomanValue(BlocksMarkdown.MarkerText(BlocksMarkdown.OrderedPrefix(index, DetectCounterType(')'), 0))) == index
  {
    BlocksMarkdown.OrderedPrefixRoman(index, 0, true);
  }

  /** The counter style recorded for a `.` list renders as decimals worth the
      item's number, like any counter type the serialiser does not know. */
  lemma CounterTypeDecimal(index: int)
    requires index >= 0
    ensures ParseNat(BlocksMarkdown.MarkerText(BlocksMarkdown.OrderedPrefix(index, DetectCounterType('.'), 0))) == index
  {
    var t := DetectCounterType('.');
    assert t[0] == 'd';
    assert "lower-roman"[0] == 'l' && "upper-roman"[0] == 'u' && "lower-alpha"[0] == 'l' && "upper-alpha"[0] == 'u';
    assert "numeric"[0] == 'n';
    assert BlocksMarkdown.OrderedPrefix(index, t, 0) == BlocksMarkdown.OrderedPrefix(index, "numeric", 0);
    BlocksMarkdown.OrderedPrefixNumeric(index, 0);
  }

  /** What `handleList` records: the style and the meta entries. */
  datatype ListData = ListData(style: string, meta: map<string, Value>, items: seq<ItemData>)

  /** `handleList`: a checklist carries no meta at all; an ordered list that is
      not a checklist records its start and counter type; an unordered one
      records nothing. */
  function HandleList(list: MdList, cfg: ParseConfig, render: string -> Option<string>): (r: ListData)
    ensures var (items, checklist) := ExtractListItems(list, 0, cfg.maxDepth, render);
      && r.items == items
      && (checklist ==> r.style == "checklist" && r.meta == map[])
      && (!checklist && list.ordered ==> (r.style == "ordered"
            && r.meta == map["start" := JInt(list.start), "counterType" := JStr(DetectCounterType(list.marker))]))
      && (!checklist && !list.ordered ==> r.style == "unordered" && r.meta == map[])
  {
    var style := if list.ordered then "ordered" else "unordered";
    var (items, checklist) := ExtractListItems(list, 0, cfg.maxDepth, render);
    var meta: map<string, Value> := if style == "ordered"
      then map["start" := JInt(list.start), "counterType" := JStr(DetectCounterType(list.marker))]
      else map[];
    if checklist then ListData("checklist", meta - {"start", "counterType"}, items)
    else ListData(style, meta, items)
  }

  /** Every extracted item is nested at most `MaxDepth` deep. */
  lemma ListDepthBounded(list: MdList, cfg: ParseConfig, render: string -> Option<string>)
    ensures forall i :: 0 <= i < |HandleList(list, cfg, render).items| ==>
      Depth(HandleList(list, cfg, render).items[i]) <= cfg.maxDepth
    ensures cfg.maxDepth <= 0 ==> HandleList(list, cfg, render).items == []
  {
    ExtractDepth(list, 0, cfg.maxDepth, render);
  }

  // ---------------------------------------------------------------------------
  // Block quotes and alerts

  /** GitHub's admonition names and the alert types they become. */
  function AdmonitionType(name: string): (t: string)
    ensures t in BlocksMarkdown.AlertHeaders || t == "info"
  {
    match name
    case "CAUTION" => "danger"
    case "WARNING" => "warning"
    case "IMPORTANT" => "secondary"
    case "TIP" => "success"
    case "NOTE" => "primary"
    case _ => "info"
  }

  const AdmonitionNames: set<string> := {"CAUTION", "WARNING", "IMPORTANT", "TIP", "NOTE"}

  /** A known admonition name maps to the alert type whose serialised header
      is that name's marker; any other name maps to `info`, which has no
      header. */
  lemma AdmonitionHeader(name: string)
    ensures name in AdmonitionNames ==>
      AdmonitionType(name) in BlocksMarkdown.AlertHeaders
      && BlocksMarkdown.AlertHeaders[AdmonitionType(name)] == BlocksMarkdown.Marker(name)
    ensures name !in AdmonitionNames ==> AdmonitionType(name) == "info" && "info" !in BlocksMarkdown.AlertHeaders
  {
    AdmonitionNamesDistinct();
  }

  /** The header of every alert type parses back to that type. */
  lemma HeaderAdmonition(t: string)
    requires t in BlocksMarkdown.AlertHeaders
    ensures var h := BlocksMarkdown.AlertHeaders[t];
      |h| >= 3 && h[..2] == "[!" && h[|h| - 1] == ']' && AdmonitionType(h[2..|h| - 1]) == t
  {
    var name := if t == "primary" then "NOTE" else if t == "success" then "TIP"
      else if t == "secondary" then "IMPORTANT" else if t == "warning" then "WARNING" else "CAUTION";
    assert BlocksMarkdown.AlertHeaders[t] == BlocksMarkdown.Marker(name);
    assert AdmonitionType(name) == t;
    Bracketed(name);
  }

  /** The name between `[!` and `]` is read back from the bracketed marker. */
  lemma Bracketed(name: string)
    ensures var h := "[!" + name + "]";
      |h| >= 3 && h[..2] == "[!" && h[|h| - 1] == ']' && h[2..|h| - 1] == name
  {
    var h := "[!" + name + "]";
    assert h[2..|h| - 1] == name;
  }

  /** The five names differ pairwise (by length or first letter). */
  lemma AdmonitionNamesDistinct()
    ensures "CAUTION" != "WARNING" && "CAUTION" != "IMPORTANT" && "CAUTION" != "TIP" && "CAUTION" != "NOTE"
    ensures "WARNING" != "IMPORTANT" && "WARNING" != "TIP" && "WARNING" != "NOTE"
    ensures "IMPORTANT" != "TIP" && "IMPORTANT" != "NOTE" && "TIP" != "NOTE"
  {
    assert "CAUTION"[0] != "WARNING"[0];
    assert |"CAUTION"| == 7 && |"WARNING"| == 7 && |"IMPORTANT"| == 9 && |"TIP"| == 3 && |"NOTE"| == 4;
  }

  predicate IsUpperAscii(c: char)
  {
    'A' <= c <= 'Z'
  }

  /** The admonition pattern `^\[\!([A-Z]*)\]\n([\S\s]*)`: the name in the
      brackets and everything after the first line. */
  function MatchAdmonition(content: string): (r: Option<(string, string)>)
    ensures r.Some? ==> (content == "[!" + r.value.0 + "]\n" + r.value.1
      && forall i :: 0 <= i < |r.value.0| ==> IsUpperAscii(r.value.0[i]))
  {
    if !HasPrefix(content, "[!") then None
    else
      var k := LeadingEnd(content, IsUpperAscii, 2);
      if k + 2 <= |content| && content[k] == ']' && content[k + 1] == '\n' then
        assert content[k..k + 2] == "]\n";
        SliceFour(content, 2, k, k + 2);
        Some((content[2..k], content[k + 2..]))
      else None
  }

  /** A text cut at three points is the concatenation of its four pieces. */
  lemma SliceFour(s: string, i: nat, j: nat, l: nat)
    requires i <= j <= l <= |s|
    ensures s == s[..i] + s[i..j] + s[j..l] + s[l..]
  {
    assert s[..j] == s[..i] + s[i..j];
    assert s[..l] == s[..j] + s[j..l];
  }

  /** Every text of the admonition shape matches, with its name and body. */
  lemma MatchAdmonitionComposed(name: string, body: string)
    requires forall i :: 0 <= i < |name| ==> IsUpperAscii(name[i])
    ensures MatchAdmonition("[!" + name + "]\n" + body) == Some((name, body))
  {
    var content := "[!" + name + "]\n" + body;
    assert forall i :: 2 <= i < 2 + |name| ==> content[i] == name[i - 2];
    assert content[2 + |name|] == ']';
    assert LeadingEnd(content, IsUpperAscii, 2) == 2 + |name|;
    assert content[2..2 + |name|] == name;
    assert content[2 + |name| + 2..] == body;
  }

  /** The quote text and the citation: when there is more than one line and
      the trimmed last line starts with `--`, the citation is the trimmed rest
      of that line and the text the lines before it; otherwise the text is the
      whole content and there is no citation. */
  function SplitCitation(content: string): (r: (string, string))
    ensures var lines := Split(content, '\n');
      var last := TrimSpace(lines[|lines| - 1]);
      if |lines| > 1 && HasPrefix(last, "--") then
        content == r.0 + "\n" + lines[|lines| - 1] && r.1 == TrimSpace(last[2..])
      else r == (content, "")
  {
    var lines := Split(content, '\n');
    var n := |lines| - 1;
    var last := TrimSpace(lines[n]);
    if n > 0 && HasPrefix(last, "--") then
      JoinLast(lines, "\n");
      (Join(lines[..n], "\n"), TrimSpace(last[2..]))
    else (content, "")
  }

  /** A quote followed by a line `-- ` and a trimmed one-line citation
      splits back into the quote and the citation. */
  lemma CitationComposed(quote: string, citation: string)
    requires '\n' !in citation
    requires |citation| > 0 ==> !IsGoSpace(citation[0]) && !IsGoSpace(citation[|citation| - 1])
    ensures SplitCitation(quote + "\n" + "-- " + citation) == (quote, citation)
  {
    var line := "-- " + citation;
    assert '\n' !in line by {
      assert forall i :: 3 <= i < |line| ==> line[i] == citation[i - 3];
    }
    assert quote + "\n" + "-- " + citation == quote + ['\n'] + line;
    SplitAppendPiece(quote, '\n', line);
    var lines := Split(quote, '\n') + [line];
    assert lines[..|lines| - 1] == Split(quote, '\n');
    CitationLine(citation);
  }

  /** The trimmed line `-- ` plus a trimmed citation starts with `--`, and
      the trimmed rest is the citation. */
  lemma CitationLine(citation: string)
    requires |citation| > 0 ==> !IsGoSpace(citation[0]) && !IsGoSpace(citation[|citation| - 1])
    ensures HasPrefix(TrimSpace("-- " + citation), "--")
    ensures TrimSpace(TrimSpace("-- " + citation)[2..]) == citation
  {
    if |citation| > 0 {
      CitationLineKept(citation);
    } else {
      TrimSpaceOf("", "--", " ");
      assert "" + "--" + " " == "-- " + citation;
      TrimSpaceOf("", "", "");
    }
  }

  /** A non-empty trimmed citation keeps its line whole under trimming. */
  lemma CitationLineKept(citation: string)
    requires |citation| > 0 && !IsGoSpace(citation[0]) && !IsGoSpace(citation[|citation| - 1])
    ensures TrimSpace("-- " + citation) == "-- " + citation
    ensures ("-- " + citation)[2..] == " " + citation && HasPrefix("-- " + citation, "--")
    ensures TrimSpace(" " + citation) == citation
  {
    var line := "-- " + citation;
    assert !IsGoSpace(line[0]);
    TrimNothing(line);
    assert line[2..] == " " + citation;
    assert line[..2] == "--";
    TrimOneSpace(citation);
  }

  /** `handleBlockquote`: an admonition becomes an alert of the mapped type
      with the rendered body as its message; any other quote becomes a quote
      block with the rendered text and, when there is one, the rendered
      citation.  Both carry the configured caption alignment. */
  function HandleBlockquote(content: string, cfg: ParseConfig, render: string -> Option<string>)
    : (b: BlocksMarkdown.Block)
    ensures MatchAdmonition(content).Some? ==>
      var (name, body) := MatchAdmonition(content).value;
      b == BlocksMarkdown.Block("alert", map[
        "type" := JStr(AdmonitionType(name)),
        "align" := JStr(cfg.quoteCaptionAlign),
        "message" := JStr(render(body).GetOr(body))])
    ensures MatchAdmonition(content).None? ==>
      var (text, citation) := SplitCitation(content);
      && b.blockType == "quote" && "text" in b.data && "alignment" in b.data && "caption" in b.data
      && b.data["text"] == JStr(render(text).GetOr(text))
      && b.data["alignment"] == JStr(cfg.quoteCaptionAlign)
      && (citation == "" ==> b.data["caption"] == JStr(""))
      && (citation != "" ==> b.data["caption"] == JStr(render(citation).GetOr(citation)))
  {
    match MatchAdmonition(content)
    case Some((name, body)) =>
      BlocksMarkdown.Block("alert", map[
        "type" := JStr(AdmonitionType(name)),
        "align" := JStr(cfg.quoteCaptionAlign),
        "message" := JStr(render(body).GetOr(body))])
    case None =>
      var (text, citation) := SplitCitation(content);
      var caption := if citation != "" then render(citation).GetOr(citation) else "";
      BlocksMarkdown.Block("quote", map[
        "text" := JStr(render(text).GetOr(text)),
        "caption" := JStr(caption),
        "alignment" := JStr(cfg.quoteCaptionAlign)])
  }

  // ---------------------------------------------------------------------------
  // Rendering fragments

  /** `<p>` stripping in `markdownToHTML`: one surrounding paragraph pair is
      removed from the trimmed rendering.  The pair never overlaps, so the cut
      is always in range. */
  function StripParagraph(content: string): (r: string)
    ensures HasPrefix(content, "<p>") && HasSuffix(content, "</p>") ==> content == "<p>" + r + "</p>"
    ensures !(HasPrefix(content, "<p>") && HasSuffix(content, "</p>")) ==> r == content
  {
    if HasPrefix(content, "<p>") && HasSuffix(content, "</p>") then
      assert content[1] == 'p' && content[2] == '>';
      assert content[|content| - 4] == '<' && content[|content| - 3] == '/';
      assert content == content[..3] + content[3..|content| - 4] + content[|content| - 4..];
      content[3..|content| - 4]
    else content
  }

  /** Wrapping in one paragraph pair and stripping it gives the text back. */
  lemma StripParagraphWrapped(x: string)
    ensures StripParagraph("<p>" + x + "</p>") == x
  {
    var c := "<p>" + x + "</p>";
    assert c[..3] == "<p>" && c[|c| - 4..] == "</p>";
  }

  /** `markdownToHTML`: the converter's output (`convert` fails when goldmark
      does), trimmed, with one surrounding paragraph pair removed;
      `annotateCode` adds the `inline-code` class when the result contains a
      `<code>` element and keeps the text when the HTML round trip fails. */
  function MarkdownToHTML(markdown: string, convert: string -> Option<string>,
                          annotateCode: string -> Option<string>): (r: Option<string>)
    ensures r.Some? <==> convert(markdown).Some?
    ensures r.Some? && !Contains(StripParagraph(TrimSpace(convert(markdown).value)), "<code>") ==>
      r.value == StripParagraph(TrimSpace(convert(markdown).value))
  {
    match convert(markdown)
    case None => None
    case Some(html) =>
      var content := StripParagraph(TrimSpace(html));
      if Contains(content, "<code>") then Some(annotateCode(content).GetOr(content)) else Some(content)
  }
}

=== FILE: ordering.dfy ===
/** Go's ordering of strings (`<` on `string`, as used by `sort.Strings` and the
    `sort.Slice` comparators of the modelled code) and a sort by a string key. */
module Ordering {

  /** Lexicographic order by code point; for Unicode scalar values this is the
      same order Go's byte-wise comparison of UTF-8 gives. */
  predicate Less(a: string, b: string)
    decreases |a|
  {
    if |a| == 0 then |b| > 0
    else if |b| == 0 then false
    else if a[0] != b[0] then a[0] < b[0]
    else Less(a[1..], b[1..])
  }

  predicate LessEq(a: string, b: string)
  {
    !Less(b, a)
  }

  lemma {:induction false} LessIrreflexive(a: string)
    ensures !Less(a, a)
    decreases |a|
  {
    if |a| > 0 {
      LessIrreflexive(a[1..]);
    }
  }

  lemma {:induction false} LessTransitive(a: string, b: string, c: string)
    requires Less(a, b) && Less(b, c)
    ensures Less(a, c)
    decreases |a|
  {
    if |a| > 0 && |b| > 0 && |c| > 0 && a[0] == b[0] && b[0] == c[0] {
      LessTransitive(a[1..], b[1..], c[1..]);
    }
  }

  lemma {:induction false} LessTotal(a: string, b: string)
    ensures Less(a, b) || a == b || Less(b, a)
    decreases |a|
  {
    if |a| > 0 && |b| > 0 && a[0] == b[0] {
      LessTotal(a[1..], b[1..]);
      if a[1..] == b[1..] {
        assert a == [a[0]] + a[1..] && b == [b[0]] + b[1..];
      }
    }
  }

  lemma LessEqTransitive(a: string, b: string, c: string)
    requires LessEq(a, b) && LessEq(b, c)
    ensures LessEq(a, c)
  {
    if Less(c, a) {
      LessTotal(a, b);
      LessTotal(b, c);
      if Less(a, b) {
        LessTransitive(c, a, b);
      } else if a == b {
      } else {
        LessTransitive(b, a, c);
      }
    }
  }

  /** The keys of `s` are in non-decreasing order. */
  ghost predicate SortedBy<T>(s: seq<T>, key: T -> string)
  {
    forall i, j :: 0 <= i < j < |s| ==> LessEq(key(s[i]), key(s[j]))
  }

  /** Inserts `x` before the first element whose key is not smaller. */
  function Insert<T(==)>(x: T, s: seq<T>, key: T -> string): (r: seq<T>)
    requires SortedBy(s, key)
    ensures SortedBy(r, key)
    ensures multiset(r) == multiset(s) + multiset{x}
  {
    if |s| == 0 then [x]
    else if LessEq(key(x), key(s[0])) then
      InsertFront(x, s, key);
      [x] + s
    else
      var rest := Insert(x, s[1..], key);
      InsertLater(x, s, key, rest);
      [s[0]] + rest
  }

  /** An element no larger than the first of a sorted sequence goes in front. */
  lemma InsertFront<T>(x: T, s: seq<T>, key: T -> string)
    requires SortedBy(s, key) && |s| > 0 && LessEq(key(x), key(s[0]))
    ensures SortedBy([x] + s, key)
  {
    forall j | 0 <= j < |s|
      ensures LessEq(key(x), key(s[j]))
    {
      if j > 0 {
        LessEqTransitive(key(x), key(s[0]), key(s[j]));
      }
    }
  }

  /** An element larger than the first of a sorted sequence goes after it:
      the first stays in front of the sorted rest with `x` inserted. */
  lemma InsertLater<T>(x: T, s: seq<T>, key: T -> string, rest: seq<T>)
    requires SortedBy(s, key) && |s| > 0 && !LessEq(key(x), key(s[0]))
    requires SortedBy(rest, key) && multiset(rest) == multiset(s[1..]) + multiset{x}
    ensures SortedBy([s[0]] + rest, key)
    ensures multiset([s[0]] + rest) == multiset(s) + multiset{x}
  {
    assert s == [s[0]] + s[1..];
    forall j | 0 <= j < |rest|
      ensures LessEq(key(s[0]), key(rest[j]))
    {
      var y := rest[j];
      assert y in multiset(rest);
      if y == x {
        LessIrreflexive(key(x));
        if Less(key(x), key(s[0])) {
          LessTransitive(key(x), key(s[0]), key(x));
        }
      } else {
        assert y in multiset(s[1..]);
        var k :| 0 <= k < |s[1..]| && s[1..][k] == y;
        assert s[k + 1] == y;
      }
    }
  }

  /** Insertion sort by key: a sorted permutation of the input. */
  function SortBy<T(==)>(s: seq<T>, key: T -> string): (r: seq<T>)
    ensures SortedBy(r, key)
    ensures multiset(r) == multiset(s)
    ensures |r| == |s|
  {
    if |s| == 0 then []
    else
      assert s == [s[0]] + s[1..];
      Insert(s[0], SortBy(s[1..], key), key)
  }
}

=== FILE: post_form.dfy ===
/** Submitting the post editor of
    `frontend/src/components/posts/post-form.tsx`: the title check, the post
    that is handed to `onSubmit`, and what the page shows afterwards. */
module PostForm {
  import opened Wrappers
  import opened Strs
  import opened Fields

  /** A post; `B` is the editor's block list, which is passed through. */
  datatype Post<B> = Post(id: string, path: string, frontmatter: seq<FrontmatterField>, blocks: B)

  /** What the form hands over: one value per registered input name (an
      input that was never set has none) and the editor's blocks. */
  datatype FormData<B> = FormData(values: map<string, FormValue>, blocks: B)

  const TitleEmpty: string := "Title cannot be empty"

  /** Index of the first field named `title`, or `|fields|` (`find`). */
  function TitleIndex(fields: seq<FrontmatterField>): (k: nat)
    ensures k <= |fields|
    ensures forall i :: 0 <= i < k ==> fields[i].name != "title"
    ensures k < |fields| ==> fields[k].name == "title"
  {
    if |fields| == 0 then 0
    else if fields[0].name == "title" then 0
    else 1 + TitleIndex(fields[1..])
  }

  /** The falsy values of JavaScript among the form values. */
  predicate Falsy(v: FormValue)
  {
    v == Str("") || v == Bool(false) || v == Num(0)
  }

  /** The title check: with a `title` field, a missing or falsy value, or a
      string that trims to nothing, blocks submission; a truthy value that is
      not a string has no `trim` and throws.  Without a `title` field nothing
      blocks. */
  function TitleBlocked<B>(post: Post<B>, data: FormData<B>): (r: Result<bool>)
    ensures TitleIndex(post.frontmatter) == |post.frontmatter| ==> r == Ok(false)
    ensures TitleIndex(post.frontmatter) < |post.frontmatter| ==>
      && ("title" !in data.values ==> r == Ok(true))
      && ("title" in data.values && data.values["title"].Str? ==>
            r == Ok(JsTrim(data.values["title"].s) == ""))
      && ("title" in data.values && !data.values["title"].Str? ==>
            (Falsy(data.values["title"]) <==> r == Ok(true)) && (!Falsy(data.values["title"]) ==> r.Panic?))
  {
    if TitleIndex(post.frontmatter) == |post.frontmatter| then Ok(false)
    else if "title" !in data.values then Ok(true)
    else
      var v := data.values["title"];
      if Falsy(v) then Ok(true)
      else if v.Str? then Ok(JsTrim(v.s) == "")
      else Panic("data[titleField.name].trim is not a function")
  }

  /** The form's value for a field, read as the slot's type; a missing value or
      one of another type reads as the slot's empty default. */
  function AsString(v: Option<FormValue>): string
  {
    if v.Some? && v.value.Str? then v.value.s else ""
  }

  function AsBool(v: Option<FormValue>): bool
  {
    v.Some? && v.value.Bool? && v.value.b
  }

  function AsNumber(v: Option<FormValue>): int
  {
    if v.Some? && v.value.Num? then v.value.n else 0
  }

  function AsList(v: Option<FormValue>): seq<string>
  {
    if v.Some? && v.value.List? then v.value.xs else []
  }

  function Lookup(values: map<string, FormValue>, name: string): Option<FormValue>
  {
    if name in values then Some(values[name]) else None
  }

  /** One submitted field: a copy of the original in which a non-date field's
      date slot becomes the unset sentinel and the slot of the field's type
      takes the form's value. */
  function SubmittedField(f: FrontmatterField, values: map<string, FormValue>): (g: FrontmatterField)
    ensures g.name == f.name && g.fieldType == f.fieldType
    ensures f.fieldType != "dateTime" ==> g.dateTimeValue == UnsetDateTime
    ensures f.fieldType != "string" ==> g.stringValue == f.stringValue
    ensures f.fieldType != "bool" ==> g.boolValue == f.boolValue
    ensures f.fieldType != "number" ==> g.numberValue == f.numberValue
    ensures f.fieldType != "stringSlice" ==> g.stringSliceValue == f.stringSliceValue
    ensures f.fieldType == "string" ==> g.stringValue == AsString(Lookup(values, f.name))
    ensures f.fieldType == "bool" ==> g.boolValue == AsBool(Lookup(values, f.name))
    ensures f.fieldType == "number" ==> g.numberValue == AsNumber(Lookup(values, f.name))
    ensures f.fieldType == "dateTime" ==> g.dateTimeValue == AsString(Lookup(values, f.name))
    ensures f.fieldType == "stringSlice" ==> g.stringSliceValue == AsList(Lookup(values, f.name))
  {
    var v := Lookup(values, f.name);
    var g := if f.fieldType != "dateTime" then f.(dateTimeValue := UnsetDateTime) else f;
    match f.fieldType
    case "string" => g.(stringValue := AsString(v))
    case "bool" => g.(boolValue := AsBool(v))
    case "number" => g.(numberValue := AsNumber(v))
    case "dateTime" => g.(dateTimeValue := AsString(v))
    case "stringSlice" => g.(stringSliceValue := AsList(v))
    case _ => g
  }

  /** The post handed to `onSubmit`: same id and path, the form's blocks, and
      the fields one for one. */
  function SubmittedPost<B>(post: Post<B>, data: FormData<B>): (p: Post<B>)
    ensures p.id == post.id && p.path == post.path && p.blocks == data.blocks
    ensures |p.frontmatter| == |post.frontmatter|
    ensures Names(p.frontmatter) == Names(post.frontmatter)
    ensures forall i :: 0 <= i < |post.frontmatter| ==> p.frontmatter[i] == SubmittedField(post.frontmatter[i], data.values)
  {
    var fs := seq(|post.frontmatter|, i requires 0 <= i < |post.frontmatter| => SubmittedField(post.frontmatter[i], data.values));
    assert forall i :: 0 <= i < |fs| ==> Names(fs)[i] == Names(post.frontmatter)[i];
    Post(post.id, post.path, fs, data.blocks)
  }

  /** The value the form holds for a field before any edit: its own slot. */
  function OwnValue(f: FrontmatterField): Option<FormValue>
  {
    match f.fieldType
    case "string" => Some(Str(f.stringValue))
    case "bool" => Some(Bool(f.boolValue))
    case "number" => Some(Num(f.numberValue))
    case "dateTime" => Some(Str(f.dateTimeValue))
    case "stringSlice" => Some(List(f.stringSliceValue))
    case _ => None
  }

  /** A field as the back end delivers it: a non-date field carries the unset
      date sentinel. */
  predicate Delivered(f: FrontmatterField)
  {
    f.fieldType != "dateTime" ==> f.dateTimeValue == UnsetDateTime
  }

  /** Submitting the values a field started from gives the field back. */
  lemma {:induction false} UneditedFieldUnchanged(f: FrontmatterField, values: map<string, FormValue>)
    requires Delivered(f)
    requires Lookup(values, f.name) == OwnValue(f) || OwnValue(f).None?
    ensures SubmittedField(f, values) == f
  {
    var v := Lookup(values, f.name);
    if f.fieldType == "string" {
      assert AsString(v) == f.stringValue;
    } else if f.fieldType == "bool" {
      assert AsBool(v) == f.boolValue;
    } else if f.fieldType == "number" {
      assert AsNumber(v) == f.numberValue;
    } else if f.fieldType == "dateTime" {
      assert AsString(v) == f.dateTimeValue;
    } else if f.fieldType == "stringSlice" {
      assert AsList(v) == f.stringSliceValue;
    }
  }

  /** Whether a form value has the runtime type of a field type's slot. */
  predicate SlotTyped(fieldType: string, v: FormValue)
  {
    match fieldType
    case "string" => v.Str?
    case "dateTime" => v.Str?
    case "bool" => v.Bool?
    case "number" => v.Num?
    case "stringSlice" => v.List?
    case _ => false
  }

  /** A form value of the slot's type is what the submitted field holds: read
      back from the field, it is the value that was submitted. */
  lemma SubmittedValueReadsBack(f: FrontmatterField, values: map<string, FormValue>)
    requires f.name in values && SlotTyped(f.fieldType, values[f.name])
    ensures OwnValue(SubmittedField(f, values)) == Some(values[f.name])
  {
    var g := SubmittedField(f, values);
    var v := values[f.name];
    assert Lookup(values, f.name) == Some(v);
    if f.fieldType == "string" {
      assert g.stringValue == v.s;
    } else if f.fieldType == "bool" {
      assert g.boolValue == v.b;
    } else if f.fieldType == "number" {
      assert g.numberValue == v.n;
    } else if f.fieldType == "dateTime" {
      assert g.dateTimeValue == v.s;
    } else {
      assert g.stringSliceValue == v.xs;
    }
  }

  /** How the promise `onSubmit` returned settled. */
  datatype Settled = Resolved | RejectedWith(message: string) | RejectedOther

  /** What the page shows: the field errors, the saving overlay, the last
      error toast, and the post last handed to `onSubmit`. */
  datatype Page<B> = Page(fieldErrors: map<string, string>, isSaving: bool,
                          toast: Option<string>, sent: Option<Post<B>>)

  /** `handleSubmit`: the errors are cleared; a blocked title shows its error
      and nothing is sent; otherwise the post is sent, a rejection is shown as
      a toast and never rethrown, and the saving flag ends up false either way. */
  function HandleSubmit<B>(page: Page<B>, post: Post<B>, data: FormData<B>, settled: Settled): (r: Result<Page<B>>)
    ensures TitleBlocked(post, data) == Ok(true) ==>
      r == Ok(page.(fieldErrors := map["title" := TitleEmpty]))
    ensures TitleBlocked(post, data) == Ok(false) ==>
      && r.Ok? && r.value.fieldErrors == map[] && !r.value.isSaving
      && r.value.sent == Some(SubmittedPost(post, data))
      && (settled.Resolved? ==> r.value.toast == page.toast)
      && (settled.RejectedWith? ==> r.value.toast == Some(settled.message))
      && (settled.RejectedOther? ==> r.value.toast == Some("Failed to save post"))
    ensures TitleBlocked(post, data).Panic? ==> r.Panic?
  {
    var blocked :- TitleBlocked(post, data);
    if blocked then Ok(page.(fieldErrors := map["title" := TitleEmpty]))
    else
      var toast := match settled
        case Resolved => page.toast
        case RejectedWith(m) => Some(m)
        case RejectedOther => Some("Failed to save post");
      Ok(Page(map[], false, toast, Some(SubmittedPost(post, data))))
  }

  /** A post without a `title` field is always sent. */
  lemma NoTitleAlwaysSent<B>(page: Page<B>, post: Post<B>, data: FormData<B>, settled: Settled)
    requires "title" !in Names(post.frontmatter)
    ensures HandleSubmit(page, post, data, settled).Ok?
    ensures HandleSubmit(page, post, data, settled).value.sent == Some(SubmittedPost(post, data))
  {
    forall i | 0 <= i < |post.frontmatter|
      ensures post.frontmatter[i].name != "title"
    {
      assert Names(post.frontmatter)[i] == post.frontmatter[i].name;
    }
  }

  /** With a `title` field, a blank title string is never sent. */
  lemma BlankTitleNeverSent<B>(page: Page<B>, post: Post<B>, data: FormData<B>, settled: Settled, blank: string)
    requires "title" in Names(post.frontmatter)
    requires forall i :: 0 <= i < |blank| ==> IsJsSpace(blank[i])
    requires data.values == map["title" := Str(blank)]
    ensures HandleSubmit(page, post, data, settled) == Ok(page.(fieldErrors := map["title" := TitleEmpty]))
  {
    var k :| 0 <= k < |post.frontmatter| && Names(post.frontmatter)[k] == "title";
    assert post.frontmatter[k].name == "title";
    assert TitleIndex(post.frontmatter) < |post.frontmatter|;
    JsTrimBlank(blank);
  }
}

=== FILE: sites_page.dfy ===
/** The repository picker of `frontend/src/pages/configuration/sites.tsx`:
    choosing an organization loads its repositories, repositories are
    selected one by one or all at once and filtered by name, and saving turns
    the selection into sites.  The API calls' outcomes are parameters. */
module SitesPage {
  import opened Wrappers
  import opened Strs

  datatype Repository = Repository(name: string, htmlUrl: string)

  datatype Site = Site(id: nat, name: string, url: string)

  /** How a request settled: with its result, with an `Error` and its
      message, or with something thrown that is not an `Error`. */
  datatype Outcome<T> = Done(value: T) | FailedWith(message: string) | FailedOther

  /** The page's state. */
  datatype Page = Page(repositories: seq<Repository>, selectedOrg: string, selected: set<string>,
                       sites: seq<Site>, error: Option<string>, isSaving: bool)

  /** `toggleRepository`: the URL's membership flips and no other URL's does. */
  function Toggle(selected: set<string>, url: string): (r: set<string>)
    ensures url in r <==> url !in selected
    ensures forall u :: u != url ==> (u in r <==> u in selected)
  {
    if url in selected then selected - {url} else selected + {url}
  }

  /** Toggling the same URL twice restores the selection. */
  lemma ToggleTwice(selected: set<string>, url: string)
    ensures Toggle(Toggle(selected, url), url) == selected
  {
  }

  /** `toggleAllRepositories`: every listed repository's URL, or none. */
  function ToggleAll(repositories: seq<Repository>, checked: bool): (r: set<string>)
    ensures checked ==> forall i :: 0 <= i < |repositories| ==> repositories[i].htmlUrl in r
    ensures checked ==> forall u :: u in r ==> exists i :: 0 <= i < |repositories| && repositories[i].htmlUrl == u
    ensures !checked ==> r == {}
  {
    if checked then set i | 0 <= i < |repositories| :: repositories[i].htmlUrl else {}
  }

  /** The name matches when, lower-cased, it contains the lower-cased filter. */
  predicate Matches(repo: Repository, filter: string)
  {
    Contains(ToLower(repo.name), ToLower(filter))
  }

  /** `filteredRepositories`: the matching repositories, in their order. */
  function Filtered(repositories: seq<Repository>, filter: string): (r: seq<Repository>)
    ensures forall x :: x in r <==> x in repositories && Matches(x, filter)
    ensures |r| <= |repositories|
  {
    if |repositories| == 0 then []
    else (if Matches(repositories[0], filter) then [repositories[0]] else [])
         + Filtered(repositories[1..], filter)
  }

  /** Filtering keeps the order: it distributes over concatenation. */
  lemma {:induction false} FilteredAppend(a: seq<Repository>, b: seq<Repository>, filter: string)
    ensures Filtered(a + b, filter) == Filtered(a, filter) + Filtered(b, filter)
  {
    if |a| > 0 {
      var h := if Matches(a[0], filter) then [a[0]] else [];
      assert (a + b)[0] == a[0] && (a + b)[1..] == a[1..] + b;
      FilteredAppend(a[1..], b, filter);
      assert Filtered(a + b, filter) == h + Filtered(a[1..] + b, filter);
      ConcatAssoc(h, Filtered(a[1..], filter), Filtered(b, filter));
    } else {
      assert a + b == b;
    }
  }

  /** An empty filter shows every repository. */
  lemma {:induction false} EmptyFilterKeepsAll(repositories: seq<Repository>)
    ensures Filtered(repositories, "") == repositories
  {
    if |repositories| > 0 {
      assert OccursAt(ToLower(repositories[0].name), ToLower(""), 0);
      EmptyFilterKeepsAll(repositories[1..]);
      assert repositories == [repositories[0]] + repositories[1..];
    }
  }

  /** The organization effect: clearing the organization clears the list and
      the selection; a loaded list replaces the old one with nothing selected;
      a failed load only shows its error. */
  function OrgChanged(page: Page, org: string, load: Outcome<seq<Repository>>): (r: Page)
    ensures r.selectedOrg == org && r.sites == page.sites && r.isSaving == page.isSaving
    ensures org == "" ==> r.repositories == [] && r.selected == {} && r.error == page.error
    ensures org != "" && load.Done? ==> r.repositories == load.value && r.selected == {} && r.error == page.error
    ensures org != "" && load.FailedWith? ==>
      r.error == Some(load.message) && r.repositories == page.repositories && r.selected == page.selected
    ensures org != "" && load.FailedOther? ==>
      r.error == Some("Failed to fetch repositories") && r.repositories == page.repositories && r.selected == page.selected
  {
    var p := page.(selectedOrg := org);
    if org == "" then p.(repositories := [], selected := {})
    else match load
      case Done(repos) => p.(repositories := repos, selected := {})
      case FailedWith(m) => p.(error := Some(m))
      case FailedOther => p.(error := Some("Failed to fetch repositories"))
  }

  /** `handleSave`: with nothing selected nothing happens.  Otherwise one site
      is created per selected URL; on success the refreshed sites are shown and
      the organization, selection and error are cleared; on failure only the
      error is shown.  The saving flag ends up false either way.  The second
      result is the set of URLs sites were requested for. */
  function Save(page: Page, saved: Outcome<seq<Site>>): (r: (Page, set<string>))
    ensures page.selected == {} ==> r == (page, {})
    ensures page.selected != {} ==> r.1 == page.selected && !r.0.isSaving
    ensures page.selected != {} && saved.Done? ==>
      r.0 == Page(page.repositories, "", {}, saved.value, None, false)
    ensures page.selected != {} && !saved.Done? ==>
      && r.0.selected == page.selected && r.0.selectedOrg == page.selectedOrg && r.0.sites == page.sites
      && r.0.error == Some(if saved.FailedWith? then saved.message else "Failed to save sites")
  {
    if page.selected == {} then (page, {})
    else match saved
      case Done(sites) => (page.(sites := sites, selectedOrg := "", selected := {}, error := None, isSaving := false), page.selected)
      case FailedWith(m) => (page.(error := Some(m), isSaving := false), page.selected)
      case FailedOther => (page.(error := Some("Failed to save sites"), isSaving := false), page.selected)
  }

  /** A successful save leaves nothing to save again. */
  lemma SaveThenSaveIsNoop(page: Page, saved: Outcome<seq<Site>>, again: Outcome<seq<Site>>)
    requires saved.Done?
    ensures var p := Save(page, saved).0; Save(p, again) == (p, {})
  {
  }

  /** The save button's label: "Saving..." while saving, otherwise the count
      and "Site" for exactly one selection, "Sites" for any other count. */
  function SaveLabel(isSaving: bool, count: nat): (r: string)
    ensures isSaving ==> r == "Saving..."
    ensures !isSaving ==> HasPrefix(r, "Save " + NatToString(count) + " Selected ")
    ensures !isSaving ==> (HasSuffix(r, "Sites") <==> count != 1)
    ensures !isSaving ==> (HasSuffix(r, " Site") <==> count == 1)
    ensures !isSaving ==> r == "Save " + NatToString(count) + " Selected " + (if count == 1 then "Site" else "Sites")
  {
    if isSaving then "Saving..."
    else
      var head := "Save " + NatToString(count) + " Selected ";
      var noun := if count == 1 then "Site" else "Sites";
      assert (head + noun)[..|head|] == head;
      assert (head + noun)[|head + noun| - |noun|..] == noun;
      assert count == 1 ==> (head + noun)[|head + noun| - 1] == 'e';
      assert count != 1 ==> (head + noun)[|head + noun| - 5] == 'S';
      assert count == 1 ==> (head + noun)[|head + noun| - 5..] == " Site";
      head + noun
  }

  /** The label names the selection's size and reads back as that number. */
  lemma SaveLabelCount(count: nat)
    ensures var r := SaveLabel(false, count);
      var digits := r[5..5 + |NatToString(count)|];
      (forall i :: 0 <= i < |digits| ==> '0' <= digits[i] <= '9') && ParseNat(digits) == count
  {
    var s := NatToString(count);
    var tail := " Selected " + (if count == 1 then "Site" else "Sites");
    assert SaveLabel(false, count) == "Save " + s + tail;
    ThreeRuns("Save ", s, tail);
    ParseNatToString(count);
  }
}

=== FILE: strs.dfy ===
/** String helpers with the semantics of Go's `strings` package and of the
    JavaScript string methods the modelled code calls.  Strings are sequences
    of Unicode scalar values; no encoding is modelled. */
module Strs {

  /** Go's `unicode.IsSpace`, the set `strings.TrimSpace` removes. */
  predicate IsGoSpace(c: char)
  {
    c in {' ', '\t', '\n', '\U{000B}', '\U{000C}', '\r', '\U{0085}', '\U{00A0}', '\U{1680}',
          '\U{2028}', '\U{2029}', '\U{202F}', '\U{205F}', '\U{3000}'}
    || ('\U{2000}' <= c <= '\U{200A}')
  }

  /** The white space and line terminators JavaScript's `String.prototype.trim` removes:
      Go's set without NEL (U+0085) and with the byte-order mark (U+FEFF). */
  predicate IsJsSpace(c: char)
  {
    (IsGoSpace(c) && c != '\U{0085}') || c == '\U{FEFF}'
  }

  /** Number of leading characters of `s[from..]` that `drop` accepts, counted from `from`. */
  function LeadingEnd(s: string, drop: char -> bool, from: nat): (k: nat)
    requires from <= |s|
    ensures from <= k <= |s|
    ensures forall i :: from <= i < k ==> drop(s[i])
    ensures k < |s| ==> !drop(s[k])
    decreases |s| - from
  {
    if from < |s| && drop(s[from]) then LeadingEnd(s, drop, from + 1) else from
  }

  /** End of `s[..to]` once its trailing characters that `drop` accepts are removed. */
  function TrailingStart(s: string, drop: char -> bool, to: nat): (k: nat)
    requires to <= |s|
    ensures k <= to
    ensures forall i :: k <= i < to ==> drop(s[i])
    ensures k > 0 ==> !drop(s[k - 1])
  {
    if to > 0 && drop(s[to - 1]) then TrailingStart(s, drop, to - 1) else to
  }

  /** `TrimSpace` leaves no white space at either end and returns a piece of its input. */
  lemma TrimSpaceTrimmed(s: string)
    ensures var t := TrimSpace(s);
      && (|t| > 0 ==> !IsGoSpace(t[0]) && !IsGoSpace(t[|t| - 1]))
      && (exists i :: OccursAt(s, t, i))
  {
    var j := LeadingEnd(s, IsGoSpace, 0);
    var x := s[j..];
    var k := TrailingStart(x, IsGoSpace, |x|);
    assert TrimSpace(s) == x[..k] == s[j..j + k];
    assert OccursAt(s, TrimSpace(s), j);
  }

  /** White space alone trims to nothing in JavaScript. */
  lemma JsTrimBlank(s: string)
    requires forall i :: 0 <= i < |s| ==> IsJsSpace(s[i])
    ensures JsTrim(s) == ""
  {
    var j := LeadingEnd(s, IsJsSpace, 0);
    assert j == |s|;
  }

  /** `Trim(s, cutset)` leaves no character of the cut set at either end. */
  lemma TrimCutsetTrimmed(s: string, cutset: set<char>)
    ensures var t := TrimCutset(s, cutset);
      |t| > 0 ==> t[0] !in cutset && t[|t| - 1] !in cutset
  {
    var drop := c => c in cutset;
    var j := LeadingEnd(s, drop, 0);
    var x := s[j..];
    var k := TrailingStart(x, drop, |x|);
    assert TrimCutset(s, cutset) == x[..k];
    if k > 0 {
      assert j < |s| && x[0] == s[j];
    }
  }

  /** `TrimSpace` of white space, a trimmed piece and white space is the piece. */
  lemma TrimSpaceOf(a: string, t: string, b: string)
    requires forall i :: 0 <= i < |a| ==> IsGoSpace(a[i])
    requires forall i :: 0 <= i < |b| ==> IsGoSpace(b[i])
    requires |t| > 0 ==> !IsGoSpace(t[0]) && !IsGoSpace(t[|t| - 1])
    ensures TrimSpace(a + t + b) == t
  {
    var s := a + t + b;
    var j := LeadingEnd(s, IsGoSpace, 0);
    if |t| > 0 {
      assert s[|a|] == t[0];
      assert j == |a|;
      var x := s[j..];
      assert x == t + b;
      var k := TrailingStart(x, IsGoSpace, |x|);
      assert x[|t| - 1] == t[|t| - 1];
      assert forall i :: |t| <= i < |x| ==> x[i] == b[i - |t|];
      assert k == |t|;
      assert x[..k] == t;
    } else {
      assert forall i :: 0 <= i < |s| ==> IsGoSpace(s[i]) by {
        assert s == a + b;
        assert forall i :: |a| <= i < |s| ==> s[i] == b[i - |a|];
      }
      assert j == |s|;
    }
  }

  function TrimLeftBy(s: string, drop: char -> bool): string
  {
    s[LeadingEnd(s, drop, 0)..]
  }

  function TrimRightBy(s: string, drop: char -> bool): string
  {
    s[..TrailingStart(s, drop, |s|)]
  }

  /** Go's `strings.TrimSpace`. */
  function TrimSpace(s: string): string
  {
    TrimRightBy(TrimLeftBy(s, IsGoSpace), IsGoSpace)
  }

  /** JavaScript's `s.trim()`. */
  function JsTrim(s: string): string
  {
    TrimRightBy(TrimLeftBy(s, IsJsSpace), IsJsSpace)
  }

  /** Go's `strings.Trim(s, cutset)`: strips every leading and trailing
      character that belongs to the cutset. */
  function TrimCutset(s: string, cutset: set<char>): string
  {
    TrimRightBy(TrimLeftBy(s, c => c in cutset), c => c in cutset)
  }

  /** A string with nothing to trim loses exactly one leading space. */
  lemma TrimOneSpace(t: string)
    requires |t| > 0 ==> !IsGoSpace(t[0]) && !IsGoSpace(t[|t| - 1])
    ensures TrimSpace(" " + t) == t
  {
    assert IsGoSpace(" "[0]);
    TrimSpaceOf(" ", t, "");
    assert " " + t + "" == " " + t;
  }

  /** A string whose ends are not white space is its own trimming. */
  lemma TrimNothing(t: string)
    requires |t| > 0 ==> !IsGoSpace(t[0]) && !IsGoSpace(t[|t| - 1])
    ensures TrimSpace(t) == t
  {
    TrimSpaceOf("", t, "");
    assert "" + t + "" == t;
  }

  /** Trimming a cut set off a string enclosed by two of its characters gives
      the string back when the string neither starts nor ends with one. */
  lemma TrimCutsetEnclosed(a: char, t: string, b: char, cutset: set<char>)
    requires a in cutset && b in cutset
    requires |t| > 0 ==> t[0] !in cutset && t[|t| - 1] !in cutset
    ensures TrimCutset([a] + t + [b], cutset) == t
  {
    var s := [a] + t + [b];
    var drop := c => c in cutset;
    var k := LeadingEnd(s, drop, 0);
    if |t| == 0 {
      assert k == 2;
    } else {
      assert s[1] == t[0];
      assert k == 1;
      var u := s[1..];
      assert u == t + [b];
      assert u[|u| - 2] == t[|t| - 1];
      assert TrailingStart(u, drop, |u|) == |u| - 1;
      assert u[..|u| - 1] == t;
    }
  }

  predicate HasPrefix(s: string, p: string)
  {
    |p| <= |s| && s[..|p|] == p
  }

  predicate HasSuffix(s: string, p: string)
  {
    |p| <= |s| && s[|s| - |p|..] == p
  }

  /** A prefix of a prefix is a prefix. */
  lemma PrefixOfPrefix(s: string, p: string, q: string)
    requires HasPrefix(s, p + q)
    ensures HasPrefix(s, p)
  {
    assert s[..|p|] == s[..|p + q|][..|p|] == (p + q)[..|p|] == p;
  }

  /** Concatenation regroups freely. */
  lemma ConcatAssoc<T>(x: seq<T>, y: seq<T>, z: seq<T>)
    ensures x + (y + z) == (x + y) + z
  {
  }

  /** A prefix of `a` is a prefix of `a + b`; a suffix of `b` is a suffix of `a + b`. */
  lemma ConcatEnds(a: string, b: string, p: string, q: string)
    ensures HasPrefix(a, p) ==> HasPrefix(a + b, p)
    ensures HasSuffix(b, q) ==> HasSuffix(a + b, q)
  {
    if HasPrefix(a, p) {
      assert (a + b)[..|p|] == a[..|p|];
    }
    if HasSuffix(b, q) {
      assert (a + b)[|a + b| - |q|..] == b[|b| - |q|..];
    }
  }

  /** Go's `strings.TrimPrefix`. */
  function TrimPrefix(s: string, p: string): string
  {
    if HasPrefix(s, p) then s[|p|..] else s
  }

  /** Substring test: JavaScript's `includes`, Go's `strings.Contains`. */
  predicate Contains(s: string, sub: string)
  {
    ContainsAt(s, sub, 0)
  }

  predicate OccursAt(s: string, sub: string, i: int)
  {
    0 <= i <= |s| - |sub| && s[i..i + |sub|] == sub
  }

  /** Whether `sub` occurs in `s` at some position `from` or later. */
  function ContainsAt(s: string, sub: string, from: nat): (b: bool)
    requires from <= |s|
    ensures b <==> exists i :: from <= i && OccursAt(s, sub, i)
    decreases |s| - from
  {
    if |s| - from < |sub| then false
    else if OccursAt(s, sub, from) then true
    else ContainsAt(s, sub, from + 1)
  }

  function Repeat(s: string, n: nat): (r: string)
    ensures |r| == n * |s|
  {
    if n == 0 then "" else s + Repeat(s, n - 1)
  }

  lemma {:induction false} RepeatCharAll(c: char, n: nat, i: int)
    requires 0 <= i < n
    ensures |Repeat([c], n)| == n && Repeat([c], n)[i] == c
  {
    if i > 0 {
      RepeatCharAll(c, n - 1, i - 1);
    }
  }

  /** Index of the first `x` in `s`, or `|s|` when there is none. */
  function IndexOf<T(==)>(s: seq<T>, x: T): (k: nat)
    ensures k <= |s|
    ensures k < |s| ==> s[k] == x
    ensures forall i :: 0 <= i < k ==> s[i] != x
  {
    if |s| == 0 then 0 else if s[0] == x then 0 else 1 + IndexOf(s[1..], x)
  }

  /** Go's `strings.Join(parts, sep)`. */
  function Join(parts: seq<string>, sep: string): string
  {
    if |parts| == 0 then ""
    else if |parts| == 1 then parts[0]
    else parts[0] + sep + Join(parts[1..], sep)
  }

  /** Joining one more piece adds the separator and the piece. */
  lemma {:induction false} JoinAppend(parts: seq<string>, sep: string, x: string)
    requires |parts| >= 1
    ensures Join(parts + [x], sep) == Join(parts, sep) + sep + x
  {
    if |parts| > 1 {
      assert (parts + [x])[1..] == parts[1..] + [x];
      JoinAppend(parts[1..], sep, x);
    }
  }

  /** Joining splits off the last piece after the last separator. */
  lemma JoinLast(parts: seq<string>, sep: string)
    requires |parts| >= 2
    ensures Join(parts, sep) == Join(parts[..|parts| - 1], sep) + sep + parts[|parts| - 1]
  {
    var n := |parts| - 1;
    JoinAppend(parts[..n], sep, parts[n]);
    assert parts[..n] + [parts[n]] == parts;
  }

  /** Joining pieces adds no character that neither they nor the separator hold. */
  lemma {:induction false} JoinFree(parts: seq<string>, sep: string, c: char)
    requires c !in sep
    requires forall i :: 0 <= i < |parts| ==> c !in parts[i]
    ensures c !in Join(parts, sep)
  {
    if |parts| > 1 {
      JoinFree(parts[1..], sep, c);
    }
  }

  lemma {:induction false} RepeatFree(s: string, n: nat, c: char)
    requires c !in s
    ensures c !in Repeat(s, n)
  {
    if n > 0 {
      RepeatFree(s, n - 1, c);
    }
  }

  /** Go's `strings.Split(s, sep)` for a one-character separator (the only kind
      the modelled code uses): never empty, no piece holds the separator, and
      joining the pieces back gives `s`. */
  function Split(s: string, c: char): (parts: seq<string>)
    ensures |parts| >= 1
    ensures forall i :: 0 <= i < |parts| ==> c !in parts[i]
    ensures Join(parts, [c]) == s
    decreases |s|
  {
    var k := IndexOf(s, c);
    if k == |s| then [s]
    else
      var rest := Split(s[k + 1..], c);
      assert s == s[..k] + [c] + s[k + 1..];
      [s[..k]] + rest
  }

  /** `Split` inverts `Join` when no piece holds the separator. */
  lemma {:induction false} SplitJoin(parts: seq<string>, c: char)
    requires |parts| >= 1
    requires forall i :: 0 <= i < |parts| ==> c !in parts[i]
    ensures Split(Join(parts, [c]), c) == parts
  {
    if |parts| > 1 {
      var s := Join(parts, [c]);
      assert s == parts[0] + [c] + Join(parts[1..], [c]);
      var tail := Join(parts[1..], [c]);
      IndexOfPrefix(parts[0], c, tail);
      SliceAround(parts[0], c, tail);
      SplitJoin(parts[1..], c);
      assert Split(s, c) == [parts[0]] + Split(tail, c);
    } else {
      assert Join(parts, [c]) == parts[0];
      assert IndexOf(parts[0], c) == |parts[0]|;
    }
  }

  /** The pieces on either side of one separator, sliced back out. */
  /** The three runs of a concatenation, sliced back out. */
  lemma ThreeRuns<T>(a: seq<T>, b: seq<T>, c: seq<T>)
    ensures var s := a + b + c;
      s[..|a|] == a && s[|a|..|a| + |b|] == b && s[|a| + |b|..] == c
  {
  }

  lemma SliceAround(a: string, c: char, b: string)
    ensures (a + [c] + b)[..|a|] == a && (a + [c] + b)[|a| + 1..] == b
  {
  }

  lemma {:induction false} IndexOfPrefix(a: string, c: char, b: string)
    requires c !in a
    ensures IndexOf(a + [c] + b, c) == |a|
  {
    if |a| > 0 {
      assert (a + [c] + b)[1..] == a[1..] + [c] + b;
      IndexOfPrefix(a[1..], c, b);
    }
  }

  /** A last piece without the separator splits off as one more piece. */
  lemma SplitAppendPiece(s: string, c: char, x: string)
    requires c !in x
    ensures Split(s + [c] + x, c) == Split(s, c) + [x]
  {
    var parts := Split(s, c);
    JoinAppend(parts, [c], x);
    SplitJoin(parts + [x], c);
  }

  /** Concatenation of the lines, each followed by a newline, as Go's
      `builder.WriteString(line + "\n")` loops produce. */
  function Terminated(lines: seq<string>): (r: string)
  {
    if |lines| == 0 then "" else lines[0] + "\n" + Terminated(lines[1..])
  }

  lemma {:induction false} TerminatedAppend(lines: seq<string>, more: seq<string>)
    ensures Terminated(lines + more) == Terminated(lines) + Terminated(more)
  {
    if |lines| > 0 {
      assert (lines + more)[1..] == lines[1..] + more;
      TerminatedAppend(lines[1..], more);
    } else {
      assert lines + more == more;
    }
  }

  /** A newline-terminated concatenation is the join of the lines and one empty piece. */
  lemma {:induction false} TerminatedAsJoin(lines: seq<string>)
    ensures Terminated(lines) == Join(lines + [""], "\n")
  {
    if |lines| > 0 {
      assert (lines + [""])[1..] == lines[1..] + [""];
      TerminatedAsJoin(lines[1..]);
    }
  }

  /** Splitting newline-terminated lines on newlines gives the lines back, plus the
      empty piece after the last newline. */
  lemma LinesOfTerminated(lines: seq<string>)
    requires forall i :: 0 <= i < |lines| ==> '\n' !in lines[i]
    ensures Split(Terminated(lines), '\n') == lines + [""]
  {
    var parts := lines + [""];
    forall i | 0 <= i < |parts|
      ensures '\n' !in parts[i]
    {
      if i < |lines| {
        assert parts[i] == lines[i];
      }
    }
    TerminatedAsJoin(lines);
    SplitJoin(parts, '\n');
  }

  /** Decimal digit of `d`. */
  function Digit(d: nat): char
    requires d < 10
  {
    ('0' as int + d) as char
  }

  /** Decimal rendering of a natural number (Go's `%d`, JavaScript's template
      interpolation): only digits, no leading zero, and injective. */
  function NatToString(n: nat): (r: string)
    ensures |r| >= 1
    ensures forall i :: 0 <= i < |r| ==> '0' <= r[i] <= '9'
    ensures |r| > 1 ==> r[0] != '0'
    decreases n
  {
    if n < 10 then [Digit(n)] else NatToString(n / 10) + [Digit(n % 10)]
  }

  /** Decimal rendering of an integer with a leading `-` for negatives (Go's `%d`). */
  function IntToString(n: int): (r: string)
    ensures |r| >= 1
    ensures n < 0 <==> r[0] == '-'
  {
    if n < 0 then "-" + NatToString(-n) else NatToString(n)
  }

  /** Reads back a decimal digit string; the inverse of `NatToString`. */
  function ParseNat(s: string): nat
    requires forall i :: 0 <= i < |s| ==> '0' <= s[i] <= '9'
  {
    if |s| == 0 then 0 else 10 * ParseNat(s[..|s| - 1]) + (s[|s| - 1] as int - '0' as int)
  }

  lemma {:induction false} ParseNatToString(n: nat)
    ensures ParseNat(NatToString(n)) == n
    decreases n
  {
    if n >= 10 {
      var r := NatToString(n);
      assert r[..|r| - 1] == NatToString(n / 10);
      ParseNatToString(n / 10);
      assert r[|r| - 1] as int - '0' as int == n % 10;
    }
  }

  /** Different numbers render differently. */
  lemma NatToStringInjective(a: nat, b: nat)
    requires NatToString(a) == NatToString(b)
    ensures a == b
  {
    ParseNatToString(a);
    ParseNatToString(b);
  }

  /** ASCII lower-casing of one character. */
  function LowerChar(c: char): char
  {
    if 'A' <= c <= 'Z' then (c as int + 32) as char else c
  }

  /** JavaScript's `toLowerCase`, restricted to ASCII letters. */
  function ToLower(s: string): (r: string)
    ensures |r| == |s|
    ensures forall i :: 0 <= i < |s| ==> r[i] == LowerChar(s[i])
  {
    seq(|s|, i requires 0 <= i < |s| => LowerChar(s[i]))
  }
}

=== FILE: template_form.dfy ===
/** The template editor's field list of
    `frontend/src/components/templates/template-form.tsx`: the default fields,
    adding a field under a fresh name, deleting all but the default fields,
    replacing a field by name, moving a field by drag and drop, and the two
    row editors' save buttons.  React state updates are functions from the old
    state to the new one. */
module TemplateForm {
  import opened Wrappers
  import opened Strs
  import opened Fields

  /** The names of `DEFAULT_FIELDS`, in order. */
  const DefaultNames: seq<string> := ["title", "date", "category", "tags", "permalink", "published"]

  /** The types of `DEFAULT_FIELDS`, in the order of `DefaultNames`. */
  const DefaultTypes: seq<string> := ["string", "dateTime", "string", "stringSlice", "string", "bool"]

  function Blank(name: string, fieldType: string, dateTime: string): FrontmatterField
  {
    FrontmatterField(name, fieldType, "", false, 0, dateTime, [])
  }

  /** `DEFAULT_FIELDS`; the date field's value is the moment the page was
      loaded, `currentDate`. */
  function DefaultFields(currentDate: string): (fs: seq<FrontmatterField>)
    ensures Names(fs) == DefaultNames
    ensures forall i :: 0 <= i < |fs| ==> fs[i].fieldType in KnownTypes
    ensures forall i :: 0 <= i < |fs| && fs[i].fieldType != "dateTime" ==> fs[i].dateTimeValue == UnsetDateTime
    ensures |fs| == |DefaultTypes| && forall i :: 0 <= i < |fs| ==> fs[i].fieldType == DefaultTypes[i]
    ensures fs[1].dateTimeValue == currentDate
    ensures forall i :: 0 <= i < |fs| ==> fs[i].stringValue == "" && fs[i].stringSliceValue == []
    ensures forall i :: 0 <= i < |fs| ==> !fs[i].boolValue && fs[i].numberValue == 0
  {
    var fs := [Blank("title", "string", UnsetDateTime), Blank("date", "dateTime", currentDate),
               Blank("category", "string", UnsetDateTime), Blank("tags", "stringSlice", UnsetDateTime),
               Blank("permalink", "string", UnsetDateTime), Blank("published", "bool", UnsetDateTime)];
    assert Names(fs) == DefaultNames by {
      assert forall i :: 0 <= i < 6 ==> Names(fs)[i] == DefaultNames[i];
    }
    fs
  }

  /** The form state the field list lives in: the fields and the error banner. */
  datatype FormState = FormState(fields: seq<FrontmatterField>, error: Option<string>)

  const DuplicateName: string := "A field with this name already exists"

  /** The field `handleAddField` builds: the slot of its type takes the value
      when the value has that slot's runtime type; every other slot keeps its
      empty default. */
  function NewField(name: string, fieldType: string, value: FormValue): (f: FrontmatterField)
    requires fieldType in KnownTypes
    ensures f.name == name && f.fieldType == fieldType
    ensures f.stringValue == (if fieldType == "string" && value.Str? then value.s else "")
    ensures f.boolValue == (fieldType == "bool" && value.Bool? && value.b)
    ensures f.numberValue == (if fieldType == "number" && value.Num? then value.n else 0)
    ensures f.dateTimeValue == (if fieldType == "dateTime" && value.Str? then value.s else "")
    ensures f.stringSliceValue == (if fieldType == "stringSlice" && value.List? then value.xs else [])
  {
    var f := Blank(name, fieldType, "");
    match fieldType
    case "string" => if value.Str? then f.(stringValue := value.s) else f
    case "bool" => if value.Bool? then f.(boolValue := value.b) else f
    case "number" => if value.Num? then f.(numberValue := value.n) else f
    case "dateTime" => if value.Str? then f.(dateTimeValue := value.s) else f
    case _ => if value.List? then f.(stringSliceValue := value.xs) else f
  }

  /** `handleAddField`: a name already in the list sets the duplicate error and
      answers false; an unknown type throws; otherwise the new field is
      appended, the error cleared and the answer is true. */
  function AddField(st: FormState, name: string, fieldType: string, value: FormValue): (r: Result<(FormState, bool)>)
    ensures name in Names(st.fields) ==> r == Ok((st.(error := Some(DuplicateName)), false))
    ensures name !in Names(st.fields) && fieldType !in KnownTypes ==> r == Panic("Unknown field type: " + fieldType)
    ensures name !in Names(st.fields) && fieldType in KnownTypes ==>
      && r.Ok? && r.value.1 && r.value.0.error.None?
      && |r.value.0.fields| == |st.fields| + 1
      && r.value.0.fields[..|st.fields|] == st.fields
      && r.value.0.fields[|st.fields|] == NewField(name, fieldType, value)
  {
    if name in Names(st.fields) then Ok((st.(error := Some(DuplicateName)), false))
    else if fieldType !in KnownTypes then Panic("Unknown field type: " + fieldType)
    else
      var fields := st.fields + [NewField(name, fieldType, value)];
      assert fields[..|st.fields|] == st.fields;
      Ok((FormState(fields, None), true))
  }

  /** Names stay unique under adding: the only way in checks for a clash. */
  lemma AddKeepsNamesDistinct(st: FormState, name: string, fieldType: string, value: FormValue)
    requires DistinctNames(st.fields)
    requires AddField(st, name, fieldType, value).Ok?
    ensures DistinctNames(AddField(st, name, fieldType, value).value.0.fields)
  {
    var fields := AddField(st, name, fieldType, value).value.0.fields;
    if name !in Names(st.fields) {
      forall i, j | 0 <= i < j < |fields|
        ensures fields[i].name != fields[j].name
      {
        if j == |st.fields| {
          assert Names(st.fields)[i] == fields[i].name;
        } else {
          assert fields[i] == st.fields[i] && fields[j] == st.fields[j];
        }
      }
    }
  }

  ghost predicate DistinctNames(fields: seq<FrontmatterField>)
  {
    forall i, j :: 0 <= i < j < |fields| ==> fields[i].name != fields[j].name
  }

  /** The new-field row: what is typed into it, and whether it is open. */
  datatype NewRow = NewRow(name: string, fieldType: string, value: FormValue, isAdding: bool)

  /** `NewFieldRow.handleSave`: nothing happens without a name and a type;
      otherwise the field is offered to `handleAddField`, and the row is
      cleared and closed only when it was accepted.  A fresh name with a known
      type is always accepted; an unknown type throws. */
  function SaveNewRow(row: NewRow, st: FormState): (r: Result<(NewRow, FormState)>)
    ensures row.name == "" || row.fieldType == "" ==> r == Ok((row, st))
    ensures row.name != "" && row.fieldType != "" && row.name in Names(st.fields) ==>
      r == Ok((row, st.(error := Some(DuplicateName))))
    ensures row.name != "" && row.fieldType != "" && row.name !in Names(st.fields) && row.fieldType !in KnownTypes ==>
      r == Panic("Unknown field type: " + row.fieldType)
    ensures row.name != "" && row.fieldType != "" && row.name !in Names(st.fields) && row.fieldType in KnownTypes ==>
      r == Ok((NewRow("", "", Str(""), false), FormState(st.fields + [NewField(row.name, row.fieldType, row.value)], None)))
    ensures r.Ok? && r.value.0 != row ==>
      && row.fieldType in KnownTypes
      && r.value.0 == NewRow("", "", Str(""), false)
      && r.value.1.fields == st.fields + [NewField(row.name, row.fieldType, row.value)]
  {
    if row.name == "" || row.fieldType == "" then Ok((row, st))
    else
      var (st', added) :- AddField(st, row.name, row.fieldType, row.value);
      if added then Ok((NewRow("", "", Str(""), false), st')) else Ok((row, st'))
  }

  /** Every field except those named `name`, in their order. */
  function RemoveNamed(fields: seq<FrontmatterField>, name: string): (r: seq<FrontmatterField>)
    ensures forall f :: f in r <==> f in fields && f.name != name
    ensures |r| <= |fields|
  {
    if |fields| == 0 then []
    else (if fields[0].name == name then [] else [fields[0]]) + RemoveNamed(fields[1..], name)
  }

  /** Removal keeps the order of what remains: it distributes over
      concatenation. */
  lemma {:induction false} RemoveNamedAppend(a: seq<FrontmatterField>, b: seq<FrontmatterField>, name: string)
    ensures RemoveNamed(a + b, name) == RemoveNamed(a, name) + RemoveNamed(b, name)
  {
    if |a| > 0 {
      var h := if a[0].name == name then [] else [a[0]];
      assert (a + b)[0] == a[0] && (a + b)[1..] == a[1..] + b;
      RemoveNamedAppend(a[1..], b, name);
      assert RemoveNamed(a + b, name) == h + RemoveNamed(a[1..] + b, name);
      ConcatAssoc(h, RemoveNamed(a[1..], name), RemoveNamed(b, name));
    } else {
      assert a + b == b;
    }
  }

  /** Removing a name nobody has changes nothing. */
  lemma {:induction false} RemoveAbsent(fields: seq<FrontmatterField>, name: string)
    requires name !in Names(fields)
    ensures RemoveNamed(fields, name) == fields
  {
    if |fields| > 0 {
      assert Names(fields)[0] == fields[0].name;
      assert Names(fields[1..]) == Names(fields)[1..];
      RemoveAbsent(fields[1..], name);
      assert fields == [fields[0]] + fields[1..];
    }
  }

  /** `handleDelete`: a default field's name is never removed; any other name
      removes every field that has it. */
  function DeleteField(fields: seq<FrontmatterField>, name: string): (r: seq<FrontmatterField>)
    ensures name in DefaultNames ==> r == fields
    ensures name !in DefaultNames ==> forall f :: f in r <==> f in fields && f.name != name
  {
    if name in DefaultNames then fields else RemoveNamed(fields, name)
  }

  /** Deleting never takes a default field away. */
  lemma DeleteKeepsDefaults(fields: seq<FrontmatterField>, name: string, f: FrontmatterField)
    requires f in fields && f.name in DefaultNames
    ensures f in DeleteField(fields, name)
  {
  }

  /** `handleUpdate`: every field named `oldName` is replaced by the new field,
      in place; no uniqueness check is made. */
  function UpdateField(fields: seq<FrontmatterField>, oldName: string, updated: FrontmatterField)
    : (r: seq<FrontmatterField>)
    ensures |r| == |fields|
    ensures forall i :: 0 <= i < |fields| && fields[i].name != oldName ==> r[i] == fields[i]
    ensures forall i :: 0 <= i < |fields| && fields[i].name == oldName ==> r[i] == updated
  {
    seq(|fields|, i requires 0 <= i < |fields| => if fields[i].name == oldName then updated else fields[i])
  }

  /** An update that keeps the name keeps the list of names; an update of a
      name nobody has changes nothing. */
  lemma UpdateNames(fields: seq<FrontmatterField>, oldName: string, updated: FrontmatterField)
    ensures updated.name == oldName ==> Names(UpdateField(fields, oldName, updated)) == Names(fields)
    ensures oldName !in Names(fields) ==> UpdateField(fields, oldName, updated) == fields
  {
    var r := UpdateField(fields, oldName, updated);
    if oldName !in Names(fields) {
      forall i | 0 <= i < |fields| ensures r[i] == fields[i] {
        assert Names(fields)[i] == fields[i].name;
      }
    }
  }

  /** Renaming a field to a name another field has is accepted, so the list
      can end up with two fields of one name. */
  lemma UpdateMayDuplicate()
    ensures var fields := [Blank("a", "string", ""), Blank("b", "string", "")];
      var r := UpdateField(fields, "a", Blank("b", "string", ""));
      DistinctNames(fields) && !DistinctNames(r)
  {
    var fields := [Blank("a", "string", ""), Blank("b", "string", "")];
    var r := UpdateField(fields, "a", Blank("b", "string", ""));
    assert r[0].name == r[1].name;
  }

  /** `arrayMove(s, from, to)` for indices in the list: the element at `from`
      is taken out and put back in at `to`. */
  function Move<T>(s: seq<T>, from: nat, to: nat): (r: seq<T>)
    requires from < |s| && to < |s|
    ensures |r| == |s| && r[to] == s[from]
    ensures r[..to] + r[to + 1..] == s[..from] + s[from + 1..]
    ensures multiset(r) == multiset(s)
  {
    var rest := s[..from] + s[from + 1..];
    assert s == s[..from] + [s[from]] + s[from + 1..];
    assert multiset(s) == multiset(rest) + multiset{s[from]};
    assert rest == rest[..to] + rest[to..];
    TakeOutInserted(rest, to, s[from]);
    rest[..to] + [s[from]] + rest[to..]
  }

  /** Moving an element there and back again restores the list. */
  lemma MoveBack<T>(s: seq<T>, from: nat, to: nat)
    requires from < |s| && to < |s|
    ensures Move(Move(s, from, to), to, from) == s
  {
    var rest := s[..from] + s[from + 1..];
    var m := Move(s, from, to);
    assert m == rest[..to] + [s[from]] + rest[to..];
    TakeOutInserted(rest, to, s[from]);
    PutBackTaken(s, from);
  }

  /** Taking out an element just put in gives the list it was put into. */
  lemma TakeOutInserted<T>(rest: seq<T>, i: nat, x: T)
    requires i <= |rest|
    ensures var m := rest[..i] + [x] + rest[i..];
      m[..i] + m[i + 1..] == rest
  {
    var m := rest[..i] + [x] + rest[i..];
    assert m[..i] == rest[..i];
    assert m[i + 1..] == rest[i..];
  }

  /** Putting back an element where it was taken out restores the list. */
  lemma PutBackTaken<T>(s: seq<T>, i: nat)
    requires i < |s|
    ensures var rest := s[..i] + s[i + 1..];
      rest[..i] + [s[i]] + rest[i..] == s
  {
    var rest := s[..i] + s[i + 1..];
    assert rest[..i] == s[..i];
    assert rest[i..] == s[i + 1..];
  }

  /** The first index whose field has the name, or -1 (`findIndex`). */
  function FindIndex(fields: seq<FrontmatterField>, name: string): (k: int)
    ensures -1 <= k < |fields|
    ensures k >= 0 ==> fields[k].name == name && forall i :: 0 <= i < k ==> fields[i].name != name
    ensures k == -1 ==> name !in Names(fields)
  {
    if |fields| == 0 then -1
    else if fields[0].name == name then 0
    else
      var k := FindIndex(fields[1..], name);
      assert Names(fields) == [fields[0].name] + Names(fields[1..]);
      if k == -1 then -1 else k + 1
  }

  /** `arrayMove` takes a negative index from the end, so a name not found
      (-1) stands for the last field. */
  function FromEnd(k: int, n: nat): (i: nat)
    requires -1 <= k < n
    ensures i < n || n == 0
  {
    if k >= 0 then k else if n == 0 then 0 else n - 1
  }

  /** `handleDragEnd`: no drop target, or a drop onto the dragged row itself,
      changes nothing; otherwise the dragged field moves to the target's
      position.  The rows are keyed by field name. */
  function DragEnd(fields: seq<FrontmatterField>, active: string, over: Option<string>)
    : (r: seq<FrontmatterField>)
    ensures over.None? || over.value == active ==> r == fields
    ensures |r| == |fields| && multiset(r) == multiset(fields)
    ensures over.Some? && over.value != active && active in Names(fields) && over.value in Names(fields) ==>
      var from := FindIndex(fields, active);
      var to := FindIndex(fields, over.value);
      && r[to] == fields[from]
      && r[..to] + r[to + 1..] == fields[..from] + fields[from + 1..]
  {
    if over.None? || over.value == active || |fields| == 0 then fields
    else
      var n := |fields|;
      Move(fields, FromEnd(FindIndex(fields, active), n), FromEnd(FindIndex(fields, over.value), n))
  }

  /** `String(value)` of JavaScript: arrays join their elements with commas. */
  function JsString(v: FormValue): string
  {
    match v
    case Str(s) => s
    case Bool(b) => if b then "true" else "false"
    case Num(n) => IntToString(n)
    case List(xs) => if |xs| == 0 then "" else Join(xs, ",")
  }

  /** `Boolean(value)`: the empty string and zero are false, arrays are true. */
  function JsBoolean(v: FormValue): bool
  {
    match v
    case Str(s) => s != ""
    case Bool(b) => b
    case Num(n) => n != 0
    case List(_) => true
  }

  /** `SortableRow.handleSave`: the edited name and type, the chosen type's
      slot converted from the edited value, and every other slot reset to its
      empty default.  `toNumber` stands for JavaScript's `Number(value)`; a
      list slot takes the value only when it is an array. */
  function RowField(name: string, fieldType: string, value: FormValue, toNumber: FormValue -> int): (f: FrontmatterField)
    ensures f.name == name && f.fieldType == fieldType
    ensures fieldType != "string" ==> f.stringValue == ""
    ensures fieldType != "bool" ==> !f.boolValue
    ensures fieldType != "number" ==> f.numberValue == 0
    ensures fieldType != "dateTime" ==> f.dateTimeValue == ""
    ensures fieldType != "stringSlice" ==> f.stringSliceValue == []
    ensures fieldType == "string" || fieldType == "dateTime" ==>
      (value.Str? ==> f.stringValue + f.dateTimeValue == value.s)
  {
    FrontmatterField(
      name, fieldType,
      if fieldType == "string" then JsString(value) else "",
      fieldType == "bool" && JsBoolean(value),
      if fieldType == "number" then toNumber(value) else 0,
      if fieldType == "dateTime" then JsString(value) else "",
      if fieldType == "stringSlice" && value.List? then value.xs else [])
  }

  /** The value a row editor starts from: the slot of the field's type, or
      the empty string for an unknown type. */
  function InitialValue(f: FrontmatterField): FormValue
  {
    match f.fieldType
    case "string" => Str(f.stringValue)
    case "bool" => Bool(f.boolValue)
    case "number" => Num(f.numberValue)
    case "dateTime" => Str(f.dateTimeValue)
    case "stringSlice" => List(f.stringSliceValue)
    case _ => Str("")
  }

  /** A field whose slots other than its type's hold the empty defaults. */
  predicate Normalized(f: FrontmatterField)
  {
    && (f.fieldType != "string" ==> f.stringValue == "")
    && (f.fieldType != "bool" ==> !f.boolValue)
    && (f.fieldType != "number" ==> f.numberValue == 0)
    && (f.fieldType != "dateTime" ==> f.dateTimeValue == "")
    && (f.fieldType != "stringSlice" ==> f.stringSliceValue == [])
  }

  /** Opening a row editor and saving it without an edit gives the same field
      back, for a normalized field of a known type (and a `Number` that keeps
      numbers). */
  lemma RowSaveUnchanged(f: FrontmatterField, toNumber: FormValue -> int)
    requires f.fieldType in KnownTypes && Normalized(f)
    requires toNumber(Num(f.numberValue)) == f.numberValue
    ensures RowField(f.name, f.fieldType, InitialValue(f), toNumber) == f
  {
  }

  /** `SortableRow.handleSave` on the list: the saved field replaces every
      field with the row's original name. */
  function SaveRow(fields: seq<FrontmatterField>, original: FrontmatterField,
                   name: string, fieldType: string, value: FormValue, toNumber: FormValue -> int)
    : (r: seq<FrontmatterField>)
    ensures |r| == |fields|
    ensures forall i :: 0 <= i < |fields| ==>
      r[i] == if fields[i].name == original.name then RowField(name, fieldType, value, toNumber) else fields[i]
  {
    UpdateField(fields, original.name, RowField(name, fieldType, value, toNumber))
  }
}

=== FILE: wrappers.dfy ===
/** Failure-compatible result types shared by every module of the model.

    Go code in the modelled system fails in two different ways: a function
    returns a non-nil `error`, or the goroutine panics (a type assertion without
    the `, ok` form, `strings.Repeat` with a negative count, ...).  `Result`
    keeps the two apart so that contracts can say which one happens. */
module Wrappers {

  datatype Option<+T> = None | Some(value: T) {
    function GetOr(default: T): T
    {
      match this
      case Some(v) => v
      case None => default
    }
  }

  /** `Err` is a returned error carrying its message; `Panic` is a Go panic. */
  datatype Result<+T> = Ok(value: T) | Err(msg: string) | Panic(msg: string) {

    predicate IsFailure() {
      !Ok?
    }

    function PropagateFailure<U>(): (r: Result<U>)
      requires !Ok?
      ensures r.Err? == Err? && r.Panic? == Panic? && r.msg == msg
    {
      if Err? then Err(msg) else Panic(msg)
    }

    function Extract(): T
      requires Ok?
    {
      value
    }

    /** Go's `fmt.Errorf("<prefix>%w", err)`: wraps a returned error, lets a panic through. */
    function Wrap<U>(prefix: string): (r: Result<U>)
      requires !Ok?
      ensures Err? ==> r == Err(prefix + msg)
      ensures Panic? ==> r == Panic(msg)
    {
      if Err? then Err(prefix + msg) else Panic(msg)
    }
  }

  /** A run of string-producing steps, as a Go loop that appends each step's
      output to a buffer and returns on the first failure: the concatenation of
      the outputs, or the failure of the first step that fails. */
  function Concat(steps: seq<Result<string>>): (r: Result<string>)
    ensures r.Ok? <==> forall i :: 0 <= i < |steps| ==> steps[i].Ok?
    ensures |steps| == 0 ==> r == Ok("")
    ensures |steps| == 1 ==> r == steps[0]
  {
    if |steps| == 0 then Ok("")
    else if !steps[0].Ok? then steps[0]
    else
      var rest := Concat(steps[1..]);
      assert forall i :: 1 <= i < |steps| ==> steps[i] == steps[1..][i - 1];
      if !rest.Ok? then rest
      else
        assert |steps| == 1 ==> steps[0].value + rest.value == steps[0].value;
        Ok(steps[0].value + rest.value)
  }

  /** Running two runs of steps one after the other concatenates their outputs. */
  lemma {:induction false} ConcatAppend(a: seq<Result<string>>, b: seq<Result<string>>)
    requires Concat(a).Ok? && Concat(b).Ok?
    ensures Concat(a + b) == Ok(Concat(a).value + Concat(b).value)
  {
    if |a| > 0 {
      assert (a + b)[0] == a[0];
      assert (a + b)[1..] == a[1..] + b;
      assert Concat(a[1..]).Ok?;
      ConcatAppend(a[1..], b);
      assert a[0].value + (Concat(a[1..]).value + Concat(b).value)
        == (a[0].value + Concat(a[1..]).value) + Concat(b).value;
    } else {
      assert a + b == b;
      assert Concat(a).value + Concat(b).value == Concat(b).value;
    }
  }

  /** `f` applied to every element, in order. */
  function Map<A, B>(xs: seq<A>, f: A -> B): (ys: seq<B>)
    ensures |ys| == |xs| && forall i :: 0 <= i < |xs| ==> ys[i] == f(xs[i])
  {
    seq(|xs|, i requires 0 <= i < |xs| => f(xs[i]))
  }

  lemma MapAppend<A, B>(a: seq<A>, b: seq<A>, f: A -> B)
    ensures Map(a + b, f) == Map(a, f) + Map(b, f)
  {
    var l, r := Map(a + b, f), Map(a, f) + Map(b, f);
    forall i | 0 <= i < |l|
      ensures l[i] == r[i]
    {
      if i < |a| {
        assert (a + b)[i] == a[i];
      } else {
        assert (a + b)[i] == b[i - |a|];
      }
    }
  }

  /** A run of steps that each produce a value, as a Go loop that appends each
      result to a slice and returns on the first failure: every value in order,
      or the failure of the first step that fails. */
  function Collect<T>(steps: seq<Result<T>>): (r: Result<seq<T>>)
    ensures r.Ok? <==> forall i :: 0 <= i < |steps| ==> steps[i].Ok?
    ensures r.Ok? ==> |r.value| == |steps| && forall i :: 0 <= i < |steps| ==> r.value[i] == steps[i].value
  {
    if |steps| == 0 then Ok([])
    else if !steps[0].Ok? then steps[0].PropagateFailure()
    else
      var rest := Collect(steps[1..]);
      assert forall i :: 1 <= i < |steps| ==> steps[i] == steps[1..][i - 1];
      if !rest.Ok? then rest else Ok([steps[0].value] + rest.value)
  }

  /** Step `k` is the first step that fails. */
  predicate FirstFailure<T>(steps: seq<Result<T>>, k: int)
  {
    0 <= k < |steps| && !steps[k].Ok? && forall j :: 0 <= j < k ==> steps[j].Ok?
  }

  /** Past a first step that succeeds, the first failure is one step earlier. */
  lemma FirstFailureTail<T>(steps: seq<Result<T>>, k: int)
    requires FirstFailure(steps, k) && k > 0
    ensures steps[0].Ok? && FirstFailure(steps[1..], k - 1)
  {
    forall j | 0 <= j < k - 1
      ensures steps[1..][j].Ok?
    {
      assert steps[1..][j] == steps[j + 1];
    }
  }

  /** Concatenation stops at the first failure and returns it. */
  lemma {:induction false} ConcatFails(steps: seq<Result<string>>, k: int)
    requires FirstFailure(steps, k)
    ensures Concat(steps) == steps[k]
  {
    if k > 0 {
      FirstFailureTail(steps, k);
      ConcatFails(steps[1..], k - 1);
    }
  }

  /** Collection stops at the first failure and returns it. */
  lemma {:induction false} CollectFails<T>(steps: seq<Result<T>>, k: int)
    requires FirstFailure(steps, k)
    ensures Collect(steps) == steps[k].PropagateFailure()
  {
    if k > 0 {
      FirstFailureTail(steps, k);
      CollectFails(steps[1..], k - 1);
    }
  }
}
